=== FILE: README.md ===
# Databricks agent demos: a Dafny model of the chat pipeline

This project models the core of a set of Databricks agent demo apps. Each app is a Python agent server paired with a React chat UI. The model covers the pieces that decide what a user sees:

- **Python side**
  - **`AgentServer`**: the generic server of the OpenAI-Agents-SDK demo. It has one `/invocations` endpoint. It validates the request against the agent type and calls the handler registered with `@invoke()` or `@stream()`. It either returns a JSON body or streams server-sent events. The stream is one `data: <json.dumps(chunk)>` frame per chunk, then an optional trace frame or `{"error": …}` frame, then `data: [DONE]`.
  - **`KnownSchemaServer`**: the known-schema demo's copy of that server.
  - **`ToolAgent`**: the tool-calling agent loop of the Responses-API demo.
  - **`McpConfig`**: the `MCP_SERVERS` configuration parser and MCP server URLs.
  - **`DatabricksHost`**: Databricks host normalisation.
- **UI side**
  - **`Schema`**: the Zod schemas of the Responses wire format.
  - **`Client`**: the TypeScript API client, including its SSE event handler.
  - **`ChatSession`**: the `useStreamingChat` hook.
  - **`Renderer`** and **`LanggraphRenderer`**: the consolidated renderers of the known-schema and LangGraph UIs.
  - **`MessageInput`**: the chat input box.
  - **`ConfigPanel`**: the settings panel.
- **Shared and end-to-end**
  - **`ServerCommon`**: the pieces both servers share. These are the handler registry, the request prelude, result conversion and the event-stream generator.
  - **`Framing`**: SSE framing and parsing.
  - **`Json`**: a JSON value type with Python `json.dumps` and JS `JSON.stringify`.
  - **`Strings`**: string helpers, including `strip`/`trim`, `split` and `lower`.
  - **`Pipeline`**: the end-to-end statement. Items a server streams reach the chat history, and a server-side failure is lost on the way. A corrected client reports that failure.

What the model leaves to parameters:

- **Parsing and the runtime:** `JSON.parse`, `json.loads` and `request.json()` are a `parse` parameter or an already-parsed `Result`.
- **Python constructors:** pydantic and dataclass construction is a `construct` oracle that either succeeds or raises.
- **The agent and the tracer:** the LLM, the tools and the trace store are parameters.
- **Time and I/O:** clocks, logging and the network are left out.

## Model

| member | source | states |
|---|---|---|
| Strings.Trim | known-schema-agent/src/ui/src/components/chat/MessageInput.tsx:25 | `trim()`/`strip()`: the result is the input minus its leading and trailing whitespace runs; it is empty exactly when the input is all whitespace, and otherwise starts and ends with non-whitespace |
| Strings.Split | agent_server/agent.py:63 | `str.split(",")`: at least one piece, and no piece contains the separator |
| Strings.IndexOf | agent_server/agent.py:70 | the first occurrence of `:` that `split(":", 1)` cuts at: no earlier occurrence, and the character found is the separator |
| Strings.AsciiLower | agent_server/agent.py:72 | `lower()` on the type name: same length, upper-case ASCII letters lowered, everything else kept |
| Strings.ReplaceChar | agent_server/agent.py:89 | `identifier.replace(".", "/")`: position by position, every dot becomes a slash and nothing else changes |
| Json.ParseEach | known-schema-agent/ui/src/schemas/validation.ts:17 | `z.array(schema)`: succeeds with one value per element, each the element's own parse |
| Json.Set | known-schema-agent/src/agent_server/server.py:183 | `result["databricks_output"] = …`: the key now maps to the value, every other key reads as before, every other field survives |
| Json.Remove | openai-agents-sdk/src/agent_server/server.py:351 | the request minus `stream`: the key is gone, all other keys read as before, no field is invented |
| Json.Dumps | openai-agents-sdk/src/agent_server/server.py:452 | `json.dumps` with its default `ensure_ascii`: the output is printable ASCII, so it never contains a raw newline |
| Json.Stringify | known-schema-agent/src/ui/src/components/chat/ConsolidatedRenderer.tsx:195 | `JSON.stringify` of an argument value never contains a control character |
| Schema.ReqStr | known-schema-agent/ui/src/schemas/validation.ts:6 | a required `z.string()` field succeeds exactly when the key is present with a string value, and yields that string |
| Schema.ReqInt | known-schema-agent/ui/src/schemas/validation.ts:7 | a required `z.number()` field succeeds exactly when the key holds a number |
| Schema.OptStr | known-schema-agent/ui/src/schemas/validation.ts:9 | `.optional()`: an absent key is accepted as undefined, a present key must be a string, anything else fails |
| Schema.OptInt | known-schema-agent/ui/src/schemas/validation.ts:88 | optional number: absent is undefined, present must be a number |
| Schema.OptBool | known-schema-agent/ui/src/schemas/validation.ts:122 | optional boolean: absent is undefined, present must be a boolean |
| Schema.ParseAnnotationType | known-schema-agent/ui/src/schemas/validation.ts:5 | the enum accepts exactly its three names, and names the value it accepts |
| Schema.ParseAnnotation | known-schema-agent/ui/src/schemas/validation.ts:4-12 | an accepted annotation is an object whose type tag, text, indices, url, file id and container file id are the decoded ones; a rejected one lacks the object shape, a known tag, its text or indices, or has an ill-typed optional field |
| Schema.AnnotationRoundTrip | known-schema-agent/ui/src/schemas/validation.ts:4-12 | every annotation the UI can hold survives encoding and re-validation unchanged, optional fields included |
| Schema.AnnotationsRoundTrip | known-schema-agent/ui/src/schemas/validation.ts:17 | a list of annotations survives encoding and re-validation |
| Schema.ParseOutputText | known-schema-agent/ui/src/schemas/validation.ts:14-18 | an accepted text part is tagged `output_text` and carries the decoded text, and its annotations exactly when the object has them, each a valid annotation; a rejected one lacks the shape, tag or text, or has annotations that are not a list of valid annotations |
| Schema.OutputTextRoundTrip | known-schema-agent/ui/src/schemas/validation.ts:14-18 | text parts, with or without annotations, survive encoding and re-validation |
| Schema.OutputTextsRoundTrip | known-schema-agent/ui/src/schemas/validation.ts:24 | a message's content list survives encoding and re-validation |
| Schema.ParseToolStatus | known-schema-agent/ui/src/schemas/validation.ts:33 | the status enum accepts exactly pending, completed and failed |
| Schema.ParseOutputItem | known-schema-agent/ui/src/schemas/validation.ts:60-66 | the discriminated union: an accepted item is an object whose tag is one of the five item types and matches the decoded variant, carrying that shape's decoded fields (ids, call id, name, arguments, status when present, output, summary and optional content, code and message); a message must have role `assistant` and its content is the decoded text parts |
| Schema.MessageRoundTrip | known-schema-agent/ui/src/schemas/validation.ts:20-25 | an assistant message survives encoding and re-validation |
| Schema.FunctionCallRoundTrip | known-schema-agent/ui/src/schemas/validation.ts:27-34 | a tool call, with or without status, survives encoding and re-validation |
| Schema.FunctionCallOutputRoundTrip | known-schema-agent/ui/src/schemas/validation.ts:36-40 | a tool output survives encoding and re-validation |
| Schema.ReasoningRoundTrip | known-schema-agent/ui/src/schemas/validation.ts:42-47 | a reasoning item, with or without content, survives encoding and re-validation |
| Schema.ErrorItemRoundTrip | known-schema-agent/ui/src/schemas/validation.ts:54-58 | an error item survives encoding and re-validation |
| Schema.OutputItemRoundTrip | known-schema-agent/ui/src/schemas/validation.ts:60-66 | every output item is accepted by the union as itself |
| Schema.OutputItemsRoundTrip | known-schema-agent/ui/src/schemas/validation.ts:109 | a list of output items survives encoding and re-validation |
| Schema.ParseInputRole | known-schema-agent/ui/src/schemas/validation.ts:70 | the input-role enum accepts exactly user, developer and system |
| Schema.ParseInputMessage | known-schema-agent/ui/src/schemas/validation.ts:68-72 | an accepted input message is tagged `message` and carries the decoded role name and string content |
| Schema.ParseInputItem | known-schema-agent/ui/src/schemas/validation.ts:74-77 | the corrected union: a valid input message is accepted as that message and a valid output item as that item, and an item is rejected only when both reject it |
| Schema.InputItemRoundTrip | known-schema-agent/ui/src/schemas/validation.ts:74-77 | under the corrected union every history item is accepted as itself; the union as written throws instead (finding 4) |
| Schema.InputItemsRoundTrip | known-schema-agent/ui/src/schemas/validation.ts:121 | a whole history survives encoding and re-validation |
| Schema.ParseItemDone | known-schema-agent/ui/src/schemas/validation.ts:79-82 | an accepted `output_item.done` event carries an `item` that is itself a valid output item |
| Schema.ItemDoneRoundTrip | known-schema-agent/ui/src/schemas/validation.ts:79-82 | an item-done event survives encoding and re-validation |
| Schema.ParseTextDelta | known-schema-agent/ui/src/schemas/validation.ts:84-91 | an accepted delta carries the decoded delta text, item id and optional output index |
| Schema.TextDeltaRoundTrip | known-schema-agent/ui/src/schemas/validation.ts:84-91 | a text-delta event survives encoding and re-validation |
| Schema.ParseAnnotationAdded | known-schema-agent/ui/src/schemas/validation.ts:93-101 | an accepted annotation-added event carries a valid annotation and the decoded item id, annotation index and sequence number |
| Schema.ParseErrorEvent | known-schema-agent/ui/src/schemas/validation.ts:116 | an error event is accepted exactly as the error-item schema would accept it |
| Schema.ErrorEventRoundTrip | known-schema-agent/ui/src/schemas/validation.ts:116 | an error event survives encoding and re-validation |
| Schema.ParseStreamEvent | known-schema-agent/ui/src/schemas/validation.ts:113-118 | an accepted event is an object tagged with one of the four event types, matching the decoded variant; item-done and error events carry valid items |
| Schema.StreamEventRoundTrip | known-schema-agent/ui/src/schemas/validation.ts:113-118 | every stream event, annotation-added included, is accepted by the union as itself |
| Schema.ParseOptions | known-schema-agent/ui/src/schemas/validation.ts:123-127 | an absent `databricks_options` is accepted as undefined; a present one must be an object whose `return_trace` is an optional boolean, which is the decoded flag |
| Schema.ParseRequest | known-schema-agent/ui/src/schemas/validation.ts:120-128 | under the corrected union, an accepted request has an `input` list whose every element is a valid history item, and the decoded optional `stream` flag |
| Schema.RequestRoundTrip | known-schema-agent/ui/src/schemas/validation.ts:120-128 | every request survives encoding and re-validation |
| Schema.MessageFormsDisjoint | known-schema-agent/ui/src/schemas/validation.ts:68-77 | no object is both a valid input message and a valid output item, so the corrected union does not depend on the order of its options |
| Schema.FirstDuplicate | known-schema-agent/ui/src/schemas/validation.ts:74-77 | a value is reported only when two options claim it, and none is reported only when all the values are distinct |
| Schema.ParseRequestWith | known-schema-agent/ui/src/schemas/validation.ts:74-77 | validation throws "Duplicate discriminator value" exactly when two options share a value and some `input` element is an object; otherwise it is the corrected validation |
| Schema.InputItemDiscriminatorsShared | known-schema-agent/ui/src/schemas/validation.ts:74-77 | as written, the input message and the output message both claim `message` |
| Schema.RequestAsWrittenThrows | known-schema-agent/ui/src/schemas/validation.ts:74-77 | as written, validating any request with at least one history item throws `Duplicate discriminator value "message"` (finding 4) |
| Schema.EmptyRequestAsWritten | known-schema-agent/ui/src/schemas/validation.ts:120-128 | as written, a request with empty `input` is still accepted as itself |
| Schema.RequestRoundTripCorrected | known-schema-agent/ui/src/schemas/validation.ts:120-128 | with distinct discriminator values, every request survives encoding and validation |
| Schema.ParseResponseError | known-schema-agent/ui/src/schemas/validation.ts:110 | an absent `error` is accepted as undefined; a present one must be an object with string `code` and `message`, which are the decoded ones |
| Schema.ParseResponse | known-schema-agent/ui/src/schemas/validation.ts:107-111 | an accepted response has a string id and an `output` list of valid output items |
| Schema.ResponseRoundTrip | known-schema-agent/ui/src/schemas/validation.ts:107-111 | every response, with or without an error, survives encoding and re-validation |
| Client.InitialBaseUrl | known-schema-agent/ui/src/api/client.ts:22-33 | the local server when there is no window or the origin mentions localhost, the page origin otherwise |
| Client.UpdateBaseUrl | known-schema-agent/ui/src/api/client.ts:35-37 | the regex removes exactly one trailing slash, and nothing when there is none |
| Client.UpdateBaseUrlRemovesOne | known-schema-agent/ui/src/api/client.ts:35-37 | a double slash keeps one slash; a URL with one added slash comes back to itself |
| Client.HttpError | known-schema-agent/ui/src/api/client.ts:50-52 | a failed status becomes an `Error` whose message starts with `HTTP ` |
| Client.SendMessage | known-schema-agent/ui/src/api/client.ts:39-64 | a non-OK reply throws the HTTP error, a body that fails to read throws its error; otherwise the call succeeds, validated when the schema accepts and passed through raw when it does not |
| Client.SendMessageValidates | known-schema-agent/ui/src/api/client.ts:54-58 | a reply carrying any well-formed response comes back validated as that response |
| Client.StreamBody | known-schema-agent/ui/src/api/client.ts:69 | the spread sets `stream` to true and leaves every other key as it was |
| Client.StreamBodyParses | known-schema-agent/ui/src/api/client.ts:69-76 | the body sent for streaming is a valid request equal to the caller's with `stream: true` |
| Client.HandleEvent | known-schema-agent/ui/src/api/client.ts:92-140 | `[DONE]`, unparsable data and any object with a truthy `error` are skipped; only a valid item-done or error event enqueues an item, namely the done event's item or the error event itself |
| Client.ItemDoneEnqueued | known-schema-agent/ui/src/api/client.ts:107-120 | every item-done event enqueues its item |
| Client.ErrorEventEnqueued | known-schema-agent/ui/src/api/client.ts:121-126 | every error event is enqueued as an error item |
| Client.PartialEventsSkipped | known-schema-agent/ui/src/api/client.ts:127-132 | text deltas and annotation-added events enqueue nothing |
| Client.ServerErrorFrameSkipped | known-schema-agent/ui/src/api/client.ts:97-102 | the server's `{"error": msg}` frame enqueues nothing: the throw is caught by the surrounding parse `catch` (finding 1, as written) |
| Client.Decode | known-schema-agent/ui/src/api/client.ts:92-165 | the per-event reference for the stream: at most one item per event; `ReadChunks` is checked against it |
| Client.DecodeNothing | known-schema-agent/ui/src/api/client.ts:92-165 | a stream yields no item exactly when the handler skips every one of its events |
| Client.DecodeAppend | known-schema-agent/ui/src/api/client.ts:149-165 | decoding distributes over concatenation of event sequences |
| Client.DecodeChunks | known-schema-agent/ui/src/api/client.ts:150-165 | reading one more chunk adds exactly that chunk's items after the earlier ones |
| Client.Feed | known-schema-agent/ui/src/api/client.ts:155-156 | feeding a chunk appends its decoded items to the queue |
| Client.Drain | known-schema-agent/ui/src/api/client.ts:159-165 | the inner loop yields the whole queue in order and empties it |
| Client.ReadChunks | known-schema-agent/ui/src/api/client.ts:149-166 | the read loop yields exactly the decoded items of all chunks, in order |
| Client.StreamMessage | known-schema-agent/ui/src/api/client.ts:66-171 | a non-OK reply throws the HTTP error before yielding, a missing body throws "No response body for streaming", otherwise the generator yields the decoded items of the body and returns normally |
| Client.StreamErrorMessage | known-schema-agent/ui/src/api/client.ts:100-101 | the message of a reported stream error is never empty |
| Client.HandleEventFixed | known-schema-agent/ui/src/api/client.ts:97-102 | corrected handler: fails exactly on a parsed frame whose `error` field is present and not null, and otherwise passes or delivers just as the original handler skips or enqueues |
| Client.DecodeFixed | known-schema-agent/ui/src/api/client.ts:92-171 | corrected stream: fails exactly when some event fails, with a non-empty message; without failure it yields what the original yields |
| Client.ServerErrorFrameFailsOne | known-schema-agent/ui/src/api/client.ts:100-101 | under the corrected handler an error frame fails with its message, or "Stream error" when empty |
| Client.ServerErrorFrameFails | known-schema-agent/ui/src/api/client.ts:97-102 | under the corrected handler the stream ends at the first error frame with that failure, after the items before it (finding 1, corrected) |
| ChatSession.StreamErrorItem | responses-api-agent/ui/src/hooks/useAgentApi.ts:73-82 | a failure becomes a `STREAM_ERROR` error item carrying the error's message, or "Unknown error" for a non-Error throw |
| ChatSession.Send | responses-api-agent/ui/src/hooks/useAgentApi.ts:34-59 | sending appends the user message, starts streaming, and requests the whole history plus that message with `stream: true` |
| ChatSession.Receive | responses-api-agent/ui/src/hooks/useAgentApi.ts:61-71 | a chunk is appended only while the turn is live; after an abort the loop breaks and the history is unchanged |
| ChatSession.End | responses-api-agent/ui/src/hooks/useAgentApi.ts:72-89 | a live turn that threw appends one error item and stops streaming; an aborted turn changes neither history nor the streaming flag |
| ChatSession.Stop | responses-api-agent/ui/src/hooks/useAgentApi.ts:94-99 | stopping during a turn aborts it and clears the flag; with no turn it does nothing |
| ChatSession.Clear | responses-api-agent/ui/src/hooks/useAgentApi.ts:101-103 | clearing empties the history and nothing else |
| ChatSession.RunAppendOnly | responses-api-agent/ui/src/hooks/useAgentApi.ts:61-99 | no sequence of yielded chunks, stop presses and stream endings rewrites earlier history: it only grows at the end |
| ChatSession.NothingAfterAbort | responses-api-agent/ui/src/hooks/useAgentApi.ts:61-65 | once a turn is aborted or finished, later chunks and endings leave the history alone |
| ChatSession.AsHistory | responses-api-agent/ui/src/hooks/useAgentApi.ts:70 | yielded items enter the history as themselves, in order |
| ChatSession.DeliverAppends | responses-api-agent/ui/src/hooks/useAgentApi.ts:61-71 | a live turn's chunks are appended in yield order |
| ChatSession.TurnOutcome | responses-api-agent/ui/src/hooks/useAgentApi.ts:34-89 | a whole turn leaves history + user message + yielded items, plus one error item exactly when the stream threw, and streaming off |
| ChatSession.StoppedTurnOutcome | responses-api-agent/ui/src/hooks/useAgentApi.ts:61-99 | stopping after k items keeps exactly those k, and no later chunk or error is recorded |
| Framing.Frame | openai-agents-sdk/src/agent_server/server.py:452 | a frame is `data: `, then the payload, then a blank line: eight characters more than the payload |
| Framing.Frames | openai-agents-sdk/src/agent_server/server.py:452 | the body is empty exactly when there are no payloads, and otherwise starts with `data: ` and ends with a blank line; `FramesRoundTrip` is its inverse |
| Framing.Lines | known-schema-agent/ui/src/api/client.ts:155-156 | the parser's lines contain no newline |
| Framing.FieldOf | known-schema-agent/ui/src/api/client.ts:91-92 | an SSE field name never contains the colon it is split at |
| Framing.Process | known-schema-agent/ui/src/api/client.ts:91-156 | at most one event per line, and none dispatched without a blank line |
| Framing.Interpret | known-schema-agent/ui/src/api/client.ts:91-156 | at most one event per complete line, and nothing before the first line break; it inverts `Frames` (`FramesRoundTrip`) |
| Framing.FrameLines | openai-agents-sdk/src/agent_server/server.py:452 | two lines per payload: its data line and a blank line |
| Framing.FramesAreLines | openai-agents-sdk/src/agent_server/server.py:452 | the concatenated frames are those lines joined by newlines |
| Framing.DataField | known-schema-agent/ui/src/api/client.ts:91-92 | a `data: ` line carries the payload without the single leading space |
| Framing.ProcessFrames | known-schema-agent/ui/src/api/client.ts:91-156 | dispatching the data lines and blank lines yields the payloads, one event each, in order |
| Framing.FramesLines | known-schema-agent/ui/src/api/client.ts:155-156 | when no payload holds a newline, splitting the body into lines recovers exactly the frame lines |
| Framing.FramesRoundTrip | known-schema-agent/ui/src/api/client.ts:91-156 | an event-stream body of single-line payloads is read back as exactly those payloads |
| ServerCommon.InvalidData | openai-agents-sdk/src/agent_server/server.py:210-212 | a validation failure is a `ValueError` whose text ends with the cause's text |
| ServerCommon.ValidateDataclass | openai-agents-sdk/src/agent_server/server.py:214-223 | an instance passes; anything else passes exactly when the class constructs from it; failures are `ValueError`s |
| ServerCommon.ExcludeNone | openai-agents-sdk/src/agent_server/server.py:266 | the dump keeps exactly its non-None fields and invents none |
| ServerCommon.ToDict | openai-agents-sdk/src/agent_server/server.py:265-274 | a model becomes its dump without None fields, a dataclass its fields, a dict itself; any other value raises a `ValueError` |
| ServerCommon.RegisterInvoke | openai-agents-sdk/src/agent_server/server.py:165-175 | the first `@invoke()` registers, a second raises "invoke decorator can only be used once" and changes nothing |
| ServerCommon.RegisterStream | openai-agents-sdk/src/agent_server/server.py:182-192 | the same once-only rule for `@stream()`, leaving the invoke handler alone |
| ServerCommon.RegisteredStays | openai-agents-sdk/src/agent_server/server.py:168-172 | once a handler is registered, any number of further registrations each raise and leave it in place |
| ServerCommon.FirstRegistrationWins | openai-agents-sdk/src/agent_server/server.py:165-175 | decorating several functions registers the first and raises for every other |
| ServerCommon.ReadRequest | openai-agents-sdk/src/agent_server/server.py:332-351 | a body that is not JSON is a 400 quoting the parse error; a JSON body that is not an object, or whose `databricks_options` is not an object, escapes as a 500; otherwise the flags are read with `get` and `stream` is dropped |
| ServerCommon.ConvertChunks | openai-agents-sdk/src/agent_server/server.py:449-457 | the chunks sent are the converted prefix of those yielded; conversion stops at the first failure |
| ServerCommon.RunStream | openai-agents-sdk/src/agent_server/server.py:443-517 | the stream fails exactly when a chunk fails to convert, the agent raises or the span output reducer fails |
| ServerCommon.ChunkPayloads | openai-agents-sdk/src/agent_server/server.py:452 | each chunk is sent as its `json.dumps` |
| ServerCommon.Generate | openai-agents-sdk/src/agent_server/server.py:443-517 | the chunks, then the error frame on failure or the trace frame when asked, then `[DONE]` last |
| ServerCommon.DoneOnlyLast | openai-agents-sdk/src/agent_server/server.py:482-486 | `[DONE]` is the last payload and no earlier payload equals it: each is a dumped object |
| ServerCommon.PrintableSingleLine | openai-agents-sdk/src/agent_server/server.py:452 | printable ASCII text has no newline |
| ServerCommon.StreamRoundTrip | openai-agents-sdk/src/agent_server/server.py:443-519 | an SSE reader recovers every payload the generator framed, in order |
| AgentServer.ValidatePydantic | openai-agents-sdk/src/agent_server/server.py:200-212 | an instance passes; another model is rebuilt from its dump; a plain value must construct; failures are `ValueError`s |
| AgentServer.Chars | openai-agents-sdk/src/agent_server/server.py:233 | iterating a string yields its characters as one-character strings |
| AgentServer.Keys | openai-agents-sdk/src/agent_server/server.py:233 | iterating a dict yields its keys |
| AgentServer.Iterate | openai-agents-sdk/src/agent_server/server.py:233 | an absent `messages` iterates nothing, a list its items; None, booleans and numbers raise a `TypeError` (not a `ValueError`) |
| AgentServer.ValidateMessages | openai-agents-sdk/src/agent_server/server.py:233-234 | passes exactly when every message constructs a `ChatMessage` |
| AgentServer.ValidateRequest | openai-agents-sdk/src/agent_server/server.py:225-238 | without an agent type the dict passes through; otherwise the request class of the type must construct, the chat-completions type checking each message first |
| AgentServer.ValidateResult | openai-agents-sdk/src/agent_server/server.py:240-256 | without an agent type nothing is checked; failures are `ValueError`s |
| AgentServer.ConvertResult | openai-agents-sdk/src/agent_server/server.py:258-274 | a result converts exactly when it validates and is a model, dataclass or dict |
| AgentServer.HandleInvoke | openai-agents-sdk/src/agent_server/server.py:371-429 | no handler is a 500 naming it; a handler or conversion failure is a 500 with the exception text; success is the converted dict, with the trace added exactly when asked |
| AgentServer.SpanFailure | openai-agents-sdk/src/agent_server/server.py:459-480 | the untyped server never fails after the chunks; the chat-agent type fails exactly when some chunk lacks `delta` |
| ServerCommon.StreamReply | openai-agents-sdk/src/agent_server/server.py:431-519 | no stream handler is a 500; otherwise the reply is the event stream of the converted run, whose payloads an SSE reader gets back intact from the frames, `[DONE]` last |
| AgentServer.RejectRequest | openai-agents-sdk/src/agent_server/server.py:353-359 | a `ValueError` in validation is a 400 naming the agent type; any other exception escapes as a 500 |
| AgentServer.Invocations | openai-agents-sdk/src/agent_server/server.py:324-364 | a non-JSON body is a 400 quoting the parse error; a valid request with no handler for its mode is a 500 naming the missing handler, and with a stream handler it is an event stream; every event stream comes from a registered stream handler and reads back intact with `[DONE]` last |
| AgentServer.MalformedBody | openai-agents-sdk/src/agent_server/server.py:332-337 | a body that is not JSON is a 400 quoting the parse error, whatever the server |
| AgentServer.HandlerInputOf | openai-agents-sdk/src/agent_server/server.py:348-364 | without an agent type the handler sees the body minus `stream`, streamed or invoked as the flag says |
| AgentServer.InvalidParameters | openai-agents-sdk/src/agent_server/server.py:353-359 | a request that fails validation with a `ValueError` is a 400 before any handler runs |
| AgentServer.NonIterableMessages | openai-agents-sdk/src/agent_server/server.py:232-235 | a chat-completions request whose `messages` is None, a boolean or a number is a bare 500, not a 400 |
| AgentServer.MissingHandler | openai-agents-sdk/src/agent_server/server.py:371-436 | a valid request with no handler for its mode is a 500 naming the missing handler |
| AgentServer.TraceOnRequest | openai-agents-sdk/src/agent_server/server.py:396-398 | a successful invoke carries `databricks_output` exactly when the trace was asked for |
| KnownSchemaServer.ValidatePydantic | known-schema-agent/src/agent_server/server.py:306-315 | an instance passes, anything else must construct; failures are `ValueError`s |
| KnownSchemaServer.ValidateRequest | known-schema-agent/src/agent_server/server.py:329-333 | untyped requests always pass; typed ones must construct a Responses request |
| KnownSchemaServer.ConvertResult | known-schema-agent/src/agent_server/server.py:335-351 | untyped results convert as `ToDict` does; typed ones must also validate as a response or stream event |
| KnownSchemaServer.HandleInvoke | known-schema-agent/src/agent_server/server.py:157-215 | as written: every failure is a 500, and an invoke succeeds only when the trace was requested (finding 2) |
| KnownSchemaServer.HandleInvokeFixed | known-schema-agent/src/agent_server/server.py:157-215 | corrected: succeeds exactly when the handler succeeds, with the trace added only when asked |
| KnownSchemaServer.InvokeNeedsTrace | known-schema-agent/src/agent_server/server.py:180-183 | a handler that succeeds without a trace request still gets a 500 (the unbound local), where the corrected handler returns its result |
| KnownSchemaServer.FixedAgreesWithTrace | known-schema-agent/src/agent_server/server.py:180-183 | with the trace requested, the as-written and corrected handlers agree |
| KnownSchemaServer.SpanFailure | known-schema-agent/src/agent_server/server.py:248-252 | the untyped server never fails after the chunks |
| KnownSchemaServer.UntypedPassesThrough | known-schema-agent/src/agent_server/server.py:132-150 | an untyped server hands the body minus `stream` to the handler of the requested mode |
| KnownSchemaServer.Invocations | known-schema-agent/src/agent_server/server.py:110-150 | a non-JSON body is a 400; a request the typed server rejects is a 400 naming the agent type and carrying the reason; a missing handler is a 500 naming it; every event stream comes from a registered stream handler and reads back intact with `[DONE]` last |
| KnownSchemaServer.InvokeSucceedsOnlyWithTrace | known-schema-agent/src/agent_server/server.py:180-183 | every successful non-streamed reply of the server as written answers a request that asked for the trace |
| ToolAgent.ReplaceLeavesNoDouble | responses-api-agent/src/agent_server/agent.py:63 | after replacing `__` with `.` no double underscore is left |
| ToolAgent.NameFacts | responses-api-agent/src/agent_server/agent.py:63 | the UDF name has no `__`, and a tool name without one is its own UDF name |
| ToolAgent.UdfName | responses-api-agent/src/agent_server/agent.py:63 | the Unity Catalog function name never contains `__`, and is the tool name when it had none |
| ToolAgent.RunUdf | responses-api-agent/src/agent_server/agent.py:65-70 | a UDF's error text is returned as its result when set, its value otherwise; a failed client call raises |
| ToolAgent.CreateToolInfo | responses-api-agent/src/agent_server/agent.py:56-72 | succeeds exactly when the spec has a `function` object with a string name; the tool keeps that name, its spec drops `strict`, and it runs the given function or else the UDF under the local `exec_fn` name; a missing `function` is a `KeyError`, a list one fails `pop` on its argument count, and any other non-dict one has no `pop` |
| ToolAgent.FindTool | responses-api-agent/src/agent_server/agent.py:122-131 | the tool found has the requested name and is the last registered tool of that name, as the dict comprehension keeps; when none is found no tool has it (the lookup raises) |
| ToolAgent.HandleToolCall | responses-api-agent/src/agent_server/agent.py:145-156 | a tool call succeeds exactly when its arguments parse to an object, its named tool exists and runs, and it has a call id, and then yields the output item for that call id with the tool's result; arguments that parse to a non-object raise the `**` error naming the tool's function |
| ToolAgent.Loop | responses-api-agent/src/agent_server/agent.py:163-172 | the loop runs at most `max_iter` rounds, only appends to the messages, and stops early exactly when the assistant answered or something raised |
| ToolAgent.CallAndRunTools | responses-api-agent/src/agent_server/agent.py:158-177 | the loop's events, then "Max iterations reached. Stopping." exactly when all rounds were used |
| ToolAgent.AssistantStops | responses-api-agent/src/agent_server/agent.py:164-166 | a conversation ending with an assistant message stops at once with nothing emitted |
| ToolAgent.ToolStep | responses-api-agent/src/agent_server/agent.py:167-168 | a trailing function call is handed to its tool, and the output is both emitted and appended |
| ToolAgent.InitialMessages | responses-api-agent/src/agent_server/agent.py:190-192 | the system prompt comes first, then the request's input unchanged |
| ToolAgent.PredictStream | responses-api-agent/src/agent_server/agent.py:187-193 | the events are the tool loop's over the system prompt and input, plus the max-iterations notice exactly when all ten rounds ran; an input that already ends with the assistant's message yields nothing |
| ToolAgent.DoneItems | responses-api-agent/src/agent_server/agent.py:180-184 | exactly the items of the item-done events are collected |
| ToolAgent.DoneItemsAppend | responses-api-agent/src/agent_server/agent.py:180-184 | collection distributes over concatenated event streams, so order is kept |
| ToolAgent.Predict | responses-api-agent/src/agent_server/agent.py:179-185 | `predict` fails exactly when the stream raises, and echoes `custom_inputs` as `custom_outputs`; its output is the items of the loop's `output_item.done` events, followed by the max-iterations notice exactly when all ten rounds ran |
| ToolAgent.PredictExhausted | responses-api-agent/src/agent_server/agent.py:174-177 | after ten rounds the response ends with the max-iterations message |
| McpConfig.ParseEntry | agent_server/agent.py:64-78 | an entry without `:` is rejected with its message; an accepted one splits at the first colon, with a type that lower-cases to the chosen type's name |
| McpConfig.ParseEntryByType | agent_server/agent.py:70-78 | an entry with a colon whose type lower-cases to `functions` or `external` is accepted as that type with the rest as identifier; any other type is rejected with `Unknown MCP type '<type>'. Valid types: functions, external` |
| McpConfig.Entries | agent_server/agent.py:63-66 | blank pieces are skipped: no entry is empty, and there are no more entries than pieces |
| McpConfig.ParseAll | agent_server/agent.py:63-78 | succeeds exactly when every entry parses, with one config per entry in order |
| McpConfig.ParseConfigs | agent_server/agent.py:49-80 | a blank value gives no servers; otherwise the comma-separated entries of the variable or of the default `functions:system.ai` |
| McpConfig.SpelledName | agent_server/agent.py:72 | upper- and lower-case type names both lower to the enum's value |
| McpConfig.EntryOf | agent_server/agent.py:70-78 | `name:identifier` parses to that config for every colon-free spelling `name` that lower-cases to the type's name |
| McpConfig.EntryTextFacts | agent_server/agent.py:64-78 | an entry written from a config has no comma, is unchanged by `strip` and parses back to the config |
| McpConfig.RenderRoundTrip | agent_server/agent.py:49-80 | any list of configs with writable identifiers, written comma-separated, parses back to the same list |
| McpConfig.RenderNotBlank | agent_server/agent.py:59-60 | a written non-empty list is never taken for a blank variable |
| McpConfig.CreateServer | agent_server/agent.py:83-103 | function servers get `/api/2.0/mcp/functions/` + identifier with dots as slashes and a "uc functions mcp" name; external ones `/api/2.0/mcp/external/` + identifier |
| McpConfig.UrlNamesConfig | agent_server/agent.py:87-94 | the server URL ends with the identifier (slashed for functions) and the name starts with it |
| DatabricksHost.Normalize | openai-agents-sdk/src/agent_server/utils.py:11-14 | the host always starts with `https://`, and only gains it when missing |
| DatabricksHost.NormalizeIdempotent | openai-agents-sdk/src/agent_server/utils.py:11-14 | normalising twice is normalising once |
| DatabricksHost.HttpIsPrefixed | openai-agents-sdk/src/agent_server/utils.py:11-14 | an `http://` host is not upgraded but prefixed, giving `https://http://…` |
| DatabricksHost.HostFromEnvAsWritten | openai-agents-sdk/src/agent_server/utils.py:9-20 | as written: a set variable is normalised, an unset one raises (finding 3) |
| DatabricksHost.HostFromEnv | openai-agents-sdk/src/agent_server/utils.py:9-20 | corrected: a set variable is normalised, an unset one falls back to the workspace host, or None when that fails |
| DatabricksHost.UnsetHostCrashes | openai-agents-sdk/src/agent_server/utils.py:10-11 | with the variable unset, the code as written raises where the corrected one returns the workspace host |
| DatabricksHost.AgreeWhenSet | openai-agents-sdk/src/agent_server/utils.py:10-14 | with the variable set, both versions return the same host |
| DatabricksHost.OpenAiBaseUrl | openai-agents-sdk/src/agent_server/utils.py:39 | as written: an unset variable raises the host lookup's error before any URL is built; a set one gives the normalised host followed by `/serving-endpoints` |
| DatabricksHost.OpenAiBaseUrlFixed | openai-agents-sdk/src/agent_server/utils.py:39 | over the corrected lookup: the set host, or else the workspace host, followed by `/serving-endpoints` |
| DatabricksHost.BaseUrlOfSetHost | openai-agents-sdk/src/agent_server/utils.py:39 | with the variable set, both versions build the same URL, which starts with `https://` and gives back the normalised host when the serving path is cut off |
| Renderer.SliceIndex | known-schema-agent/src/ui/src/components/chat/ConsolidatedRenderer.tsx:45 | `String.slice` clamps an index into the string, and keeps an index already in range |
| Renderer.Slice | known-schema-agent/src/ui/src/components/chat/ConsolidatedRenderer.tsx:49-52 | `text.slice(start, end)` is the substring when the bounds are ordered and in range, and never longer than the text |
| Renderer.DisplayText | known-schema-agent/src/ui/src/components/chat/ConsolidatedRenderer.tsx:104-110 | a leading `User: ` or else `Assistant: ` is removed, once; other text is shown as is |
| Renderer.UserPrefixFirst | known-schema-agent/src/ui/src/components/chat/ConsolidatedRenderer.tsx:106-107 | `User: Assistant: x` displays as `Assistant: x`: only one prefix goes |
| Renderer.AssistantPrefixOnce | known-schema-agent/src/ui/src/components/chat/ConsolidatedRenderer.tsx:108-109 | `Assistant: User: x` displays as `User: x` |
| Renderer.Title | known-schema-agent/src/ui/src/components/chat/ConsolidatedRenderer.tsx:87 | an annotation's tooltip is never empty: url, else file id, else "Annotation" |
| Renderer.Segments | known-schema-agent/src/ui/src/components/chat/ConsolidatedRenderer.tsx:39-101 | one highlighted piece per annotation |
| Renderer.SortByStart | known-schema-agent/src/ui/src/components/chat/ConsolidatedRenderer.tsx:35-37 | the annotations sorted by start index: ordered, and a permutation of the input |
| Renderer.WithAnnotations | known-schema-agent/src/ui/src/components/chat/ConsolidatedRenderer.tsx:29-101 | without annotations the text is shown whole; otherwise there is one highlighted piece per annotation |
| Renderer.GapCover | known-schema-agent/src/ui/src/components/chat/ConsolidatedRenderer.tsx:44-46 | the gap before an annotation is exactly the text between, and no empty plain piece is emitted |
| Renderer.SegmentsCover | known-schema-agent/src/ui/src/components/chat/ConsolidatedRenderer.tsx:39-99 | for annotations laid out in order without overlap, the pieces spell the text exactly, with no empty plain piece |
| Renderer.TextShowsDisplayText | known-schema-agent/src/ui/src/components/chat/ConsolidatedRenderer.tsx:104-123 | a text part with well-laid annotations shows exactly its display text |
| Renderer.ArgumentLines | known-schema-agent/src/ui/src/components/chat/ConsolidatedRenderer.tsx:194-196 | `Object.entries` of the parsed arguments: one `key = JSON` line per object field, one `index = JSON` line per array item, none for numbers and booleans; only null has no entries (it throws) |
| Renderer.FormatArguments | known-schema-agent/src/ui/src/components/chat/ConsolidatedRenderer.tsx:191-200 | arguments that do not parse, or parse to null, are shown raw |
| Renderer.LineNoNewline | known-schema-agent/src/ui/src/components/chat/ConsolidatedRenderer.tsx:195 | a `key = value` line has no newline when the key has none |
| Renderer.ObjectArgumentsLines | known-schema-agent/src/ui/src/components/chat/ConsolidatedRenderer.tsx:191-196 | object arguments show one `key = JSON` line per field, in order |
| Renderer.AnyUserSegmentExists | known-schema-agent/src/ui/src/components/chat/ConsolidatedRenderer.tsx:401-403 | an output message is the user's exactly when some part starts with `User:` |
| Renderer.Texts | known-schema-agent/src/ui/src/components/chat/ConsolidatedRenderer.tsx:410 | the parts' texts, in order |
| Renderer.MessageTextSplits | known-schema-agent/src/ui/src/components/chat/ConsolidatedRenderer.tsx:408-410 | the copied text splits back into the parts' texts when none holds a newline |
| Renderer.RendererFor | known-schema-agent/src/ui/src/components/chat/ConsolidatedRenderer.tsx:498-531 | the switch falls to "Unknown message type" exactly for tags outside the five item types |
| Renderer.ReasoningDetail | known-schema-agent/src/ui/src/components/chat/ConsolidatedRenderer.tsx:298 | the reasoning detail shows exactly when the content is present and non-empty |
| Renderer.Render | known-schema-agent/src/ui/src/components/chat/ConsolidatedRenderer.tsx:396-491 | input messages show their text with the role deciding the side; output messages are the user's exactly when a part starts with `User:`, and show one rendered part per content part |
| Renderer.EncodedTag | known-schema-agent/src/ui/src/components/chat/ConsolidatedRenderer.tsx:499 | every history item carries its type tag on the wire |
| Renderer.DispatchMatchesType | known-schema-agent/src/ui/src/components/chat/ConsolidatedRenderer.tsx:498-509 | every validated item reaches the renderer of its own type, never the unknown-type fallback |
| LanggraphRenderer.Render | langgraph-responses-api-agent/ui/src/components/chat/ConsolidatedRenderer.tsx:270-303 | the LangGraph view: output message parts are shown verbatim, a tool call without status |
| LanggraphRenderer.AgreesWithKnownSchema | langgraph-responses-api-agent/ui/src/components/chat/ConsolidatedRenderer.tsx:207-244 | the two UIs pick the same renderer for every item and differ only in segment display and tool status |
| LanggraphRenderer.PlainSegmentSame | langgraph-responses-api-agent/ui/src/components/chat/ConsolidatedRenderer.tsx:18-20 | a part with no prefix and no annotations looks the same in both UIs |
| LanggraphRenderer.PrefixedSegmentDiffers | langgraph-responses-api-agent/ui/src/components/chat/ConsolidatedRenderer.tsx:18-20 | a `User: ` part is shown without the prefix in the known-schema UI and with it here |
| MessageInput.Edit | known-schema-agent/src/ui/src/components/chat/MessageInput.tsx:58 | typing replaces the draft and leaves the props |
| MessageInput.Submit | known-schema-agent/src/ui/src/components/chat/MessageInput.tsx:24-30 | the trimmed draft is sent and the draft cleared exactly when it is non-blank and the box enabled; otherwise nothing changes |
| MessageInput.KeyDown | known-schema-agent/src/ui/src/components/chat/MessageInput.tsx:32-37 | Enter without Shift submits; any other key changes nothing |
| MessageInput.ButtonDisabled | known-schema-agent/src/ui/src/components/chat/MessageInput.tsx:77 | never disabled while streaming; otherwise disabled when the box is or the draft is blank |
| MessageInput.ButtonClick | known-schema-agent/src/ui/src/components/chat/MessageInput.tsx:76-77 | an enabled button stops the stream exactly while streaming, and submits otherwise |
| MessageInput.SentIsTrimmedDraft | known-schema-agent/ui/src/components/chat/MessageInput.tsx:20-26 | what is sent is non-empty, has no whitespace at either end, is no longer than the draft, and clears it |
| MessageInput.BlankNeverSent | known-schema-agent/ui/src/components/chat/MessageInput.tsx:21-22 | a whitespace-only draft is never sent, by button or Enter |
| MessageInput.ShiftEnterKeeps | known-schema-agent/ui/src/components/chat/MessageInput.tsx:28-33 | Shift+Enter neither sends nor changes the draft |
| MessageInput.EnabledIffSends | known-schema-agent/ui/src/components/chat/MessageInput.tsx:76 | outside streaming the button is enabled exactly when pressing it sends |
| MessageInput.SubmitOnce | known-schema-agent/ui/src/components/chat/MessageInput.tsx:20-26 | a second submit right after a send sends nothing |
| ConfigPanel.Mount | known-schema-agent/src/ui/src/components/config/ConfigPanel.tsx:19-20 | the panel opens with the saved config as its local copy and no changes flagged |
| ConfigPanel.Edit | known-schema-agent/src/ui/src/components/config/ConfigPanel.tsx:22-26 | only the edited field changes, and the flag becomes whether the endpoint now differs from the saved one |
| ConfigPanel.Save | known-schema-agent/src/ui/src/components/config/ConfigPanel.tsx:28-31 | the local copy is handed to the parent unchanged and the flag clears |
| ConfigPanel.Reset | known-schema-agent/src/ui/src/components/config/ConfigPanel.tsx:33-36 | the local copy returns to the saved config and the flag clears |
| ConfigPanel.NewProp | known-schema-agent/src/ui/src/components/config/ConfigPanel.tsx:19-20 | a new prop does not re-sync the local copy or the flag |
| ConfigPanel.StepsKeepHonest | known-schema-agent/src/ui/src/components/config/ConfigPanel.tsx:22-36 | mounting, editing, saving and resetting never flag a change the endpoint does not show |
| ConfigPanel.OtherFieldKeepsEndpoint | known-schema-agent/src/ui/src/components/config/ConfigPanel.tsx:22-26 | editing another field keeps the endpoint, so the flag reports only whether the endpoint already differed |
| ConfigPanel.RetypingSavedEndpointClears | known-schema-agent/src/ui/src/components/config/ConfigPanel.tsx:133-175 | typing the saved endpoint back hides Save and Reset even if other fields still differ |
| ConfigPanel.ResetUndoesEdits | known-schema-agent/src/ui/src/components/config/ConfigPanel.tsx:33-36 | reset after an edit is reset without it |
| ConfigPanel.SaveThenProp | known-schema-agent/src/ui/src/components/config/ConfigPanel.tsx:28-31 | a save whose config the parent passes back leaves the panel as freshly mounted on it |
| Pipeline.ItemFrame | known-schema-agent/ui/src/api/client.ts:107-120 | the frame of a streamed item is enqueued as that item, by both handlers |
| Pipeline.TraceFrame | known-schema-agent/ui/src/api/client.ts:104-132 | the trace frame is skipped, and the corrected handler passes it |
| Pipeline.ErrorFrame | known-schema-agent/ui/src/api/client.ts:100-101 | the server's error frame is skipped as written and fails the corrected stream with its message |
| Pipeline.ItemsDecode | openai-agents-sdk/src/agent_server/server.py:449-457 | the item chunks the server sends decode back to exactly those items |
| Pipeline.ClosingDecode | openai-agents-sdk/src/agent_server/server.py:482-517 | the closing frames yield no item; the corrected handler passes them, or fails at the error frame |
| Pipeline.WireDecodes | openai-agents-sdk/src/agent_server/server.py:443-517 | whatever happened on the server, the client as written yields exactly the streamed items |
| Pipeline.WireFails | openai-agents-sdk/src/agent_server/server.py:499-517 | when the server failed, the corrected client yields the items and then the failure |
| Pipeline.WireSucceeds | openai-agents-sdk/src/agent_server/server.py:443-486 | when the server succeeded, the corrected client yields the items with no failure |
| Pipeline.ItemsArriveFailureLost | known-schema-agent/ui/src/api/client.ts:97-102 | as written, items sent over SSE arrive intact and a server failure does not (finding 1) |
| Pipeline.ItemsArriveFailureReported | known-schema-agent/ui/src/api/client.ts:97-102 | corrected, the items arrive and a server failure arrives as an error with its message |
| Pipeline.FailedTurnLooksSuccessful | responses-api-agent/ui/src/hooks/useAgentApi.ts:61-89 | a turn the server failed ends in the chat with no error item at all |
| Pipeline.FailedTurnReported | responses-api-agent/ui/src/hooks/useAgentApi.ts:72-83 | with the corrected client, that turn ends with a `STREAM_ERROR` item carrying the server's message |

## Left out

- **Frameworks and I/O.** These are not modelled: FastAPI routing, CORS and static files; `/health`; logging and timing; the request-header context variables and the on-behalf-of workspace client; `setup_mlflow` and `_configure_mlflow_tracking`; argument parsing; `uvicorn`. None of them decides a reply's content.
- **The mlflow span.** The span and its trace store are a `trace` parameter. The output reducers are an oracle that may fail.
- **The LLM and tools.** The LLM stream, `output_to_responses_items_stream` and the Unity Catalog client are oracles. Chunk aggregation inside the SDK is not modelled.
- **The MCP server lifecycle.** `init_mcp_servers`, authentication headers and the 20-second timeout are left out. `McpConfig.CreateServer` models only the URL and the name.
- **The agent entry points in `agent_server/agent.py`.** The `invoke` and `stream` handlers and `Runner` are left out. Note that the stream handler reads `request.input` on a plain dict.
- **React rendering.** Styling, avatars, timestamps, the copy button and the reasoning expand state are left out. Each renderer is reduced to the text and structure it shows.
- **Numbers.** JavaScript numbers are integers here. Floating-point indices and numbers are not modelled.
- **String units.** `String.slice` indices count characters, not UTF-16 code units.
- Strings.AsciiLower: `str.lower` is modelled as ASCII lower-casing. For the one comparison it serves, against `functions` and `external`, the result is the same as Python's. The only non-ASCII characters whose lower case holds an ASCII letter are the Kelvin sign, which gives "k" and is in neither name, and U+0130, which gives "i" plus a combining dot that cannot match. Full Unicode case mapping is not modelled. Whitespace classes for `str.strip` and `String.trim`, and the JSON escapes, are modelled in full.
- **Key order.** `Object.entries` order for integer-like keys, and duplicate keys, are left to the parse oracle. An object's fields are taken in parse order.
- **Line endings.** The SSE parser's CR and CRLF line endings, `id`, `event` and `retry` fields, and comments are not modelled. Only the `data:` lines and blank lines these servers write are.
- ChatSession.Send: the hook's cancellation of a previous stream when a new one starts is left out, because the model runs one turn at a time. The UI blocks a second send while streaming, except through Enter.
- **`onStopStreaming`.** It may be undefined. The model treats the stop click as always wired.
- **The health check and `useAgentApi`.** `AgentApiClient.healthCheck` and the non-streaming `useAgentApi` hook are thin wrappers over `fetch` and `sendMessage` and are not modelled.
- **`AgentConfig`.** It is not declared in the schema file. It is modelled as a string map whose `endpoint` field the dirty flag watches, with the default from `known-schema-agent/src/ui/src/components/chat/ChatContainer.tsx:15-17`.
- Renderer.Segments: its contract counts the highlighted pieces only. What the pieces spell is stated by `Renderer.SegmentsCover`.
- Renderer.SortByStart: stability of `Array.prototype.sort` for equal start indices is not stated.
- ServerCommon.ExcludeNone: only top-level None fields are dropped. Pydantic also drops nested ones.
- ServerCommon.ToDict: the unsupported-type message uses an approximate `repr`. Strings inside it are not escaped as Python would.
- AgentServer.Iterate: the `TypeError` text is approximate. Only its not-a-`ValueError` kind matters to the reply.
- KnownSchemaServer.InvokeNeedsTrace: the `UnboundLocalError` message follows Python 3.11 and later.
- ToolAgent.Loop: the history items the LLM stream appends are an oracle's output. The shape of the max-iterations text item approximates mlflow's `create_text_output_item`.
- Pipeline.ItemsArriveFailureLost: assumes `JSON.parse` inverts Python's `json.dumps` on the values sent. Both are modelled, but `JSON.parse` only as a parameter with that property.

## Findings

| source | as written | input that shows it | evidently intended | confidence | as-written member | corrected member |
|---|---|---|---|---|---|---|
| known-schema-agent/ui/src/api/client.ts:97-102 | the `throw` for a frame with a truthy `error` sits inside the `try` whose `catch` only logs parse failures, so the error is swallowed and the stream ends normally | an agent that raises after yielding one item: the server sends the item, then `{"error": "boom"}`, then `[DONE]`; the chat shows the item and no error | the error reaches the generator's consumer, which adds a `STREAM_ERROR` item with the server's message; the corrected handler reports any non-null `error`, including an empty string, and takes a string `error` as the message itself | high (not executed) | Pipeline.FailedTurnLooksSuccessful | Pipeline.FailedTurnReported |
| known-schema-agent/src/agent_server/server.py:180-183 | `result["databricks_output"] = databricks_output` is outside the `if return_trace:` block, so without a trace request the name is unbound and every invoke fails with a 500 | any non-streaming request without `databricks_options.return_trace`, with a handler that succeeds | attach the trace only when it was asked for, as the OpenAI-Agents-SDK server does | high (not executed) | KnownSchemaServer.InvokeNeedsTrace | KnownSchemaServer.HandleInvokeFixed |
| openai-agents-sdk/src/agent_server/utils.py:10-11 | `host.startswith` runs before the `None` check, so an unset `DATABRICKS_HOST` raises `AttributeError` and the workspace-client fallback is unreachable | `DATABRICKS_HOST` unset, with a working default workspace config | fall back to the workspace client's host | high (not executed) | DatabricksHost.UnsetHostCrashes | DatabricksHost.HostFromEnv |
| known-schema-agent/ui/src/schemas/validation.ts:74-77 | `ResponseInputItemSchema` is a discriminated union on `type` whose options are the input message and the output-item union, so `message` is claimed twice; Zod 4 builds the value map on the first parse that reaches an object and throws on the repeat (Zod 3 rejects it when the schema is built) | validating a request whose `input` holds one user message | a plain union of the two options, which accepts each history item as itself | medium (not executed; follows Zod 4's lazy map, and the Zod version is not part of this model) | Schema.RequestAsWrittenThrows | Schema.RequestRoundTripCorrected |

=== FILE: chat.dfy ===
/**
 * The streaming chat hook (`useStreamingChat`) as a state machine over one conversation:
 * the history shown to the user, the `isStreaming` flag, and the abort controller of the
 * turn in flight. A turn is driven by the items the client's stream yields and ends when
 * the stream completes or throws; the user can stop it or clear the history at any time.
 * Turns are taken one at a time: a new turn abandons the one in flight.
 */
module ChatSession {
  import opened Wrappers
  import opened Schema
  import opened Client

  /** `Idle`: no abort controller is registered. `Streaming(aborted)`: a turn is in flight
      and its controller has, or has not, been aborted. */
  datatype Phase = Idle | Streaming(aborted: bool)

  datatype Session = Session(messages: seq<InputItem>, isStreaming: bool, phase: Phase)

  const Initial: Session := Session([], false, Idle)

  /** The history entry for what the user typed. */
  function UserItem(text: string): InputItem {
    InputMessage(User, text)
  }

  /** The synthetic item that reports a failed turn. */
  function StreamErrorItem(failure: Thrown): (h: InputItem)
    ensures h.Output? && h.item.ErrorItem? && h.item.code == "STREAM_ERROR"
    ensures failure.ErrorWith? ==> h.item.message == failure.message
    ensures failure.NonError? ==> h.item.message == "Unknown error"
  {
    Output(ErrorItem("STREAM_ERROR", if failure.ErrorWith? then failure.message else "Unknown error"))
  }

  /** `sendStreamingMessage(text)` up to the start of the stream: the user's message is
      appended, and the request sent is the prior history followed by that message, with
      `stream` true. The abort of a previous turn's controller is not modelled here: the
      session holds one turn at a time, and aborting a turn is `Stop`'s business. */
  function Send(s: Session, text: string): (r: (Session, Request))
    ensures r.0.messages == s.messages + [UserItem(text)]
    ensures r.0.isStreaming && r.0.phase == Streaming(false)
    ensures r.1 == Request(s.messages + [UserItem(text)], Some(true), None)
  {
    (Session(s.messages + [UserItem(text)], true, Streaming(false)),
     Request(s.messages + [UserItem(text)], Some(true), None))
  }

  /** The stream yields `item`. The abort flag is checked first: an aborted turn drops the
      item and leaves the loop, and its `finally` unregisters the controller without
      touching `isStreaming`; otherwise the item is appended. */
  function Receive(s: Session, item: OutputItem): (r: Session)
    ensures s.phase == Streaming(false) ==> r == s.(messages := s.messages + [Output(item)])
    ensures s.phase != Streaming(false) ==> r.messages == s.messages && r.isStreaming == s.isStreaming
    ensures s.phase == Streaming(true) ==> r.phase == Idle
  {
    match s.phase
    case Idle => s
    case Streaming(aborted) =>
      if aborted then s.(phase := Idle) else s.(messages := s.messages + [Output(item)])
  }

  /** The stream ends: normally (`failure` is `None`) or by throwing. A failure that was not
      caused by an abort appends one error item; a turn that was not aborted clears
      `isStreaming`; the controller is unregistered either way. */
  function End(s: Session, failure: Option<Thrown>): (r: Session)
    ensures s.phase == Streaming(false) && failure.Some? ==>
              r.messages == s.messages + [StreamErrorItem(failure.value)]
    ensures !(s.phase == Streaming(false) && failure.Some?) ==> r.messages == s.messages
    ensures s.phase == Streaming(false) ==> !r.isStreaming
    ensures s.phase != Streaming(false) ==> r.isStreaming == s.isStreaming
    ensures r.phase == Idle
  {
    match s.phase
    case Idle => s
    case Streaming(aborted) =>
      var messages := if failure.Some? && !aborted then s.messages + [StreamErrorItem(failure.value)] else s.messages;
      Session(messages, if aborted then s.isStreaming else false, Idle)
  }

  /** `stopStreaming`: without a registered controller nothing happens; otherwise the
      controller is aborted and `isStreaming` cleared. */
  function Stop(s: Session): (r: Session)
    ensures s.phase == Idle ==> r == s
    ensures s.phase.Streaming? ==> r == s.(isStreaming := false, phase := Streaming(true))
  {
    match s.phase
    case Idle => s
    case Streaming(_) => s.(isStreaming := false, phase := Streaming(true))
  }

  /** `clearMessages`: the history becomes empty and nothing else changes. */
  function Clear(s: Session): (r: Session)
    ensures r.messages == [] && r.isStreaming == s.isStreaming && r.phase == s.phase
  {
    s.(messages := [])
  }

  // ----- runs ------------------------------------------------------------------------------

  /** What can happen while a turn is in flight. */
  datatype Event = Yield(item: OutputItem) | StopPressed | Finished(failure: Option<Thrown>)

  function Step(s: Session, e: Event): Session {
    match e
    case Yield(item) => Receive(s, item)
    case StopPressed => Stop(s)
    case Finished(failure) => End(s, failure)
  }

  function Run(s: Session, events: seq<Event>): Session
    decreases |events|
  {
    if |events| == 0 then s else Run(Step(s, events[0]), events[1..])
  }

  /** History is append-only while a turn runs: every step keeps what was there as a prefix. */
  lemma {:induction false} RunAppendOnly(s: Session, events: seq<Event>)
    ensures |Run(s, events).messages| >= |s.messages|
    ensures Run(s, events).messages[..|s.messages|] == s.messages
    decreases |events|
  {
    if |events| > 0 {
      var t := Step(s, events[0]);
      assert t.messages[..|s.messages|] == s.messages;
      RunAppendOnly(t, events[1..]);
      assert Run(s, events).messages[..|s.messages|] == Run(t, events[1..]).messages[..|t.messages|][..|s.messages|];
    }
  }

  /** Once the controller is aborted, or no turn is in flight, no item is ever appended. */
  lemma {:induction false} NothingAfterAbort(s: Session, events: seq<Event>)
    requires s.phase != Streaming(false)
    ensures Run(s, events).messages == s.messages
    decreases |events|
  {
    if |events| > 0 {
      NothingAfterAbort(Step(s, events[0]), events[1..]);
    }
  }

  /** Delivering the items of a stream that was never stopped. */
  function Deliver(s: Session, items: seq<OutputItem>): Session
    decreases |items|
  {
    if |items| == 0 then s else Deliver(Receive(s, items[0]), items[1..])
  }

  function AsHistory(items: seq<OutputItem>): (h: seq<InputItem>)
    ensures |h| == |items| && forall i :: 0 <= i < |items| ==> h[i] == Output(items[i])
  {
    if |items| == 0 then [] else [Output(items[0])] + AsHistory(items[1..])
  }

  lemma {:induction false} DeliverAppends(s: Session, items: seq<OutputItem>)
    requires s.phase == Streaming(false)
    ensures Deliver(s, items) == s.(messages := s.messages + AsHistory(items))
    decreases |items|
  {
    if |items| == 0 {
      assert s.messages + AsHistory(items) == s.messages;
    } else {
      DeliverAppends(Receive(s, items[0]), items[1..]);
      assert s.messages + [Output(items[0])] + AsHistory(items[1..]) == s.messages + AsHistory(items);
    }
  }

  /** A whole turn that nobody stopped: the history becomes the prior history, the user's
      message, the streamed items in yield order, and — exactly when the stream failed — one
      STREAM_ERROR item; `isStreaming` is cleared and no controller remains. */
  lemma TurnOutcome(s: Session, text: string, result: StreamResult)
    ensures var t := End(Deliver(Send(s, text).0, result.yielded), result.failure);
            && t.messages == s.messages + [UserItem(text)] + AsHistory(result.yielded)
                             + (if result.failure.Some? then [StreamErrorItem(result.failure.value)] else [])
            && !t.isStreaming && t.phase == Idle
  {
    DeliverAppends(Send(s, text).0, result.yielded);
  }

  /** A turn stopped after `k` items: those items and nothing after them — in particular no
      error item, whatever the stream does next. */
  lemma StoppedTurnOutcome(s: Session, text: string, result: StreamResult, k: nat, rest: seq<Event>)
    requires k <= |result.yielded|
    ensures var t := Run(Stop(Deliver(Send(s, text).0, result.yielded[..k])), rest);
            && t.messages == s.messages + [UserItem(text)] + AsHistory(result.yielded[..k])
  {
    DeliverAppends(Send(s, text).0, result.yielded[..k]);
    NothingAfterAbort(Stop(Deliver(Send(s, text).0, result.yielded[..k])), rest);
  }
}

=== FILE: client.dfy ===
/**
 * The chat UI's HTTP client for an agent server (`AgentApiClient`): the base-URL choice,
 * the non-streaming call with its lenient validation, and the streaming call, which turns
 * the `data` strings of server-sent events into a sequence of output items through a
 * fixed per-event decision procedure and a FIFO queue drained after every network chunk.
 *
 * `fetch`, the reader, `TextDecoder` and the event-stream line parser are not modelled: a
 * reply arrives as a list of chunks, each already split into the `data` strings of its
 * events, and `JSON.parse` is the parameter `parse`.
 */
module Client {
  import opened Wrappers
  import opened Strings
  import opened Json
  import opened Schema

  // ----- base URL (client.ts:22-37) ----------------------------------------------------------

  const LocalServer: string := "http://localhost:8000"

  /** The constructor's choice: a page served from localhost talks to the local server, any
      other page to its own origin; without a window (server-side rendering) the local
      server is used. `origin` is `window.location.origin`, absent without a window. */
  function InitialBaseUrl(origin: Option<string>): (r: string)
    ensures origin.None? ==> r == LocalServer
    ensures origin.Some? && Contains(origin.value, "localhost") ==> r == LocalServer
    ensures origin.Some? && !Contains(origin.value, "localhost") ==> r == origin.value
  {
    match origin
    case None => LocalServer
    case Some(o) => if Contains(o, "localhost") then LocalServer else o
  }

  /** `baseUrl.replace(/\/$/, "")`: at most one trailing slash is removed. */
  function UpdateBaseUrl(url: string): (r: string)
    ensures EndsWith(url, "/") ==> r + "/" == url
    ensures !EndsWith(url, "/") ==> r == url
  {
    if EndsWith(url, "/") then url[..|url| - 1] else url
  }

  /** Exactly one slash goes: "a//" becomes "a/", and a URL without one is kept. */
  lemma UpdateBaseUrlRemovesOne(base: string)
    ensures UpdateBaseUrl(base + "/") == base
    ensures UpdateBaseUrl(base + "//") == base + "/"
    ensures !EndsWith(base, "/") ==> UpdateBaseUrl(UpdateBaseUrl(base + "/")) == base
  {
    assert (base + "/")[..|base + "/"| - 1] == base;
    assert (base + "//")[..|base + "//"| - 1] == base + "/";
  }

  // ----- thrown values --------------------------------------------------------------------------

  /** What a rejected promise or a `throw` carries: an `Error` with a message, or any other
      value (which the chat hook reports as "Unknown error"). */
  datatype Thrown = ErrorWith(message: string) | NonError

  function HttpError(status: int, statusText: string): (t: Thrown)
    ensures t.ErrorWith? && StartsWith(t.message, "HTTP ")
  {
    ErrorWith("HTTP " + IntToString(status) + ": " + statusText)
  }

  // ----- non-streaming call (client.ts:39-64) ---------------------------------------------------

  /** The body of a reply as `response.json()` delivers it: a value, or the rejection. */
  datatype JsonReply = JsonReply(ok: bool, status: int, statusText: string, body: Result<Json, Thrown>)

  /** A validated response, or the raw value when validation fails ("for development"). */
  datatype SendResult = Validated(response: Response) | Unvalidated(raw: Json)

  function SendMessage(reply: JsonReply): (r: Result<SendResult, Thrown>)
    ensures !reply.ok ==> r == Err(HttpError(reply.status, reply.statusText))
    ensures reply.ok && reply.body.Err? ==> r == Err(reply.body.error)
    ensures reply.ok && reply.body.Ok? ==> r.Ok?
    ensures r.Ok? && r.value.Validated? ==> ParseResponse(reply.body.value) == Some(r.value.response)
    ensures r.Ok? && r.value.Unvalidated? ==> ParseResponse(reply.body.value).None? && r.value.raw == reply.body.value
  {
    if !reply.ok then Err(HttpError(reply.status, reply.statusText))
    else match reply.body
      case Err(t) => Err(t)
      case Ok(v) =>
        match ParseResponse(v)
        case Some(p) => Ok(Validated(p))
        case None => Ok(Unvalidated(v))
  }

  /** A well-formed response from the server always comes back validated and unchanged. */
  lemma SendMessageValidates(p: Response, status: int, statusText: string)
    ensures SendMessage(JsonReply(true, status, statusText, Ok(ResponseToJson(p)))) == Ok(Validated(p))
  {
    ResponseRoundTrip(p);
  }

  // ----- the streaming request body (client.ts:69) ----------------------------------------------

  /** `{ ...request, stream: true }`: an existing `stream` binding is overwritten in place,
      otherwise one is added; no other key changes. */
  function StreamBody(request: Json): (r: Json)
    requires request.Obj?
    ensures r.Obj? && Get(r, "stream") == Some(Bool(true))
    ensures forall k :: k != "stream" ==> Get(r, k) == Get(request, k)
  {
    Obj(Set(request.fields, "stream", Bool(true)))
  }

  /** The streamed request validates as the caller's request with `stream` set to true. */
  lemma StreamBodyParses(q: Request)
    ensures ParseRequest(StreamBody(RequestToJson(q))) == Some(q.(stream := Some(true)))
  {
    var v := StreamBody(RequestToJson(q));
    var q' := q.(stream := Some(true));
    RequestFields(q);
    InputItemsRoundTrip(q.input);
    ParseOptionsOf(q.options, RequestToJson(q));
    assert ParseOptions(v) == ParseOptions(RequestToJson(q));
    ParseRequestOf(q', v, InputItemsToJson(q.input));
  }

  // ----- one event (client.ts:92-140) -----------------------------------------------------------

  /** What handling one event's data does to the item queue. */
  datatype Outcome = Skip | Enqueue(item: OutputItem)

  /** The stream's end-of-data sentinel. */
  const Done: string := "[DONE]"

  /** JavaScript truthiness of a parsed value. */
  predicate Truthy(v: Json) {
    JsTruthy(Some(v))
  }

  /** The decision procedure of `onEvent` as written. Every exception inside it (a `JSON.parse`
      failure, reading `.error` of `null`, the deliberate throw on a truthy `error` field, a
      schema failure) is caught and logged, so each of those frames is simply skipped. */
  function HandleEvent(data: string, parse: string -> Option<Json>): (r: Outcome)
    ensures data == Done ==> r == Skip
    ensures parse(data).None? ==> r == Skip
    ensures parse(data).Some? && JsTruthy(Get(parse(data).value, "error")) ==> r == Skip
    ensures r.Enqueue? ==> data != Done && parse(data).Some?
                           && ParseStreamEvent(parse(data).value).Some?
    ensures r.Enqueue? ==> var e := ParseStreamEvent(parse(data).value).value;
                           e == OutputItemDone(r.item) || (e.ErrorEvent? && r.item == ErrorItem(e.code, e.message))
  {
    if data == Done then Skip
    else match parse(data)
      case None => Skip
      case Some(v) =>
        if v.Null? then Skip
        else if JsTruthy(Get(v, "error")) then Skip
        else if !Truthy(v) then Skip
        else match ParseStreamEvent(v)
          case Some(OutputItemDone(item)) => Enqueue(item)
          case Some(ErrorEvent(code, message)) => Enqueue(ErrorItem(code, message))
          case _ => Skip
  }

  /** A frame carrying an output_item.done event enqueues exactly its item. */
  lemma ItemDoneEnqueued(data: string, parse: string -> Option<Json>, item: OutputItem)
    requires data != Done && parse(data) == Some(StreamEventToJson(OutputItemDone(item)))
    ensures HandleEvent(data, parse) == Enqueue(item)
  {
    var v := StreamEventToJson(OutputItemDone(item));
    StreamEventRoundTrip(OutputItemDone(item));
    LookupAt(v.fields, 0);
    LookupAt(v.fields, 1);
  }

  /** A frame carrying an `error` event enqueues it as an error item. */
  lemma ErrorEventEnqueued(data: string, parse: string -> Option<Json>, code: string, message: string)
    requires data != Done && parse(data) == Some(StreamEventToJson(ErrorEvent(code, message)))
    ensures HandleEvent(data, parse) == Enqueue(ErrorItem(code, message))
  {
    var v := StreamEventToJson(ErrorEvent(code, message));
    StreamEventRoundTrip(ErrorEvent(code, message));
    LookupAt(v.fields, 0);
    LookupAt(v.fields, 1);
    LookupAt(v.fields, 2);
  }

  /** Text deltas and annotation events are valid but never enqueued. */
  lemma PartialEventsSkipped(data: string, parse: string -> Option<Json>, e: StreamEvent)
    requires e.TextDelta? || e.AnnotationAdded?
    requires parse(data) == Some(StreamEventToJson(e))
    ensures HandleEvent(data, parse) == Skip
  {
    StreamEventRoundTrip(e);
  }

  /** The object `{"error": message}` that the Python servers send when a stream fails. */
  function ServerErrorFrame(message: string): Json {
    Obj([("error", Str(message))])
  }

  /** The server's error frame never reaches the caller: with a non-empty message the
      deliberate throw is caught by the surrounding handler, and with an empty one the object
      has no `type` and fails validation. */
  lemma ServerErrorFrameSkipped(data: string, parse: string -> Option<Json>, message: string)
    requires parse(data) == Some(ServerErrorFrame(message))
    ensures HandleEvent(data, parse) == Skip
  {
    var v := ServerErrorFrame(message);
    LookupAt(v.fields, 0);
    assert Get(v, "type").None?;
  }

  // ----- the stream (client.ts:66-171) ----------------------------------------------------------

  /** The response body: the chunks the reader delivers, each already split into event data
      strings, and how reading ended (`None`: the reader reported done). */
  datatype Body = Body(chunks: seq<seq<string>>, readFailure: Option<Thrown>)

  datatype HttpReply = HttpReply(ok: bool, status: int, statusText: string, body: Option<Body>)

  /** Items the generator yielded, and what it threw at the end (if anything). */
  datatype StreamResult = StreamResult(yielded: seq<OutputItem>, failure: Option<Thrown>)

  /** All events of all chunks in arrival order. */
  function Events(chunks: seq<seq<string>>): (r: seq<string>)
    ensures |chunks| == 0 ==> r == []
  {
    if |chunks| == 0 then [] else Events(chunks[..|chunks| - 1]) + chunks[|chunks| - 1]
  }

  /** The items a sequence of events enqueues, in order: the reference the stream is
      checked against. */
  function Decode(events: seq<string>, parse: string -> Option<Json>): (r: seq<OutputItem>)
    ensures |r| <= |events|
  {
    if |events| == 0 then []
    else
      var front := Decode(events[..|events| - 1], parse);
      match HandleEvent(events[|events| - 1], parse)
      case Skip => front
      case Enqueue(item) => front + [item]
  }

  lemma {:induction false} DecodeAppend(a: seq<string>, b: seq<string>, parse: string -> Option<Json>)
    ensures Decode(a + b, parse) == Decode(a, parse) + Decode(b, parse)
    decreases |b|
  {
    if |b| == 0 {
      assert a + b == a;
    } else {
      var n := |b| - 1;
      assert (a + b)[..|a + b| - 1] == a + b[..n];
      assert (a + b)[|a + b| - 1] == b[n];
      DecodeAppend(a, b[..n], parse);
    }
  }

  /** A stream yields nothing exactly when the handler skips every one of its events. */
  lemma {:induction false} DecodeNothing(events: seq<string>, parse: string -> Option<Json>)
    ensures Decode(events, parse) == [] <==> forall j :: 0 <= j < |events| ==> HandleEvent(events[j], parse).Skip?
    decreases |events|
  {
    if |events| > 0 {
      var front := events[..|events| - 1];
      DecodeNothing(front, parse);
      assert forall j :: 0 <= j < |front| ==> front[j] == events[j];
    }
  }

  /** Decoding is per event: how the byte stream is cut into chunks does not matter. */
  lemma {:induction false} DecodeChunks(chunks: seq<seq<string>>, parse: string -> Option<Json>, i: nat)
    requires i < |chunks|
    ensures Decode(Events(chunks[..i + 1]), parse) == Decode(Events(chunks[..i]), parse) + Decode(chunks[i], parse)
  {
    assert chunks[..i + 1][..i] == chunks[..i];
    DecodeAppend(Events(chunks[..i]), chunks[i], parse);
  }

  /** The parser fed one chunk: `onEvent` runs for each event in order and pushes what it
      enqueues at the back of the queue. */
  method Feed(queue: seq<OutputItem>, chunk: seq<string>, parse: string -> Option<Json>)
    returns (queue': seq<OutputItem>)
    ensures queue' == queue + Decode(chunk, parse)
  {
    queue' := queue;
    var j := 0;
    while j < |chunk|
      invariant 0 <= j <= |chunk|
      invariant queue' == queue + Decode(chunk[..j], parse)
    {
      assert chunk[..j + 1][..j] == chunk[..j];
      var outcome := HandleEvent(chunk[j], parse);
      if outcome.Enqueue? {
        queue' := queue' + [outcome.item];
      }
      j := j + 1;
    }
    assert chunk[..j] == chunk;
  }

  /** The drain after a chunk: `shift` until the queue is empty, yielding each item. */
  method Drain(yielded: seq<OutputItem>, queue: seq<OutputItem>)
    returns (yielded': seq<OutputItem>, queue': seq<OutputItem>)
    ensures yielded' == yielded + queue && queue' == []
  {
    yielded', queue' := yielded, queue;
    while |queue'| > 0
      invariant yielded' + queue' == yielded + queue
      decreases |queue'|
    {
      var item := queue'[0];
      assert yielded' + queue' == (yielded' + [item]) + queue'[1..];
      queue' := queue'[1..];
      yielded' := yielded' + [item];
    }
  }

  /** `streamMessage`: a non-ok status or a missing body throws before anything is yielded;
      otherwise every chunk's events are handled in order, and after each chunk the queue is
      drained front first, so the items yielded are exactly those the events enqueue, in
      enqueue order, each once. A failed read ends the generator with that failure. */
  method StreamMessage(reply: HttpReply, parse: string -> Option<Json>) returns (res: StreamResult)
    ensures !reply.ok ==> res == StreamResult([], Some(HttpError(reply.status, reply.statusText)))
    ensures reply.ok && reply.body.None? ==>
              res == StreamResult([], Some(ErrorWith("No response body for streaming")))
    ensures reply.ok && reply.body.Some? ==>
              res.yielded == Decode(Events(reply.body.value.chunks), parse)
              && res.failure == reply.body.value.readFailure
  {
    if !reply.ok {
      return StreamResult([], Some(HttpError(reply.status, reply.statusText)));
    }
    if reply.body.None? {
      return StreamResult([], Some(ErrorWith("No response body for streaming")));
    }
    var yielded := ReadChunks(reply.body.value.chunks, parse);
    return StreamResult(yielded, reply.body.value.readFailure);
  }

  /** The read loop of `streamMessage`: feed each chunk, then drain the queue. */
  method ReadChunks(chunks: seq<seq<string>>, parse: string -> Option<Json>) returns (yielded: seq<OutputItem>)
    ensures yielded == Decode(Events(chunks), parse)
  {
    yielded := [];
    var queue: seq<OutputItem> := [];
    var i := 0;
    while i < |chunks|
      invariant 0 <= i <= |chunks|
      invariant queue == []
      invariant yielded == Decode(Events(chunks[..i]), parse)
    {
      ghost var before := yielded;
      queue := Feed(queue, chunks[i], parse);
      assert queue == Decode(chunks[i], parse);
      yielded, queue := Drain(yielded, queue);
      assert yielded == before + Decode(chunks[i], parse);
      DecodeChunks(chunks, parse, i);
      i := i + 1;
    }
    assert chunks[..i] == chunks;
  }

  // ----- the evidently intended error handling ---------------------------------------------------

  /** A frame's fate when the thrown error is allowed to end the stream. */
  datatype FixedOutcome = Pass | Deliver(item: OutputItem) | Fail(message: string)

  /** The message of the error reported by a frame's `error` field: its own string, or the
      `message` string of an error object, or "Stream error" otherwise. */
  function StreamErrorMessage(error: Json): (m: string)
    ensures m != ""
  {
    match error
    case Str(s) => if s != "" then s else "Stream error"
    case Obj(_) =>
      (match Get(error, "message")
       case Some(Str(s)) => if s != "" then s else "Stream error"
       case _ => "Stream error")
    case _ => "Stream error"
  }

  /** `onEvent` with the error check outside the catch-all: a frame with a non-null top-level
      `error` field fails the stream; everything else is decided as before. */
  function HandleEventFixed(data: string, parse: string -> Option<Json>): (r: FixedOutcome)
    ensures r.Fail? <==> (data != Done && parse(data).Some?
                          && Get(parse(data).value, "error").Some?
                          && !Get(parse(data).value, "error").value.Null?)
    ensures !r.Fail? ==> (r.Pass? <==> HandleEvent(data, parse).Skip?)
    ensures r.Deliver? ==> HandleEvent(data, parse) == Enqueue(r.item)
  {
    if data == Done then Pass
    else match parse(data)
      case None => Pass
      case Some(v) =>
        match Get(v, "error")
        case Some(e) =>
          if e.Null? then (if HandleEvent(data, parse).Skip? then Pass else Deliver(HandleEvent(data, parse).item))
          else Fail(StreamErrorMessage(e))
        case None => if HandleEvent(data, parse).Skip? then Pass else Deliver(HandleEvent(data, parse).item)
  }

  /** The corrected stream: items up to the first failing frame, then that failure. */
  function DecodeFixed(events: seq<string>, parse: string -> Option<Json>): (r: StreamResult)
    ensures r.failure.None? ==> r.yielded == Decode(events, parse)
    ensures r.failure.None? <==> forall i :: 0 <= i < |events| ==> !HandleEventFixed(events[i], parse).Fail?
    ensures r.failure.Some? ==> r.failure.value.ErrorWith? && r.failure.value.message != ""
    decreases |events|
  {
    if |events| == 0 then StreamResult([], None)
    else
      var rest := DecodeFixed(events[1..], parse);
      match HandleEventFixed(events[0], parse)
      case Fail(m) => StreamResult([], Some(ErrorWith(m)))
      case Pass =>
        DecodeFront(events, parse);
        rest
      case Deliver(item) =>
        DecodeFront(events, parse);
        StreamResult([item] + rest.yielded, rest.failure)
  }

  lemma {:induction false} DecodeFront(events: seq<string>, parse: string -> Option<Json>)
    requires |events| > 0
    ensures Decode(events, parse)
            == (match HandleEvent(events[0], parse)
                case Skip => []
                case Enqueue(item) => [item]) + Decode(events[1..], parse)
  {
    assert events == [events[0]] + events[1..];
    DecodeAppend([events[0]], events[1..], parse);
    assert [events[0]][..0] == [];
  }

  lemma ServerErrorFrameFailsOne(data: string, parse: string -> Option<Json>, message: string)
    requires data != Done && parse(data) == Some(ServerErrorFrame(message))
    ensures HandleEventFixed(data, parse) == Fail(if message != "" then message else "Stream error")
  {
    var v := ServerErrorFrame(message);
    LookupAt(v.fields, 0);
  }

  /** With the correction, the servers' error frame ends the stream with a failure that
      carries the server's message, after everything sent before it. */
  lemma {:induction false} ServerErrorFrameFails(before: seq<string>, data: string, parse: string -> Option<Json>, message: string)
    requires data != Done && parse(data) == Some(ServerErrorFrame(message))
    requires forall i :: 0 <= i < |before| ==> !HandleEventFixed(before[i], parse).Fail?
    ensures DecodeFixed(before + [data], parse)
            == StreamResult(Decode(before, parse), Some(ErrorWith(if message != "" then message else "Stream error")))
    decreases |before|
  {
    ServerErrorFrameFailsOne(data, parse, message);
    if |before| == 0 {
      assert before + [data] == [data];
    } else {
      assert (before + [data])[0] == before[0];
      assert (before + [data])[1..] == before[1..] + [data];
      ServerErrorFrameFails(before[1..], data, parse, message);
      DecodeFront(before, parse);
    }
  }
}

=== FILE: config_panel.dfy ===
/**
 * The settings panel of the known-schema UI: a local copy of the agent config, edited
 * field by field, with a dirty flag that only looks at the endpoint, and Save / Reset
 * controls shown while the flag is set. The saved config is the parent's prop; the local
 * copy is taken from it once, when the panel mounts.
 */
module ConfigPanel {
  import opened Wrappers

  /** An agent config: string fields by name; "endpoint" is the one the flag watches. */
  type AgentConfig = map<string, string>

  const DefaultConfig: AgentConfig := map["endpoint" := "http://0.0.0.0:8000"]

  /** `config.endpoint`: `None` stands for `undefined`. */
  function Endpoint(c: AgentConfig): Option<string> {
    if "endpoint" in c then Some(c["endpoint"]) else None
  }

  datatype Panel = Panel(saved: AgentConfig, local: AgentConfig, hasChanges: bool)

  /** Mounting: the local copy starts as the prop, with no changes. */
  function Mount(config: AgentConfig): (r: Panel)
    ensures r.local == r.saved == config && !r.hasChanges
  {
    Panel(config, config, false)
  }

  /** `handleConfigChange`: only the named field of the local copy changes, and the flag
      becomes whether the local endpoint now differs from the saved one. */
  function Edit(p: Panel, field: string, value: string): (r: Panel)
    ensures r.saved == p.saved
    ensures field in r.local && r.local[field] == value
    ensures r.local.Keys == p.local.Keys + {field}
    ensures forall k :: k in p.local && k != field ==> r.local[k] == p.local[k]
    ensures r.hasChanges <==> Endpoint(r.local) != Endpoint(p.saved)
  {
    var local := p.local[field := value];
    Panel(p.saved, local, Endpoint(local) != Endpoint(p.saved))
  }

  /** `handleSave`: the local copy is handed to the parent as is, and the flag clears. */
  function Save(p: Panel): (r: (Panel, AgentConfig))
    ensures r.1 == p.local
    ensures r.0.local == p.local && r.0.saved == p.saved && !r.0.hasChanges
  {
    (p.(hasChanges := false), p.local)
  }

  /** `handleReset`: the local copy goes back to the saved config, and the flag clears. */
  function Reset(p: Panel): (r: Panel)
    ensures r.local == p.saved && r.saved == p.saved && !r.hasChanges
  {
    Panel(p.saved, p.saved, false)
  }

  /** The parent passing a new config: the prop changes, the local copy and flag do not. */
  function NewProp(p: Panel, config: AgentConfig): (r: Panel)
    ensures r.saved == config && r.local == p.local && r.hasChanges == p.hasChanges
  {
    p.(saved := config)
  }

  /** The footer with Save and Reset exists only while there are changes. */
  function ControlsShown(p: Panel): bool {
    p.hasChanges
  }

  /** The flag never claims a change the endpoint does not show. */
  predicate Honest(p: Panel) {
    p.hasChanges ==> Endpoint(p.local) != Endpoint(p.saved)
  }

  /** Edits, saves and resets keep the flag honest; every edit makes it exact. */
  lemma StepsKeepHonest(p: Panel, field: string, value: string)
    ensures Honest(Mount(p.saved))
    ensures Honest(Edit(p, field, value))
    ensures Honest(Save(p).0) && Honest(Reset(p))
    ensures var q := Edit(p, field, value);
            q.hasChanges <==> Endpoint(q.local) != Endpoint(q.saved)
  {
  }

  /** Editing a field other than the endpoint keeps the endpoint, so the flag then says
      whether the endpoint already differed. */
  lemma OtherFieldKeepsEndpoint(p: Panel, field: string, value: string)
    requires field != "endpoint"
    ensures Endpoint(Edit(p, field, value).local) == Endpoint(p.local)
    ensures Edit(p, field, value).hasChanges <==> Endpoint(p.local) != Endpoint(p.saved)
  {
  }

  /** Typing the saved endpoint back clears the flag, whatever else was edited; the
      controls disappear although other fields may still differ. */
  lemma RetypingSavedEndpointClears(p: Panel, value: string)
    requires Endpoint(p.saved) == Some(value)
    ensures !ControlsShown(Edit(p, "endpoint", value))
  {
  }

  /** Reset undoes an edit. */
  lemma ResetUndoesEdits(p: Panel, field: string, value: string)
    ensures Reset(Edit(p, field, value)) == Reset(p)
  {
  }

  /** After a save whose config the parent passes back, the panel is as if freshly mounted
      on it. */
  lemma SaveThenProp(p: Panel)
    ensures var (q, forwarded) := Save(p);
            NewProp(q, forwarded) == Mount(p.local)
  {
  }
}

=== FILE: framing.dfy ===
/**
 * Server-sent-event framing as the agent servers write it (`data: <payload>` followed by a
 * blank line) and as a receiver interprets it under the WHATWG HTML Living Standard,
 * section 9.2.6 "Interpreting an event stream", restricted to streams whose lines end in
 * LF: lines are split on LF, a blank line dispatches the data buffer, a line starting with
 * ":" is a comment, the field name runs up to the first ":" and one leading space of the
 * value is dropped, every `data` value is appended to the buffer with an LF, the final LF
 * is removed on dispatch, and an unterminated last line and undispatched data are dropped.
 */
module Framing {
  import opened Strings

  /** One event carrying `payload` as its data. */
  function Frame(payload: string): (r: string)
    ensures |r| == |payload| + 8
    ensures StartsWith(r, "data: ") && EndsWith(r, "\n\n")
    ensures r[6..|r| - 2] == payload
  {
    "data: " + payload + "\n\n"
  }

  /** The frames of several payloads, back to back. */
  function Frames(payloads: seq<string>): (r: string)
    ensures r == "" <==> |payloads| == 0
    ensures |payloads| > 0 ==> StartsWith(r, "data: ") && EndsWith(r, "\n\n")
  {
    if |payloads| == 0 then "" else Frame(payloads[0]) + Frames(payloads[1..])
  }

  // ----- the receiver ---------------------------------------------------------------------------

  /** The complete lines of a stream: an unterminated last line is not a line yet. */
  function Lines(s: string): (r: seq<string>)
    ensures forall i :: 0 <= i < |r| ==> NoChar(r[i], '\n')
  {
    var parts := Split(s, '\n');
    parts[..|parts| - 1]
  }

  /** Field name and value of a non-blank, non-comment line. */
  function FieldOf(line: string): (r: (string, string))
    ensures NoChar(r.0, ':')
  {
    var k := IndexOf(line, ':');
    if k == |line| then (line, "")
    else
      var value := line[k + 1..];
      (line[..k], if |value| > 0 && value[0] == ' ' then value[1..] else value)
  }

  /** The data of the events dispatched by `lines`, given the data buffer so far. */
  function Process(lines: seq<string>, buffer: string): (r: seq<string>)
    ensures |r| <= |lines|
    ensures (forall i :: 0 <= i < |lines| ==> lines[i] != "") ==> r == []
    decreases |lines|
  {
    if |lines| == 0 then []
    else
      var line := lines[0];
      if line == "" then
        if buffer == "" then Process(lines[1..], "")
        else
          var data := if buffer[|buffer| - 1] == '\n' then buffer[..|buffer| - 1] else buffer;
          [data] + Process(lines[1..], "")
      else if line[0] == ':' then Process(lines[1..], buffer)
      else
        var (name, value) := FieldOf(line);
        if name == "data" then Process(lines[1..], buffer + value + "\n")
        else Process(lines[1..], buffer)
  }

  /** The data strings of the events a receiver dispatches for stream `s`. */
  function Interpret(s: string): (r: seq<string>)
    ensures |r| <= |Lines(s)|
    ensures NoChar(s, '\n') ==> r == []
  {
    Process(Lines(s), "")
  }

  // ----- round trip -----------------------------------------------------------------------------

  /** The lines the frames of `payloads` consist of. */
  function FrameLines(payloads: seq<string>): (r: seq<string>)
    ensures |r| == 2 * |payloads|
  {
    if |payloads| == 0 then [] else ["data: " + payloads[0], ""] + FrameLines(payloads[1..])
  }

  predicate SingleLine(payload: string) {
    NoChar(payload, '\n')
  }

  lemma {:induction false} FramesAreLines(payloads: seq<string>)
    ensures Frames(payloads) == Join(FrameLines(payloads) + [""], "\n")
    decreases |payloads|
  {
    if |payloads| > 0 {
      var p := payloads[0];
      var rest := FrameLines(payloads[1..]) + [""];
      FramesAreLines(payloads[1..]);
      assert FrameLines(payloads) + [""] == ["data: " + p] + ([""] + rest);
      assert Join(["data: " + p] + ([""] + rest), "\n") == "data: " + p + "\n" + Join([""] + rest, "\n");
      assert Join([""] + rest, "\n") == "" + "\n" + Join(rest, "\n");
    }
  }

  lemma {:induction false} FrameLinesSingle(payloads: seq<string>)
    requires forall i :: 0 <= i < |payloads| ==> SingleLine(payloads[i])
    ensures forall i :: 0 <= i < |FrameLines(payloads)| ==> NoChar(FrameLines(payloads)[i], '\n')
    decreases |payloads|
  {
    if |payloads| > 0 {
      FrameLinesSingle(payloads[1..]);
      var r := FrameLines(payloads);
      assert r == ["data: " + payloads[0], ""] + FrameLines(payloads[1..]);
      forall i | 0 <= i < |r| ensures NoChar(r[i], '\n') {
        if i == 0 {
          assert r[0] == "data: " + payloads[0];
          assert SingleLine(payloads[0]);
        } else if i >= 2 {
          assert r[i] == FrameLines(payloads[1..])[i - 2];
        }
      }
    }
  }

  /** A `data: ` line yields its payload as the data field's value. */
  lemma DataField(payload: string)
    ensures FieldOf("data: " + payload) == ("data", payload)
  {
    var line := "data: " + payload;
    assert line == "data" + [':'] + (" " + payload);
    IndexOfPrefix("data", " " + payload, ':');
    assert line[..4] == "data";
    assert line[5..] == " " + payload;
    assert (" " + payload)[1..] == payload;
  }

  lemma {:induction false} ProcessFrames(payloads: seq<string>)
    ensures Process(FrameLines(payloads), "") == payloads
    decreases |payloads|
  {
    if |payloads| > 0 {
      var p := payloads[0];
      var lines := FrameLines(payloads);
      DataField(p);
      assert lines[0] == "data: " + p && lines[1] == "";
      assert lines[1..][1..] == FrameLines(payloads[1..]);
      var buffer := "" + p + "\n";
      assert buffer[..|buffer| - 1] == p;
      ProcessFrames(payloads[1..]);
      assert [p] + payloads[1..] == payloads;
    }
  }

  lemma FrameLinesSplit(payloads: seq<string>)
    requires forall i :: 0 <= i < |payloads| ==> SingleLine(payloads[i])
    ensures Split(Join(FrameLines(payloads) + [""], "\n"), '\n') == FrameLines(payloads) + [""]
  {
    var lines := FrameLines(payloads);
    var parts := lines + [""];
    FrameLinesSingle(payloads);
    forall i | 0 <= i < |parts| ensures NoChar(parts[i], '\n') {
      if i < |lines| {
        assert parts[i] == lines[i];
      }
    }
    SplitJoin(parts, '\n');
  }

  lemma FramesLines(payloads: seq<string>)
    requires forall i :: 0 <= i < |payloads| ==> SingleLine(payloads[i])
    ensures Lines(Frames(payloads)) == FrameLines(payloads)
  {
    var parts := FrameLines(payloads) + [""];
    FramesAreLines(payloads);
    FrameLinesSplit(payloads);
    assert parts[..|parts| - 1] == FrameLines(payloads);
  }

  /** Interpreting the frames of single-line payloads dispatches exactly those payloads, in
      order: stripping the `data: ` prefix and the blank line recovers each one. */
  lemma FramesRoundTrip(payloads: seq<string>)
    requires forall i :: 0 <= i < |payloads| ==> SingleLine(payloads[i])
    ensures Interpret(Frames(payloads)) == payloads
  {
    FramesLines(payloads);
    ProcessFrames(payloads);
  }
}

=== FILE: host.dfy ===
/**
 * The workspace host the agents talk to: `DATABRICKS_HOST` normalised to an https URL, and
 * the OpenAI-compatible base URL built from it. As written, an unset variable crashes on
 * `.startswith` before the `None` check, so the workspace-client fallback below it can
 * never run; `HostFromEnv` models the evidently intended order. The environment variable
 * and the workspace client's configured host are parameters.
 */
module DatabricksHost {
  import opened Wrappers
  import opened Strings

  const Https: string := "https://"

  /** An https URL for a host given with or without scheme; any other scheme (even
      "http://") is kept and prefixed. */
  function Normalize(host: string): (r: string)
    ensures StartsWith(r, Https)
    ensures StartsWith(host, Https) ==> r == host
    ensures !StartsWith(host, Https) ==> r == Https + host
  {
    if StartsWith(host, Https) then host else Https + host
  }

  /** Normalising twice is normalising once. */
  lemma NormalizeIdempotent(host: string)
    ensures Normalize(Normalize(host)) == Normalize(host)
  {
  }

  /** "http://x" is not recognised as a URL: it becomes "https://http://x". */
  lemma HttpIsPrefixed(rest: string)
    ensures Normalize("http://" + rest) == "https://http://" + rest
  {
    assert !StartsWith("http://" + rest, Https) by {
      assert ("http://" + rest)[4] == ':';
    }
  }

  /** What the workspace client yields: its configured host (possibly unset), or the message
      of what constructing it raised. */
  type WorkspaceHost = Result<Option<string>, string>

  /** `get_databricks_host_from_env` as written: an unset variable raises `AttributeError`. */
  function HostFromEnvAsWritten(env: Option<string>, workspace: WorkspaceHost): (r: Result<Option<string>, string>)
    ensures env.None? ==> r.Err?
    ensures env.Some? ==> r == Ok(Some(Normalize(env.value)))
  {
    match env
    case None => Err("'NoneType' object has no attribute 'startswith'")
    case Some(host) => Ok(Some(Normalize(host)))
  }

  /** The evident intent: a set variable is normalised; otherwise the workspace client's host
      is used, and a client that cannot be built gives no host. */
  function HostFromEnv(env: Option<string>, workspace: WorkspaceHost): (r: Option<string>)
    ensures env.Some? ==> r == Some(Normalize(env.value))
    ensures env.None? && workspace.Ok? ==> r == workspace.value
    ensures env.None? && workspace.Err? ==> r.None?
  {
    match env
    case Some(host) => Some(Normalize(host))
    case None => if workspace.Ok? then workspace.value else None
  }

  /** The crash: with the variable unset, the fallback is never consulted, whatever host the
      workspace client would give; the corrected version returns that host. */
  lemma UnsetHostCrashes(h: string)
    ensures HostFromEnvAsWritten(None, Ok(Some(h))).Err?
    ensures HostFromEnv(None, Ok(Some(h))) == Some(h)
  {
  }

  /** The two versions agree whenever the variable is set. */
  lemma AgreeWhenSet(host: string, workspace: WorkspaceHost)
    ensures HostFromEnvAsWritten(Some(host), workspace) == Ok(HostFromEnv(Some(host), workspace))
  {
  }

  /** An optional string in an f-string: `None` prints as "None". */
  function Format(s: Option<string>): string {
    if s.Some? then s.value else "None"
  }

  const ServingPath: string := "/serving-endpoints"

  /** `get_async_openai_client`'s base URL as written: it calls the as-written host lookup,
      so an unset variable raises before any URL is built; a set one gives the normalised host
      followed by "/serving-endpoints". */
  function OpenAiBaseUrl(env: Option<string>, workspace: WorkspaceHost): (r: Result<string, string>)
    ensures env.None? ==> r.Err? && r == Err(HostFromEnvAsWritten(env, workspace).error)
    ensures env.Some? ==> r == Ok(Normalize(env.value) + ServingPath)
  {
    match HostFromEnvAsWritten(env, workspace)
    case Err(e) => Err(e)
    case Ok(host) => Ok(Format(host) + ServingPath)
  }

  /** The base URL over the corrected lookup: the host, or "None" when no host is found,
      followed by "/serving-endpoints". */
  function OpenAiBaseUrlFixed(env: Option<string>, workspace: WorkspaceHost): (r: string)
    ensures env.Some? ==> r == Normalize(env.value) + ServingPath
    ensures env.None? && workspace.Ok? && workspace.value.Some? ==> r == workspace.value.value + ServingPath
    ensures EndsWith(r, ServingPath)
  {
    var url := Format(HostFromEnv(env, workspace)) + ServingPath;
    assert url[|url| - |ServingPath|..] == ServingPath;
    url
  }

  /** With the variable set, both versions build the same base URL: an https URL from which
      the host is recovered by cutting the serving path off. */
  lemma BaseUrlOfSetHost(host: string, workspace: WorkspaceHost)
    ensures OpenAiBaseUrl(Some(host), workspace) == Ok(OpenAiBaseUrlFixed(Some(host), workspace))
    ensures var url := OpenAiBaseUrlFixed(Some(host), workspace);
            && StartsWith(url, Https)
            && url[..|url| - |ServingPath|] == Normalize(host)
  {
  }
}

=== FILE: json.dfy ===
/**
 * JSON values as both ends of the wire see them, with the two serialisers the source uses:
 * Python's `json.dumps` (server side, default options) and JavaScript's `JSON.stringify`
 * (tool-argument rendering in the UI). Parsing text into values is not modelled: it enters
 * the model as a parameter of type `string -> Option<Json>`.
 */
module Json {
  import opened Wrappers
  import opened Strings

  /** Numbers are integers only; an object keeps its bindings in insertion order. */
  datatype Json =
    | Null
    | Bool(b: bool)
    | Num(n: int)
    | Str(s: string)
    | Arr(items: seq<Json>)
    | Obj(fields: seq<(string, Json)>)

  /** The value bound to `key`; a later binding wins, as with `JSON.parse` and `json.loads`. */
  function Lookup(fields: seq<(string, Json)>, key: string): (r: Option<Json>)
    ensures r.Some? <==> exists i :: 0 <= i < |fields| && fields[i].0 == key
  {
    if |fields| == 0 then None
    else if fields[|fields| - 1].0 == key then Some(fields[|fields| - 1].1)
    else
      var r := Lookup(fields[..|fields| - 1], key);
      assert forall i :: 0 <= i < |fields| - 1 ==> fields[..|fields| - 1][i] == fields[i];
      r
  }

  /** Validate every element of an array with `parse`: the whole array passes exactly when
      each element does, and the results keep the elements' order. */
  function ParseEach<T>(items: seq<Json>, parse: Json -> Option<T>): (r: Option<seq<T>>)
    ensures r.Some? ==> |r.value| == |items|
    ensures r.Some? ==> forall i :: 0 <= i < |items| ==> parse(items[i]) == Some(r.value[i])
  {
    if |items| == 0 then Some([])
    else
      var x :- parse(items[0]);
      var rest :- ParseEach(items[1..], parse);
      Some([x] + rest)
  }

  lemma {:induction false} ParseEachOf<T>(items: seq<Json>, parse: Json -> Option<T>, xs: seq<T>)
    requires |items| == |xs|
    requires forall i :: 0 <= i < |items| ==> parse(items[i]) == Some(xs[i])
    ensures ParseEach(items, parse) == Some(xs)
    decreases |items|
  {
    if |items| > 0 {
      assert forall i :: 0 <= i < |items| - 1 ==> items[1..][i] == items[i + 1] && xs[1..][i] == xs[i + 1];
      ParseEachOf(items[1..], parse, xs[1..]);
      assert [xs[0]] + xs[1..] == xs;
    }
  }

  /** Property access `v[key]` / `v.get(key)`: only objects have properties. */
  function Get(v: Json, key: string): Option<Json> {
    if v.Obj? then Lookup(v.fields, key) else None
  }

  lemma LookupAppend(a: seq<(string, Json)>, b: seq<(string, Json)>, key: string)
    ensures Lookup(a + b, key) == (if Lookup(b, key).Some? then Lookup(b, key) else Lookup(a, key))
    decreases |b|
  {
    if |b| == 0 {
      assert a + b == a;
    } else {
      assert (a + b)[..|a + b| - 1] == a + b[..|b| - 1];
      assert (a + b)[|a + b| - 1] == b[|b| - 1];
      LookupAppend(a, b[..|b| - 1], key);
    }
  }

  /** A binding that no later binding shadows is the one found. */
  lemma {:induction false} LookupAt(fields: seq<(string, Json)>, i: nat)
    requires i < |fields|
    requires forall j :: i < j < |fields| ==> fields[j].0 != fields[i].0
    ensures Lookup(fields, fields[i].0) == Some(fields[i].1)
    decreases |fields|
  {
    var n := |fields| - 1;
    if i < n {
      assert fields[n].0 != fields[i].0;
      assert fields[..n][i] == fields[i];
      LookupAt(fields[..n], i);
    }
  }

  /** `d[key] = value` on a Python dict / `{...d, [key]: value}` in JavaScript: an existing
      binding is overwritten where it stands, a new one is appended. */
  function Set(fields: seq<(string, Json)>, key: string, value: Json): (r: seq<(string, Json)>)
    ensures Lookup(r, key) == Some(value)
    ensures forall k :: k != key ==> Lookup(r, k) == Lookup(fields, k)
    ensures forall i :: 0 <= i < |fields| && fields[i].0 != key ==> fields[i] in r
  {
    if exists i :: 0 <= i < |fields| && fields[i].0 == key then
      var r := Overwrite(fields, key, value);
      forall k ensures k != key ==> Lookup(r, k) == Lookup(fields, k) {
        OverwriteLookup(fields, key, value, k);
      }
      OverwriteLookup(fields, key, value, key);
      r
    else
      forall k | k != key ensures Lookup(fields + [(key, value)], k) == Lookup(fields, k) {
        LookupAppend(fields, [(key, value)], k);
      }
      fields + [(key, value)]
  }

  /** Every binding of `key` rebound to `value` where it stands. */
  function Overwrite(fields: seq<(string, Json)>, key: string, value: Json): (r: seq<(string, Json)>)
    ensures |r| == |fields|
    ensures forall i :: 0 <= i < |fields| ==> r[i] == (if fields[i].0 == key then (key, value) else fields[i])
  {
    seq(|fields|, i requires 0 <= i < |fields| => if fields[i].0 == key then (key, value) else fields[i])
  }

  lemma {:induction false} OverwriteLookup(fields: seq<(string, Json)>, key: string, value: Json, k: string)
    ensures k != key ==> Lookup(Overwrite(fields, key, value), k) == Lookup(fields, k)
    ensures k == key && (exists i :: 0 <= i < |fields| && fields[i].0 == key) ==>
              Lookup(Overwrite(fields, key, value), k) == Some(value)
    decreases |fields|
  {
    if |fields| > 0 {
      var n := |fields| - 1;
      var r := Overwrite(fields, key, value);
      assert r[..n] == Overwrite(fields[..n], key, value);
      OverwriteLookup(fields[..n], key, value, k);
      if fields[n].0 != key && exists i :: 0 <= i < |fields| && fields[i].0 == key {
        var i :| 0 <= i < |fields| && fields[i].0 == key;
        assert fields[..n][i].0 == key;
      }
    }
  }

  /** `{k: v for k, v in d.items() if k != key}`: every binding of `key` removed, order kept. */
  function Remove(fields: seq<(string, Json)>, key: string): (r: seq<(string, Json)>)
    ensures Lookup(r, key) == None
    ensures forall k :: k != key ==> Lookup(r, k) == Lookup(fields, k)
    ensures forall i :: 0 <= i < |r| ==> r[i].0 != key && r[i] in fields
  {
    if |fields| == 0 then []
    else
      var n := |fields| - 1;
      var front := Remove(fields[..n], key);
      if fields[n].0 == key then front
      else
        var r := front + [fields[n]];
        assert r[..|r| - 1] == front;
        r
  }

  /** The bindings of the optional keys that are present, in order: how both serialisers
      omit a key whose value is absent. */
  function Optionals(opt: seq<(string, Option<Json>)>): (r: seq<(string, Json)>)
    ensures |r| <= |opt|
  {
    if |opt| == 0 then []
    else (if opt[0].1.Some? then [(opt[0].0, opt[0].1.value)] else []) + Optionals(opt[1..])
  }

  lemma LookupOptional(base: seq<(string, Json)>, extra: seq<(string, Json)>, k: string)
    requires |extra| <= 1
    ensures Lookup(base + extra, k)
            == (if |extra| == 1 && extra[0].0 == k then Some(extra[0].1) else Lookup(base, k))
  {
    LookupAppend(base, extra, k);
  }

  /** A key that has no present optional binding is looked up in the required part. */
  lemma {:induction false} LookupPastOptionals(base: seq<(string, Json)>, opt: seq<(string, Option<Json>)>, k: string)
    requires forall i :: 0 <= i < |opt| && opt[i].0 == k ==> opt[i].1.None?
    ensures Lookup(base + Optionals(opt), k) == Lookup(base, k)
    decreases |opt|
  {
    if |opt| > 0 {
      var head := if opt[0].1.Some? then [(opt[0].0, opt[0].1.value)] else [];
      assert base + Optionals(opt) == (base + head) + Optionals(opt[1..]);
      assert |head| == 1 ==> head[0].0 != k;
      LookupPastOptionals(base + head, opt[1..], k);
      LookupOptional(base, head, k);
    } else {
      assert base + Optionals(opt) == base;
    }
  }

  /** A present optional binding that no later optional key shadows is the one found. */
  lemma {:induction false} LookupOptionalAt(base: seq<(string, Json)>, opt: seq<(string, Option<Json>)>, i: nat)
    requires i < |opt| && opt[i].1.Some?
    requires forall j :: i < j < |opt| ==> opt[j].0 != opt[i].0
    ensures Lookup(base + Optionals(opt), opt[i].0) == opt[i].1
    decreases |opt|
  {
    var head := if opt[0].1.Some? then [(opt[0].0, opt[0].1.value)] else [];
    assert base + Optionals(opt) == (base + head) + Optionals(opt[1..]);
    if i == 0 {
      LookupPastOptionals(base + head, opt[1..], opt[0].0);
      LookupOptional(base, head, opt[0].0);
    } else {
      LookupOptionalAt(base + head, opt[1..], i - 1);
    }
  }

  /** In an object built from required bindings and optional ones, a required key bound once
      is found. */
  lemma LookupRequired(base: seq<(string, Json)>, opt: seq<(string, Option<Json>)>, i: nat)
    requires i < |base|
    requires forall j :: i < j < |base| ==> base[j].0 != base[i].0
    requires forall j :: 0 <= j < |opt| ==> opt[j].0 != base[i].0
    ensures Lookup(base + Optionals(opt), base[i].0) == Some(base[i].1)
  {
    LookupAt(base, i);
    LookupPastOptionals(base, opt, base[i].0);
  }

  /** ... and an optional key bound once reads back as present or absent. */
  lemma LookupOptionalKey(base: seq<(string, Json)>, opt: seq<(string, Option<Json>)>, i: nat)
    requires i < |opt|
    requires forall j :: 0 <= j < |base| ==> base[j].0 != opt[i].0
    requires forall j :: 0 <= j < |opt| && j != i ==> opt[j].0 != opt[i].0
    ensures Lookup(base + Optionals(opt), opt[i].0) == opt[i].1
  {
    if opt[i].1.Some? {
      LookupOptionalAt(base, opt, i);
    } else {
      LookupPastOptionals(base, opt, opt[i].0);
    }
  }

  /** JavaScript truthiness of a property read (`None` is `undefined`). */
  predicate JsTruthy(v: Option<Json>) {
    match v
    case None => false
    case Some(Null) => false
    case Some(Bool(b)) => b
    case Some(Num(n)) => n != 0
    case Some(Str(s)) => s != ""
    case Some(_) => true
  }

  /** Python truthiness of a decoded JSON value: empty containers are false too. */
  predicate PyTruthy(v: Json) {
    match v
    case Null => false
    case Bool(b) => b
    case Num(n) => n != 0
    case Str(s) => s != ""
    case Arr(items) => |items| > 0
    case Obj(fields) => |fields| > 0
  }

  // ---------------------------------------------------------------------------------------
  // Python json.dumps with default options: ", " and ": " separators, ensure_ascii=True.
  // ---------------------------------------------------------------------------------------

  /** Printable ASCII, the only characters `json.dumps` emits by default. */
  predicate Printable(s: string) {
    forall i :: 0 <= i < |s| ==> ' ' <= s[i] <= '~'
  }

  function HexDigit(d: nat): (c: char)
    requires d < 16
    ensures ' ' <= c <= '~'
  {
    if d < 10 then '0' + d as char else 'a' + (d - 10) as char
  }

  /** Four lower-case hex digits, as `'\\u{0:04x}'.format(n)` writes them. */
  function Hex4(n: nat): (r: string)
    requires n < 0x10000
    ensures |r| == 4 && Printable(r)
  {
    [HexDigit(n / 4096), HexDigit(n / 256 % 16), HexDigit(n / 16 % 16), HexDigit(n % 16)]
  }

  /** One character of a string literal as `json.dumps` escapes it. */
  function PyEscapeChar(c: char): (r: string)
    ensures Printable(r)
  {
    if c == '"' then "\\\""
    else if c == '\\' then "\\\\"
    else if c == '\n' then "\\n"
    else if c == '\r' then "\\r"
    else if c == '\t' then "\\t"
    else if c == '\U{8}' then "\\b"
    else if c == '\U{c}' then "\\f"
    else if ' ' <= c <= '~' then [c]
    else if (c as int) < 0x10000 then "\\u" + Hex4(c as int)
    else
      var n := c as int - 0x10000;
      "\\u" + Hex4(0xD800 + n / 1024) + "\\u" + Hex4(0xDC00 + n % 1024)
  }

  function PyEscape(s: string): (r: string)
    ensures Printable(r)
  {
    if |s| == 0 then "" else PyEscapeChar(s[0]) + PyEscape(s[1..])
  }

  function PyQuote(s: string): (r: string)
    ensures Printable(r)
  {
    "\"" + PyEscape(s) + "\""
  }

  /** `json.dumps(v)`. Every character of the text is printable ASCII, so in particular it
      holds no line break. */
  function Dumps(v: Json): (r: string)
    ensures Printable(r)
    decreases v, 1
  {
    match v
    case Null => "null"
    case Bool(b) => if b then "true" else "false"
    case Num(n) => IntToString(n)
    case Str(s) => PyQuote(s)
    case Arr(items) => "[" + DumpsItems(items) + "]"
    case Obj(fields) => "{" + DumpsFields(fields) + "}"
  }

  function DumpsItems(items: seq<Json>): (r: string)
    ensures Printable(r)
    decreases items, 0
  {
    if |items| == 0 then ""
    else if |items| == 1 then Dumps(items[0])
    else Dumps(items[0]) + ", " + DumpsItems(items[1..])
  }

  function DumpsFields(fields: seq<(string, Json)>): (r: string)
    ensures Printable(r)
    decreases fields, 0
  {
    if |fields| == 0 then ""
    else
      var (key, value) := fields[0];
      assert fields[0] in fields && fields[0].1 < fields[0];
      var member := PyQuote(key) + ": " + Dumps(value);
      if |fields| == 1 then member else member + ", " + DumpsFields(fields[1..])
  }

  // ---------------------------------------------------------------------------------------
  // JavaScript JSON.stringify without indentation.
  // ---------------------------------------------------------------------------------------

  /** No control character (below U+0020): in particular no raw line break. */
  predicate NoControl(s: string) {
    forall i :: 0 <= i < |s| ==> s[i] >= ' '
  }

  function JsEscapeChar(c: char): (r: string)
    ensures NoControl(r)
  {
    if c == '"' then "\\\""
    else if c == '\\' then "\\\\"
    else if c == '\n' then "\\n"
    else if c == '\r' then "\\r"
    else if c == '\t' then "\\t"
    else if c == '\U{8}' then "\\b"
    else if c == '\U{c}' then "\\f"
    else if c < ' ' then "\\u" + Hex4(c as int)
    else [c]
  }

  function JsEscape(s: string): (r: string)
    ensures NoControl(r)
  {
    if |s| == 0 then "" else JsEscapeChar(s[0]) + JsEscape(s[1..])
  }

  function JsQuote(s: string): (r: string)
    ensures NoControl(r)
  {
    "\"" + JsEscape(s) + "\""
  }

  /** `JSON.stringify(v)`: control characters inside strings are escaped, so the text holds
      no raw line break. */
  function Stringify(v: Json): (r: string)
    ensures NoControl(r)
    decreases v, 1
  {
    match v
    case Null => "null"
    case Bool(b) => if b then "true" else "false"
    case Num(n) => IntToString(n)
    case Str(s) => JsQuote(s)
    case Arr(items) => "[" + StringifyItems(items) + "]"
    case Obj(fields) => "{" + StringifyFields(fields) + "}"
  }

  function StringifyItems(items: seq<Json>): (r: string)
    ensures NoControl(r)
    decreases items, 0
  {
    if |items| == 0 then ""
    else if |items| == 1 then Stringify(items[0])
    else Stringify(items[0]) + "," + StringifyItems(items[1..])
  }

  function StringifyFields(fields: seq<(string, Json)>): (r: string)
    ensures NoControl(r)
    decreases fields, 0
  {
    if |fields| == 0 then ""
    else
      var (key, value) := fields[0];
      assert fields[0] in fields && fields[0].1 < fields[0];
      var member := JsQuote(key) + ":" + Stringify(value);
      if |fields| == 1 then member else member + "," + StringifyFields(fields[1..])
  }
}

=== FILE: known_schema_server.dfy ===
/**
 * The known-schema agent server: the same endpoint with a single optional agent type
 * ("agent/v1/responses"). Only that type validates, and validation never converts: the
 * handler always receives the request dict. Its invoke handler reads `databricks_output`
 * outside the branch that assigns it, so `HandleInvoke` models the code as written and
 * `HandleInvokeFixed` the evidently intended one.
 */
module KnownSchemaServer {
  import opened Wrappers
  import opened Strings
  import opened Json
  import opened Framing
  import opened ServerCommon

  /** The handlers see the request dict. */
  type InvokeFn = seq<(string, Json)> -> Result<PyValue, string>
  type StreamFn = seq<(string, Json)> -> StreamRun

  /** `typed`: the agent type is "agent/v1/responses" (otherwise it is None). */
  datatype Server = Server(typed: bool, registry: Registry<InvokeFn, StreamFn>)

  /** Model construction, the responses reducer used for the span output, and the trace. */
  datatype Env = Env(construct: Construct, reducer: seq<seq<(string, Json)>> -> Option<string>, trace: Json)

  function AgentTypeText(typed: bool): string {
    if typed then "agent/v1/responses" else "None"
  }

  /** `validate_pydantic` of this server: an instance passes, anything else — including a
      model of another class — is unpacked into the class directly. */
  function ValidatePydantic(construct: Construct, typed: bool, cls: PyClass, data: PyValue): (r: Option<Raised>)
    ensures data.Model? && data.cls == cls ==> r.None?
    ensures !(data.Model? && data.cls == cls) ==> (r.None? <==> construct(cls, data).None?)
    ensures r.Some? ==> r.value.valueError
  {
    if data.Model? && data.cls == cls then None
    else
      var e := construct(cls, data);
      if e.None? then None else Some(InvalidData(cls, AgentTypeText(typed), e.value))
  }

  /** `validate_request`: only a typed server checks the request. */
  function ValidateRequest(construct: Construct, typed: bool, data: seq<(string, Json)>): (r: Option<Raised>)
    ensures !typed ==> r.None?
    ensures typed ==> (r.None? <==> construct(ResponsesAgentRequest, Plain(Obj(data))).None?)
    ensures r.Some? ==> r.value.valueError
  {
    if typed then ValidatePydantic(construct, typed, ResponsesAgentRequest, Plain(Obj(data))) else None
  }

  function ResultClass(stream: bool): PyClass {
    if stream then ResponsesAgentStreamEvent else ResponsesAgentResponse
  }

  /** `validate_and_convert_result`: a typed server validates, then every server converts. */
  function ConvertResult(construct: Construct, typed: bool, result: PyValue, stream: bool): (r: Result<seq<(string, Json)>, Raised>)
    ensures !typed ==> r == ToDict(result)
    ensures r.Ok? ==> r == ToDict(result)
    ensures typed ==> (r.Ok? <==> (&& ToDict(result).Ok?
                                   && ValidatePydantic(construct, typed, ResultClass(stream), result).None?))
  {
    var invalid := if typed then ValidatePydantic(construct, typed, ResultClass(stream), result) else None;
    if invalid.Some? then Err(invalid.value) else ToDict(result)
  }

  /** What reading the unassigned local raises, in the wording of current Python. */
  const UnboundOutput: string := "cannot access local variable 'databricks_output' where it is not associated with a value"

  /** `_handle_invoke_request` as written: the trace is fetched only when requested, but
      stored into the result unconditionally, so without `return_trace` the read of the
      never-assigned local raises and the request fails with a 500. */
  function HandleInvoke(server: Server, env: Env, data: seq<(string, Json)>, returnTrace: bool): (r: Reply)
    ensures server.registry.invoke.None? ==> r == ErrorReply(500, "No invoke function registered")
    ensures r.ErrorReply? ==> r.status == 500
    ensures r.JsonBody? <==> returnTrace && server.registry.invoke.Some? && server.registry.invoke.value(data).Ok?
                             && ConvertResult(env.construct, server.typed, server.registry.invoke.value(data).value, false).Ok?
  {
    match server.registry.invoke
    case None => ErrorReply(500, "No invoke function registered")
    case Some(f) =>
      match f(data)
      case Err(message) => ErrorReply(500, message)
      case Ok(result) =>
        match ConvertResult(env.construct, server.typed, result, false)
        case Err(e) => ErrorReply(500, e.message)
        case Ok(fields) =>
          if returnTrace then JsonBody(Obj(Set(fields, "databricks_output", DatabricksOutput(env.trace))))
          else ErrorReply(500, UnboundOutput)
  }

  /** The evident intent: the trace is stored only when it was fetched. */
  function HandleInvokeFixed(server: Server, env: Env, data: seq<(string, Json)>, returnTrace: bool): (r: Reply)
    ensures server.registry.invoke.None? ==> r == ErrorReply(500, "No invoke function registered")
    ensures r.ErrorReply? ==> r.status == 500
    ensures r.JsonBody? <==> server.registry.invoke.Some? && server.registry.invoke.value(data).Ok?
                             && ConvertResult(env.construct, server.typed, server.registry.invoke.value(data).value, false).Ok?
    ensures r.JsonBody? ==>
              var fields := ToDict(server.registry.invoke.value(data).value).value;
              && r.body.Obj?
              && (returnTrace ==> Lookup(r.body.fields, "databricks_output") == Some(DatabricksOutput(env.trace)))
              && (!returnTrace ==> r.body.fields == fields)
              && (forall k :: k != "databricks_output" ==> Lookup(r.body.fields, k) == Lookup(fields, k))
  {
    match server.registry.invoke
    case None => ErrorReply(500, "No invoke function registered")
    case Some(f) =>
      match f(data)
      case Err(message) => ErrorReply(500, message)
      case Ok(result) =>
        match ConvertResult(env.construct, server.typed, result, false)
        case Err(e) => ErrorReply(500, e.message)
        case Ok(fields) =>
          JsonBody(Obj(if returnTrace then Set(fields, "databricks_output", DatabricksOutput(env.trace)) else fields))
  }

  /** The bug: whatever the handler returns, an invoke without `return_trace` is a 500 —
      a dict result that needs no validation included. */
  lemma InvokeNeedsTrace(server: Server, env: Env, data: seq<(string, Json)>, result: seq<(string, Json)>)
    requires !server.typed
    requires server.registry.invoke.Some? && server.registry.invoke.value(data) == Ok(Plain(Obj(result)))
    ensures HandleInvoke(server, env, data, false) == ErrorReply(500, UnboundOutput)
    ensures HandleInvokeFixed(server, env, data, false) == JsonBody(Obj(result))
  {
  }

  /** The two versions differ only when the trace was not requested. */
  lemma FixedAgreesWithTrace(server: Server, env: Env, data: seq<(string, Json)>)
    ensures HandleInvoke(server, env, data, true) == HandleInvokeFixed(server, env, data, true)
  {
  }

  /** The span output: only a typed server reduces the chunks. */
  function SpanFailure(typed: bool, env: Env, chunks: seq<seq<(string, Json)>>): (r: Option<string>)
    ensures !typed ==> r.None?
  {
    if typed then env.reducer(chunks) else None
  }

  /** The server's conversion of a stream run: each chunk converted, the span reduced only by
      a typed server. */
  function Emitter(server: Server, env: Env): StreamRun -> Emitted {
    (run: StreamRun) =>
      RunStream((c: PyValue) => ConvertResult(env.construct, server.typed, c, true), run,
                (cs: seq<seq<(string, Json)>>) => SpanFailure(server.typed, env, cs))
  }

  /** `POST /invocations`; `fixed` selects the corrected invoke handler. A body that is not
      JSON is a 400, a request the typed server rejects is a 400 carrying the reason, and the
      only event streams are those of a registered stream handler, read back intact. */
  function Invocations(server: Server, env: Env, body: Result<Json, string>, fixed: bool): (r: Reply)
    ensures body.Err? ==> r == ErrorReply(400, "Invalid JSON in request body: " + body.error)
    ensures ReadRequest(body).Ok? && ValidateRequest(env.construct, server.typed, ReadRequest(body).value.requestData).Some? ==>
              r == ErrorReply(400, "Invalid parameters for " + AgentTypeText(server.typed) + ": "
                                   + ValidateRequest(env.construct, server.typed, ReadRequest(body).value.requestData).value.message)
    ensures r.EventStream? ==> && server.registry.stream.Some?
                               && Interpret(Frames(r.payloads)) == r.payloads
                               && |r.payloads| > 0 && r.payloads[|r.payloads| - 1] == DonePayload
    ensures ReadRequest(body).Ok? && ValidateRequest(env.construct, server.typed, ReadRequest(body).value.requestData).None? ==>
              var p := ReadRequest(body).value;
              && (p.isStreaming && server.registry.stream.None? ==> r == ErrorReply(500, "No stream function registered"))
              && (p.isStreaming && server.registry.stream.Some? ==> r.EventStream?)
              && (!p.isStreaming && server.registry.invoke.None? ==> r == ErrorReply(500, "No invoke function registered"))
  {
    match ReadRequest(body)
    case Err(reply) => reply
    case Ok(p) =>
      var invalid := ValidateRequest(env.construct, server.typed, p.requestData);
      if invalid.Some? then
        ErrorReply(400, "Invalid parameters for " + AgentTypeText(server.typed) + ": " + invalid.value.message)
      else if p.isStreaming then StreamReply(server.registry.stream, p.requestData, Emitter(server, env), p.returnTrace, env.trace)
      else if fixed then HandleInvokeFixed(server, env, p.requestData, p.returnTrace)
      else HandleInvoke(server, env, p.requestData, p.returnTrace)
  }

  /** Whatever the server, the handler sees the body minus `stream`, never converted; an
      untyped server accepts every object body. */
  lemma UntypedPassesThrough(server: Server, env: Env, fields: seq<(string, Json)>, fixed: bool)
    requires !server.typed
    requires Lookup(fields, "databricks_options").None?
    ensures var data := Remove(fields, "stream");
            Invocations(server, env, Ok(Obj(fields)), fixed) ==
              (if FlagOf(fields, "stream") then StreamReply(server.registry.stream, data, Emitter(server, env), false, env.trace)
               else if fixed then HandleInvokeFixed(server, env, data, false)
               else HandleInvoke(server, env, data, false))
  {
  }

  /** As written, a non-streaming request succeeds only if it asks for the trace. */
  lemma InvokeSucceedsOnlyWithTrace(server: Server, env: Env, fields: seq<(string, Json)>)
    requires Invocations(server, env, Ok(Obj(fields)), false).JsonBody?
    ensures var p := ReadRequest(Ok(Obj(fields))).value;
            !p.isStreaming && p.returnTrace
  {
  }
}

=== FILE: langgraph_renderer.dfy ===
/**
 * The LangGraph demo's chat UI: the same dispatch, message roles and argument block as the
 * known-schema UI, but segment text is shown verbatim (no prefix strip, no annotation
 * pieces) and the tool-call header carries no status.
 */
module LanggraphRenderer {
  import opened Wrappers
  import opened Strings
  import opened Json
  import opened Schema
  import R = Renderer

  /** `ResponseRenderer` of the LangGraph UI on a validated history item. */
  function Render(item: InputItem, parse: string -> Option<Json>): (r: R.View)
    ensures item.InputMessage? ==> r == R.MessageView(item.role == User, item.text, R.InputBody(item.text))
    ensures item.Output? && item.item.Message? ==>
              && r.MessageView?
              && (r.isUser <==> exists i :: 0 <= i < |item.item.content| && StartsWith(item.item.content[i].text, "User:"))
              && r.copyText == R.MessageText(item.item.content)
              && r.body.OutputBody? && |r.body.segments| == |item.item.content|
              && forall i :: 0 <= i < |item.item.content| ==> r.body.segments[i] == R.Whole(item.item.content[i].text)
    ensures item.Output? && item.item.FunctionCall? ==>
              r == R.ToolCallView(R.ToolTitle(item.item.name), None, R.FormatArguments(item.item.arguments, parse))
  {
    match item
    case InputMessage(role, text) => R.MessageView(role == User, text, R.InputBody(text))
    case Output(o) =>
      match o
      case Message(_, content) =>
        R.AnyUserSegmentExists(content);
        R.MessageView(R.AnyUserSegment(content), R.MessageText(content),
                      R.OutputBody(seq(|content|, i requires 0 <= i < |content| => R.Whole(content[i].text))))
      case FunctionCall(_, _, name, arguments, _) => R.ToolCallView(R.ToolTitle(name), None, R.FormatArguments(arguments, parse))
      case FunctionCallOutput(_, output) => R.ToolOutputView(output)
      case Reasoning(_, summary, content) => R.ReasoningView(summary, R.ReasoningDetail(content))
      case ErrorItem(_, message) => R.ErrorView(message)
  }

  /** The known-schema view with the differences of this UI removed: verbatim segments and
      no tool-call status. */
  function Simplified(v: R.View, item: InputItem): R.View {
    match v
    case MessageView(isUser, copyText, body) =>
      if item.Output? && item.item.Message? then
        var content := item.item.content;
        R.MessageView(isUser, copyText, R.OutputBody(seq(|content|, i requires 0 <= i < |content| => R.Whole(content[i].text))))
      else v
    case ToolCallView(title, _, code) => R.ToolCallView(title, None, code)
    case _ => v
  }

  /** The two UIs pick the same renderer for every item and agree on everything but how a
      segment is shown and whether a tool call shows its status. */
  lemma AgreesWithKnownSchema(item: InputItem, parse: string -> Option<Json>)
    ensures Render(item, parse) == Simplified(R.Render(item, parse), item)
    ensures R.KindOf(Render(item, parse)) == R.KindOf(R.Render(item, parse))
    ensures R.RendererFor(Tag(InputItemToJson(item))) == R.KindOf(Render(item, parse))
  {
    R.DispatchMatchesType(item, parse);
  }

  /** A segment with no role prefix and no annotations looks the same in both UIs. */
  lemma PlainSegmentSame(t: OutputText)
    requires !StartsWith(t.text, R.UserPrefix) && !StartsWith(t.text, R.AssistantPrefix)
    requires t.annotations.None? || |t.annotations.value| == 0
    ensures R.TextView(t) == R.Whole(t.text)
  {
  }

  /** A segment with a prefix does not: the known-schema UI drops it, this one shows it. */
  lemma PrefixedSegmentDiffers(x: string, anns: Option<seq<Annotation>>)
    requires anns.None? || |anns.value| == 0
    ensures R.TextView(OutputText(R.UserPrefix + x, anns)) == R.Whole(x)
    ensures R.Whole(x) != R.Whole(R.UserPrefix + x)
  {
    var t := R.UserPrefix + x;
    assert t[..|R.UserPrefix|] == R.UserPrefix;
    assert t[|R.UserPrefix|..] == x;
  }
}

=== FILE: mcp.dfy ===
/**
 * MCP server configuration of the agent: the `MCP_SERVERS` variable ("type:identifier"
 * entries separated by commas) parsed into configs, and the URL and name of the server
 * built from each config. The environment variable and the workspace host are parameters.
 */
module McpConfig {
  import opened Wrappers
  import opened Strings
  import DatabricksHost

  datatype McpType = Functions | External

  /** `identifier` is "catalog.schema" for functions and the connection name for external. */
  datatype Config = Config(kind: McpType, identifier: string)

  const DefaultServers: string := "functions:system.ai"

  function TypeName(t: McpType): string {
    match t
    case Functions => "functions"
    case External => "external"
  }

  /** One stripped, non-empty entry: split at the first ":"; the type is matched after
      lower-casing (whitespace counts), the identifier is kept verbatim. ASCII lower-casing
      decides the match exactly as `str.lower()` does: the only non-ASCII characters whose
      lower case holds an ASCII letter are the Kelvin sign ("k", in neither name) and
      U+0130 ("i" followed by a combining dot, which then cannot match). */
  function ParseEntry(entry: string): (r: Result<Config, string>)
    ensures NoChar(entry, ':') ==> r == Err("Invalid MCP config '" + entry + "': must be 'type:identifier'")
    ensures r.Ok? ==> var k := IndexOf(entry, ':');
                      k < |entry| && r.value.identifier == entry[k + 1..]
                      && AsciiLower(entry[..k]) == TypeName(r.value.kind)
  {
    var k := IndexOf(entry, ':');
    if k == |entry| then
      assert entry[..k] == entry;
      Err("Invalid MCP config '" + entry + "': must be 'type:identifier'")
    else
      var typeStr := entry[..k];
      var lower := AsciiLower(typeStr);
      if lower == "functions" then Ok(Config(Functions, entry[k + 1..]))
      else if lower == "external" then Ok(Config(External, entry[k + 1..]))
      else Err("Unknown MCP type '" + typeStr + "'. Valid types: functions, external")
  }

  /** Every entry with a colon is decided by its lower-cased type alone: a spelling of
      either type name, in any case, selects that type with the rest as identifier, and any
      other type raises the unknown-type error naming the type as written. */
  lemma ParseEntryByType(entry: string)
    requires IndexOf(entry, ':') < |entry|
    ensures var k := IndexOf(entry, ':');
            && (AsciiLower(entry[..k]) == "functions" ==> ParseEntry(entry) == Ok(Config(Functions, entry[k + 1..])))
            && (AsciiLower(entry[..k]) == "external" ==> ParseEntry(entry) == Ok(Config(External, entry[k + 1..])))
            && (AsciiLower(entry[..k]) != "functions" && AsciiLower(entry[..k]) != "external" ==>
                  ParseEntry(entry) == Err("Unknown MCP type '" + entry[..k] + "'. Valid types: functions, external"))
  {
  }

  /** The entries left after stripping each comma-separated piece and skipping empty ones. */
  function Entries(pieces: seq<string>): (r: seq<string>)
    ensures |r| <= |pieces|
    ensures forall i :: 0 <= i < |r| ==> r[i] != ""
  {
    if |pieces| == 0 then []
    else
      var e := PyStrip(pieces[0]);
      (if e == "" then [] else [e]) + Entries(pieces[1..])
  }

  /** Parsing the entries in order; the first bad one raises for the whole list. */
  function ParseAll(entries: seq<string>): (r: Result<seq<Config>, string>)
    ensures r.Ok? <==> forall i :: 0 <= i < |entries| ==> ParseEntry(entries[i]).Ok?
    ensures r.Ok? ==> |r.value| == |entries| && forall i :: 0 <= i < |entries| ==> r.value[i] == ParseEntry(entries[i]).value
  {
    if |entries| == 0 then Ok([])
    else
      match ParseEntry(entries[0])
      case Err(e) => Err(e)
      case Ok(first) =>
        var rest := ParseAll(entries[1..]);
        assert forall i :: 1 <= i < |entries| ==> entries[i] == entries[1..][i - 1];
        if rest.Err? then Err(rest.error) else Ok([first] + rest.value)
  }

  /** `parse_mcp_configs`: a blank value configures no server. */
  function ParseConfigs(env: Option<string>): (r: Result<seq<Config>, string>)
    ensures AllSpace(env.GetOr(DefaultServers), IsPySpace) ==> r == Ok([])
    ensures !AllSpace(env.GetOr(DefaultServers), IsPySpace) ==> r == ParseAll(Entries(Split(env.GetOr(DefaultServers), ',')))
  {
    var value := env.GetOr(DefaultServers);
    if PyStrip(value) == "" then Ok([]) else ParseAll(Entries(Split(value, ',')))
  }

  // ----- properties of the parser ------------------------------------------------------------

  /** The type name in capitals, which the parser accepts as well. */
  function UpperName(t: McpType): string {
    match t
    case Functions => "FUNCTIONS"
    case External => "EXTERNAL"
  }

  lemma SpelledName(t: McpType, upper: bool)
    ensures var name := if upper then UpperName(t) else TypeName(t);
            NoChar(name, ':') && AsciiLower(name) == TypeName(t)
  {
    var name := if upper then UpperName(t) else TypeName(t);
    var lower := AsciiLower(name);
    assert |lower| == |TypeName(t)|;
    forall i | 0 <= i < |lower| ensures lower[i] == TypeName(t)[i] {
    }
  }

  /** The type is matched case-insensitively: any spelling that lower-cases to the type's
      name, such as "Functions" or "EXTERNAL", selects it, and the identifier is everything
      after the first ":", colons and emptiness included. */
  lemma EntryOf(t: McpType, name: string, identifier: string)
    requires NoChar(name, ':') && AsciiLower(name) == TypeName(t)
    ensures ParseEntry(name + ":" + identifier) == Ok(Config(t, identifier))
  {
    var entry := name + ":" + identifier;
    assert entry == name + [':'] + identifier;
    IndexOfPrefix(name, identifier, ':');
    assert entry[..|name|] == name;
    assert entry[|name| + 1..] == identifier;
  }

  /** The text of a config as an entry. */
  function EntryText(c: Config): string {
    TypeName(c.kind) + ":" + c.identifier
  }

  function Render(configs: seq<Config>): string {
    Join(EntryTexts(configs), ",")
  }

  function EntryTexts(configs: seq<Config>): (r: seq<string>)
    ensures |r| == |configs| && forall i :: 0 <= i < |configs| ==> r[i] == EntryText(configs[i])
  {
    if |configs| == 0 then [] else [EntryText(configs[0])] + EntryTexts(configs[1..])
  }

  /** An identifier that survives being an entry: no comma, and no trailing whitespace. */
  predicate Writable(identifier: string) {
    NoChar(identifier, ',') && (|identifier| > 0 ==> !IsPySpace(identifier[|identifier| - 1]))
  }

  lemma StripKeeps(s: string)
    requires |s| > 0 && !IsPySpace(s[0]) && !IsPySpace(s[|s| - 1])
    ensures PyStrip(s) == s
  {
    assert Leading(s, IsPySpace) == 0;
    assert Trailing(s, IsPySpace) == 0;
    assert s[0..|s|] == s;
  }

  lemma EntryTextFacts(c: Config)
    requires Writable(c.identifier)
    ensures NoChar(EntryText(c), ',')
    ensures PyStrip(EntryText(c)) == EntryText(c)
    ensures ParseEntry(EntryText(c)) == Ok(c)
  {
    EntryTextNoComma(c);
    EntryTextStripped(c);
    SpelledName(c.kind, false);
    EntryOf(c.kind, TypeName(c.kind), c.identifier);
  }

  lemma EntryTextNoComma(c: Config)
    requires NoChar(c.identifier, ',')
    ensures NoChar(EntryText(c), ',')
  {
    var name := TypeName(c.kind);
    var e := EntryText(c);
    forall i | 0 <= i < |e| ensures e[i] != ',' {
      if i > |name| {
        assert e[i] == c.identifier[i - |name| - 1];
      } else if i < |name| {
        assert e[i] == name[i];
      }
    }
  }

  lemma EntryTextStripped(c: Config)
    requires |c.identifier| > 0 ==> !IsPySpace(c.identifier[|c.identifier| - 1])
    ensures PyStrip(EntryText(c)) == EntryText(c)
  {
    var e := EntryText(c);
    assert e[0] == TypeName(c.kind)[0];
    assert e[|e| - 1] == if |c.identifier| > 0 then c.identifier[|c.identifier| - 1] else ':';
    StripKeeps(e);
  }

  /** A piece that stripping leaves unchanged and non-empty. */
  predicate Clean(piece: string) {
    piece != "" && PyStrip(piece) == piece
  }

  lemma EntriesStep(pieces: seq<string>)
    requires |pieces| > 0 && Clean(pieces[0])
    ensures Entries(pieces) == [pieces[0]] + Entries(pieces[1..])
  {
  }

  lemma ConsRest(pieces: seq<string>)
    requires |pieces| > 0 && Entries(pieces[1..]) == pieces[1..]
    ensures [pieces[0]] + Entries(pieces[1..]) == pieces
  {
    assert [pieces[0]] + pieces[1..] == pieces;
  }

  /** Pieces that are already stripped and non-empty are the entries themselves. */
  lemma {:induction false} EntriesOfStripped(pieces: seq<string>)
    requires forall i :: 0 <= i < |pieces| ==> Clean(pieces[i])
    ensures Entries(pieces) == pieces
    decreases |pieces|
  {
    if |pieces| > 0 {
      EntriesOfStripped(pieces[1..]);
      EntriesStep(pieces);
      ConsRest(pieces);
    }
  }

  lemma ParseAllOf(entries: seq<string>, configs: seq<Config>)
    requires |entries| == |configs|
    requires forall i :: 0 <= i < |entries| ==> ParseEntry(entries[i]) == Ok(configs[i])
    ensures ParseAll(entries) == Ok(configs)
  {
    var r := ParseAll(entries);
    assert r.Ok?;
    assert r.value == configs;
  }

  /** Writing configs as the variable's value and parsing it gives them back. */
  lemma RenderRoundTrip(configs: seq<Config>)
    requires forall i :: 0 <= i < |configs| ==> Writable(configs[i].identifier)
    ensures ParseConfigs(Some(Render(configs))) == Ok(configs)
  {
    var texts := EntryTexts(configs);
    var value := Render(configs);
    if |configs| > 0 {
      RenderSplits(configs);
      TextsAreEntries(configs);
      RenderNotBlank(configs);
      ConfigsOfValue(value, texts, configs);
    } else {
      assert value == "";
    }
  }

  lemma TextsFacts(configs: seq<Config>)
    requires forall i :: 0 <= i < |configs| ==> Writable(configs[i].identifier)
    ensures var texts := EntryTexts(configs);
            forall i :: 0 <= i < |texts| ==>
              NoChar(texts[i], ',') && Clean(texts[i]) && ParseEntry(texts[i]) == Ok(configs[i])
  {
    var texts := EntryTexts(configs);
    forall i | 0 <= i < |texts|
      ensures NoChar(texts[i], ',') && Clean(texts[i]) && ParseEntry(texts[i]) == Ok(configs[i])
    {
      EntryTextFacts(configs[i]);
    }
  }

  lemma TextsAreEntries(configs: seq<Config>)
    requires forall i :: 0 <= i < |configs| ==> Writable(configs[i].identifier)
    ensures Entries(EntryTexts(configs)) == EntryTexts(configs)
    ensures ParseAll(EntryTexts(configs)) == Ok(configs)
  {
    TextsFacts(configs);
    EntriesOfStripped(EntryTexts(configs));
    ParseAllOf(EntryTexts(configs), configs);
  }

  lemma RenderSplits(configs: seq<Config>)
    requires |configs| > 0
    requires forall i :: 0 <= i < |configs| ==> NoChar(configs[i].identifier, ',')
    ensures Split(Render(configs), ',') == EntryTexts(configs)
  {
    var texts := EntryTexts(configs);
    forall i | 0 <= i < |texts| ensures NoChar(texts[i], ',') {
      EntryTextNoComma(configs[i]);
    }
    SplitJoin(texts, ',');
  }

  lemma ConfigsOfValue(value: string, texts: seq<string>, configs: seq<Config>)
    requires !AllSpace(value, IsPySpace)
    requires Split(value, ',') == texts && Entries(texts) == texts && ParseAll(texts) == Ok(configs)
    ensures ParseConfigs(Some(value)) == Ok(configs)
  {
  }

  lemma RenderNotBlank(configs: seq<Config>)
    requires |configs| > 0
    ensures !AllSpace(Render(configs), IsPySpace)
  {
    var texts := EntryTexts(configs);
    JoinStarts(texts);
    assert Render(configs)[0] == TypeName(configs[0].kind)[0];
  }

  lemma JoinStarts(parts: seq<string>)
    requires |parts| > 0 && |parts[0]| > 0
    ensures |Join(parts, ",")| > 0 && Join(parts, ",")[0] == parts[0][0]
  {
  }

  // ----- server construction -----------------------------------------------------------------

  datatype Server = Server(url: string, name: string)

  function ApiPrefix(host: Option<string>): string {
    DatabricksHost.Format(host) + "/api/2.0/mcp/"
  }

  /** `create_mcp_server`'s URL and name; `host` is what `get_databricks_host_from_env`
      returned ("None" in the URL when it returned nothing). */
  function CreateServer(c: Config, host: Option<string>): (r: Server)
    ensures c.kind == Functions ==>
              && r.url == ApiPrefix(host) + "functions/" + ReplaceChar(c.identifier, '.', '/')
              && r.name == c.identifier + " uc functions mcp"
    ensures c.kind == External ==>
              && r.url == ApiPrefix(host) + "external/" + c.identifier
              && r.name == c.identifier + " external mcp"
  {
    match c.kind
    case Functions => Server(ApiPrefix(host) + "functions/" + ReplaceChar(c.identifier, '.', '/'), c.identifier + " uc functions mcp")
    case External => Server(ApiPrefix(host) + "external/" + c.identifier, c.identifier + " external mcp")
  }

  /** The URL names the config: under the host's MCP prefix, the type's path segment is
      followed by the identifier — for functions with every "." read as "/", which is
      undone exactly when the identifier has no "/" of its own. The server's name starts with
      the identifier. */
  lemma UrlNamesConfig(c: Config, host: Option<string>)
    ensures var r := CreateServer(c, host);
            var prefix := ApiPrefix(host) + TypeName(c.kind) + "/";
            && StartsWith(r.url, prefix)
            && (c.kind == External ==> r.url[|prefix|..] == c.identifier)
            && (c.kind == Functions ==> NoChar(r.url[|prefix|..], '.'))
            && (c.kind == Functions && NoChar(c.identifier, '/') ==>
                  ReplaceChar(r.url[|prefix|..], '/', '.') == c.identifier)
            && StartsWith(r.name, c.identifier)
  {
    var r := CreateServer(c, host);
    var prefix := ApiPrefix(host) + TypeName(c.kind) + "/";
    var tail := if c.kind == Functions then ReplaceChar(c.identifier, '.', '/') else c.identifier;
    assert r.url == prefix + tail;
    assert r.url[..|prefix|] == prefix;
    assert r.url[|prefix|..] == tail;
  }
}

=== FILE: message_input.dfy ===
/**
 * The chat input box of the known-schema UI (the `ui` and `src/ui` copies have the same
 * logic): a draft, the `disabled` and `isStreaming` props, submit on Enter or on the button,
 * and the button that turns into "stop" while a reply streams.
 */
module MessageInput {
  import opened Wrappers
  import opened Strings

  /** The draft text and the two props that gate it. */
  datatype Box = Box(draft: string, disabled: bool, streaming: bool)

  /** What a user action leads to: the box afterwards and the message handed to
      `onSendMessage`, if any. */
  datatype Outcome = Outcome(box: Box, sent: Option<string>)

  /** Typing replaces the draft. */
  function Edit(b: Box, text: string): (r: Box)
    ensures r.draft == text && r.disabled == b.disabled && r.streaming == b.streaming
  {
    b.(draft := text)
  }

  /** `handleSubmit`: the trimmed draft is sent and the draft cleared, unless the trimmed
      draft is empty or the box is disabled, in which case nothing changes. */
  function Submit(b: Box): (r: Outcome)
    ensures r.sent.Some? <==> JsTrim(b.draft) != "" && !b.disabled
    ensures r.sent.Some? ==> r.sent.value == JsTrim(b.draft) && r.box == b.(draft := "")
    ensures r.sent.None? ==> r.box == b
  {
    var trimmed := JsTrim(b.draft);
    if trimmed != "" && !b.disabled then Outcome(b.(draft := ""), Some(trimmed)) else Outcome(b, None)
  }

  /** `handleKeyDown`: Enter without Shift submits; every other key leaves the box alone
      (its character reaches the draft through `Edit`). */
  function KeyDown(b: Box, key: string, shift: bool): (r: Outcome)
    ensures key == "Enter" && !shift ==> r == Submit(b)
    ensures !(key == "Enter" && !shift) ==> r == Outcome(b, None)
  {
    if key == "Enter" && !shift then Submit(b) else Outcome(b, None)
  }

  /** The button: never disabled while streaming; otherwise disabled when the box is or the
      trimmed draft is empty. */
  function ButtonDisabled(b: Box): (r: bool)
    ensures b.streaming ==> !r
    ensures !b.streaming ==> (r <==> b.disabled || JsTrim(b.draft) == "")
  {
    if b.streaming then false else b.disabled || JsTrim(b.draft) == ""
  }

  /** What a click on the button does: stop the stream, or submit. */
  datatype Click = StopStream | Submitted(outcome: Outcome)

  function ButtonClick(b: Box): (r: Click)
    requires !ButtonDisabled(b)
    ensures b.streaming <==> r == StopStream
    ensures !b.streaming ==> r == Submitted(Submit(b))
  {
    if b.streaming then StopStream else Submitted(Submit(b))
  }

  /** Whatever is sent is non-empty, has no whitespace at either end and is no longer than
      the draft, which was not blank; the draft is then empty. */
  lemma SentIsTrimmedDraft(b: Box)
    requires Submit(b).sent.Some?
    ensures var m := Submit(b).sent.value;
            && m != ""
            && !IsJsSpace(m[0]) && !IsJsSpace(m[|m| - 1])
            && |m| <= |b.draft| && !AllSpace(b.draft, IsJsSpace)
            && Submit(b).box.draft == ""
  {
  }

  /** A whitespace-only draft is never sent, whatever the props. */
  lemma BlankNeverSent(b: Box)
    requires AllSpace(b.draft, IsJsSpace)
    ensures Submit(b).sent.None?
    ensures KeyDown(b, "Enter", false).sent.None?
  {
  }

  /** Shift+Enter never sends and keeps the draft. */
  lemma ShiftEnterKeeps(b: Box)
    ensures KeyDown(b, "Enter", true) == Outcome(b, None)
  {
  }

  /** Outside streaming, the send button is enabled exactly when pressing it sends. */
  lemma EnabledIffSends(b: Box)
    requires !b.streaming
    ensures !ButtonDisabled(b) <==> Submit(b).sent.Some?
  {
  }

  /** Submitting twice sends once: the second submit finds an empty draft. */
  lemma SubmitOnce(b: Box)
    requires Submit(b).sent.Some?
    ensures Submit(Submit(b).box).sent.None?
  {
    assert JsTrim("") == "" by {
      assert AllSpace("", IsJsSpace);
    }
  }
}

=== FILE: pipeline.dfy ===
/**
 * The pieces put together: an agent server streams output items, the frames cross the
 * wire, the UI client decodes them and the chat hook appends them to the history. The
 * receiver's `JSON.parse` is a parameter that inverts `json.dumps`. As written, a stream
 * that fails on the server ends in the UI as if it had succeeded; with the client's error
 * handling corrected, the failure reaches the history as one STREAM_ERROR item.
 */
module Pipeline {
  import opened Wrappers
  import opened Json
  import opened Schema
  import opened Framing
  import opened ServerCommon
  import opened Client
  import opened ChatSession

  /** The dict a server yields to report a finished output item. */
  function ItemChunk(item: OutputItem): seq<(string, Json)> {
    StreamEventToJson(OutputItemDone(item)).fields
  }

  function ItemChunks(items: seq<OutputItem>): (r: seq<seq<(string, Json)>>)
    ensures |r| == |items| && forall i :: 0 <= i < |items| ==> r[i] == ItemChunk(items[i])
  {
    seq(|items|, i requires 0 <= i < |items| => ItemChunk(items[i]))
  }

  /** The receiver reads back whatever the server dumped. */
  ghost predicate InvertsDumps(parse: string -> Option<Json>) {
    forall v :: parse(Dumps(v)) == Some(v)
  }

  /** What the receiver reads from the frames of one stream. */
  ghost predicate ItemsReadBack(items: seq<OutputItem>, parse: string -> Option<Json>) {
    forall i :: 0 <= i < |items| ==> parse(Dumps(Obj(ItemChunk(items[i])))) == Some(Obj(ItemChunk(items[i])))
  }

  ghost predicate ReadsBack(items: seq<OutputItem>, failure: Option<string>, trace: Json, parse: string -> Option<Json>) {
    && ItemsReadBack(items, parse)
    && (failure.Some? ==> parse(ErrorPayload(failure.value)) == Some(ServerErrorFrame(failure.value)))
    && parse(TracePayload(trace)) == Some(TraceObject(trace))
  }

  lemma ReadsBackOf(items: seq<OutputItem>, failure: Option<string>, trace: Json, parse: string -> Option<Json>)
    requires InvertsDumps(parse)
    ensures ReadsBack(items, failure, trace, parse)
  {
    forall i | 0 <= i < |items|
      ensures parse(Dumps(Obj(ItemChunk(items[i])))) == Some(Obj(ItemChunk(items[i])))
    {
      ParseBack(parse, Obj(ItemChunk(items[i])));
    }
    if failure.Some? {
      ParseBack(parse, ServerErrorFrame(failure.value));
    }
    ParseBack(parse, TraceObject(trace));
  }

  lemma ParseBack(parse: string -> Option<Json>, v: Json)
    requires InvertsDumps(parse)
    ensures parse(Dumps(v)) == Some(v)
  {
  }

  /** The object whose dump is the trace frame. */
  function TraceObject(trace: Json): Json {
    Obj([("databricks_output", DatabricksOutput(trace))])
  }

  /** The payloads on the wire for a stream of items that ends normally (`failure` is
      `None`) or with the given exception message. */
  function Wire(items: seq<OutputItem>, failure: Option<string>, returnTrace: bool, trace: Json): seq<string> {
    Generate(Emitted(ItemChunks(items), failure), returnTrace, trace)
  }

  /** The closing payloads `generate()` sends after the chunks. */
  function Closing(failure: Option<string>, returnTrace: bool, trace: Json): seq<string> {
    (if failure.Some? then [ErrorPayload(failure.value)]
     else if returnTrace then [TracePayload(trace)]
     else []) + [DonePayload]
  }

  lemma WireParts(items: seq<OutputItem>, failure: Option<string>, returnTrace: bool, trace: Json)
    ensures Wire(items, failure, returnTrace, trace)
            == ChunkPayloads(ItemChunks(items)) + Closing(failure, returnTrace, trace)
  {
  }

  // ----- single frames -----------------------------------------------------------------------

  lemma ItemFrame(item: OutputItem, parse: string -> Option<Json>)
    requires parse(Dumps(Obj(ItemChunk(item)))) == Some(Obj(ItemChunk(item)))
    ensures HandleEvent(Dumps(Obj(ItemChunk(item))), parse) == Enqueue(item)
    ensures HandleEventFixed(Dumps(Obj(ItemChunk(item))), parse) == Deliver(item)
  {
    var v := StreamEventToJson(OutputItemDone(item));
    ObjectText(v.fields);
    ItemDoneEnqueued(Dumps(v), parse, item);
    LookupAt(v.fields, 0);
    LookupAt(v.fields, 1);
    assert Get(v, "error").None?;
  }

  lemma TraceFrame(trace: Json, parse: string -> Option<Json>)
    requires parse(TracePayload(trace)) == Some(TraceObject(trace))
    ensures HandleEvent(TracePayload(trace), parse) == Skip
    ensures HandleEventFixed(TracePayload(trace), parse) == Pass
  {
    var v := Obj([("databricks_output", DatabricksOutput(trace))]);
    ObjectText(v.fields);
    LookupAt(v.fields, 0);
    assert Get(v, "error").None? && Get(v, "type").None?;
    assert ParseStreamEvent(v).None?;
  }

  lemma ErrorFrame(message: string, parse: string -> Option<Json>)
    requires parse(ErrorPayload(message)) == Some(ServerErrorFrame(message))
    ensures HandleEvent(ErrorPayload(message), parse) == Skip
    ensures HandleEventFixed(ErrorPayload(message), parse) == Fail(if message != "" then message else "Stream error")
  {
    ObjectText([("error", Str(message))]);
    ServerErrorFrameSkipped(ErrorPayload(message), parse, message);
    ServerErrorFrameFailsOne(ErrorPayload(message), parse, message);
  }

  // ----- the decoded stream ------------------------------------------------------------------

  /** The chunk payloads of a stream of items, first item first. */
  lemma PayloadsFront(items: seq<OutputItem>)
    requires |items| > 0
    ensures ChunkPayloads(ItemChunks(items))
            == [Dumps(Obj(ItemChunk(items[0])))] + ChunkPayloads(ItemChunks(items[1..]))
  {
    assert ItemChunks(items)[1..] == ItemChunks(items[1..]);
  }

  lemma {:induction false} ItemsDecode(items: seq<OutputItem>, parse: string -> Option<Json>)
    requires ItemsReadBack(items, parse)
    ensures Decode(ChunkPayloads(ItemChunks(items)), parse) == items
    decreases |items|
  {
    if |items| > 0 {
      var payloads := ChunkPayloads(ItemChunks(items));
      PayloadsFront(items);
      ItemFrame(items[0], parse);
      assert ItemsReadBack(items[1..], parse) by {
        forall i | 0 <= i < |items[1..]|
          ensures parse(Dumps(Obj(ItemChunk(items[1..][i])))) == Some(Obj(ItemChunk(items[1..][i])))
        {
          assert items[1..][i] == items[i + 1];
        }
      }
      ItemsDecode(items[1..], parse);
      DecodeFront(payloads, parse);
      assert payloads[1..] == ChunkPayloads(ItemChunks(items[1..]));
      assert items == [items[0]] + items[1..];
    }
  }

  lemma ItemsNeverFail(items: seq<OutputItem>, parse: string -> Option<Json>)
    requires ItemsReadBack(items, parse)
    ensures forall i :: 0 <= i < |items| ==> !HandleEventFixed(ChunkPayloads(ItemChunks(items))[i], parse).Fail?
  {
    forall i | 0 <= i < |items| ensures !HandleEventFixed(ChunkPayloads(ItemChunks(items))[i], parse).Fail? {
      ItemFrame(items[i], parse);
    }
  }

  /** Two frames the as-written client skips decode to nothing. */
  lemma SkippedPair(x: string, y: string, parse: string -> Option<Json>)
    requires HandleEvent(x, parse) == Skip && HandleEvent(y, parse) == Skip
    ensures Decode([x, y], parse) == [] && Decode([y], parse) == []
  {
    assert [x, y][..1] == [x];
    assert [x][..0] == [] && [y][..0] == [];
  }

  lemma ClosingError(m: string, returnTrace: bool, trace: Json, parse: string -> Option<Json>)
    requires parse(ErrorPayload(m)) == Some(ServerErrorFrame(m))
    ensures Decode(Closing(Some(m), returnTrace, trace), parse) == []
    ensures HandleEventFixed(Closing(Some(m), returnTrace, trace)[0], parse)
            == Fail(if m != "" then m else "Stream error")
  {
    ErrorFrame(m, parse);
    assert Closing(Some(m), returnTrace, trace) == [ErrorPayload(m), Done];
    SkippedPair(ErrorPayload(m), Done, parse);
  }

  lemma ClosingTrace(trace: Json, parse: string -> Option<Json>)
    requires parse(TracePayload(trace)) == Some(TraceObject(trace))
    ensures Decode(Closing(None, true, trace), parse) == []
    ensures forall i :: 0 <= i < |Closing(None, true, trace)| ==> HandleEventFixed(Closing(None, true, trace)[i], parse) == Pass
  {
    TraceFrame(trace, parse);
    assert Closing(None, true, trace) == [TracePayload(trace), Done];
    SkippedPair(TracePayload(trace), Done, parse);
  }

  lemma ClosingPlain(trace: Json, parse: string -> Option<Json>)
    ensures Decode(Closing(None, false, trace), parse) == []
    ensures forall i :: 0 <= i < |Closing(None, false, trace)| ==> HandleEventFixed(Closing(None, false, trace)[i], parse) == Pass
  {
    assert Closing(None, false, trace) == [Done];
    SkippedPair(Done, Done, parse);
  }

  /** The closing frames enqueue nothing as written; corrected, only the error frame fails. */
  lemma ClosingDecode(failure: Option<string>, returnTrace: bool, trace: Json, parse: string -> Option<Json>)
    requires failure.Some? ==> parse(ErrorPayload(failure.value)) == Some(ServerErrorFrame(failure.value))
    requires parse(TracePayload(trace)) == Some(TraceObject(trace))
    ensures Decode(Closing(failure, returnTrace, trace), parse) == []
    ensures failure.None? ==>
              forall i :: 0 <= i < |Closing(failure, returnTrace, trace)| ==>
                HandleEventFixed(Closing(failure, returnTrace, trace)[i], parse) == Pass
    ensures failure.Some? ==>
              HandleEventFixed(Closing(failure, returnTrace, trace)[0], parse)
              == Fail(if failure.value != "" then failure.value else "Stream error")
  {
    if failure.Some? {
      ClosingError(failure.value, returnTrace, trace, parse);
    } else if returnTrace {
      ClosingTrace(trace, parse);
    } else {
      ClosingPlain(trace, parse);
    }
  }

  lemma {:induction false} FixedAfterFail(before: seq<string>, data: string, after: seq<string>,
                                          parse: string -> Option<Json>, m: string)
    requires forall i :: 0 <= i < |before| ==> !HandleEventFixed(before[i], parse).Fail?
    requires HandleEventFixed(data, parse) == Fail(m)
    ensures DecodeFixed(before + [data] + after, parse) == StreamResult(Decode(before, parse), Some(ErrorWith(m)))
    decreases |before|
  {
    if |before| == 0 {
      assert before + [data] + after == [data] + after;
    } else {
      var all := before + [data] + after;
      assert all[0] == before[0];
      assert all[1..] == before[1..] + [data] + after;
      FixedAfterFail(before[1..], data, after, parse, m);
      DecodeFront(before, parse);
    }
  }

  /** What the as-written client makes of the payloads: exactly the items. */
  lemma WireDecodes(items: seq<OutputItem>, failure: Option<string>, returnTrace: bool, trace: Json,
                    parse: string -> Option<Json>)
    requires ReadsBack(items, failure, trace, parse)
    ensures Decode(Wire(items, failure, returnTrace, trace), parse) == items
  {
    WireParts(items, failure, returnTrace, trace);
    DecodeAppend(ChunkPayloads(ItemChunks(items)), Closing(failure, returnTrace, trace), parse);
    ItemsDecode(items, parse);
    ClosingDecode(failure, returnTrace, trace, parse);
  }

  lemma WireFails(items: seq<OutputItem>, m: string, returnTrace: bool, trace: Json,
                  parse: string -> Option<Json>)
    requires ReadsBack(items, Some(m), trace, parse)
    ensures DecodeFixed(Wire(items, Some(m), returnTrace, trace), parse)
            == StreamResult(items, Some(ErrorWith(if m != "" then m else "Stream error")))
  {
    var chunks := ChunkPayloads(ItemChunks(items));
    var closing := Closing(Some(m), returnTrace, trace);
    WireParts(items, Some(m), returnTrace, trace);
    ItemsDecode(items, parse);
    ItemsNeverFail(items, parse);
    ClosingDecode(Some(m), returnTrace, trace, parse);
    assert chunks + closing == chunks + [closing[0]] + closing[1..];
    FixedAfterFail(chunks, closing[0], closing[1..], parse, if m != "" then m else "Stream error");
  }

  lemma WireSucceeds(items: seq<OutputItem>, returnTrace: bool, trace: Json, parse: string -> Option<Json>)
    requires ReadsBack(items, None, trace, parse)
    ensures DecodeFixed(Wire(items, None, returnTrace, trace), parse) == StreamResult(items, None)
  {
    var events := Wire(items, None, returnTrace, trace);
    var chunks := ChunkPayloads(ItemChunks(items));
    var closing := Closing(None, returnTrace, trace);
    WireParts(items, None, returnTrace, trace);
    WireDecodes(items, None, returnTrace, trace, parse);
    ItemsNeverFail(items, parse);
    ClosingDecode(None, returnTrace, trace, parse);
    forall i | 0 <= i < |events| ensures !HandleEventFixed(events[i], parse).Fail? {
      if i >= |chunks| {
        assert events[i] == closing[i - |chunks|];
      }
    }
  }

  // ----- end to end --------------------------------------------------------------------------

  /** As written: whatever the server's stream does, the UI decodes exactly the items, in
      order — a failure on the server leaves no trace in what the client yields. */
  lemma ItemsArriveFailureLost(items: seq<OutputItem>, failure: Option<string>, returnTrace: bool,
                               trace: Json, parse: string -> Option<Json>)
    requires InvertsDumps(parse)
    ensures Decode(Interpret(Frames(Wire(items, failure, returnTrace, trace))), parse) == items
  {
    ReadsBackOf(items, failure, trace, parse);
    StreamRoundTrip(Emitted(ItemChunks(items), failure), returnTrace, trace);
    WireDecodes(items, failure, returnTrace, trace, parse);
  }

  /** Corrected: the items arrive in order, and a failure on the server ends the client's
      stream with the server's message (or "Stream error" for an empty one). */
  lemma ItemsArriveFailureReported(items: seq<OutputItem>, failure: Option<string>, returnTrace: bool,
                                   trace: Json, parse: string -> Option<Json>)
    requires InvertsDumps(parse)
    ensures DecodeFixed(Interpret(Frames(Wire(items, failure, returnTrace, trace))), parse)
            == StreamResult(items, if failure.Some? then Some(ErrorWith(if failure.value != "" then failure.value else "Stream error")) else None)
  {
    ReadsBackOf(items, failure, trace, parse);
    StreamRoundTrip(Emitted(ItemChunks(items), failure), returnTrace, trace);
    if failure.Some? {
      WireFails(items, failure.value, returnTrace, trace, parse);
    } else {
      WireSucceeds(items, returnTrace, trace, parse);
    }
  }

  /** As written, in the history: a turn whose server stream failed shows the user's message
      and the items, and no error item — the same history as a turn that succeeded. */
  lemma FailedTurnLooksSuccessful(s: Session, text: string, items: seq<OutputItem>, message: string,
                                  returnTrace: bool, trace: Json, parse: string -> Option<Json>)
    requires InvertsDumps(parse)
    ensures var yielded := Decode(Interpret(Frames(Wire(items, Some(message), returnTrace, trace))), parse);
            var t := End(ChatSession.Deliver(Send(s, text).0, yielded), None);
            t.messages == s.messages + [UserItem(text)] + AsHistory(items)
  {
    ItemsArriveFailureLost(items, Some(message), returnTrace, trace, parse);
    TurnOutcome(s, text, StreamResult(items, None));
  }

  /** Corrected, in the history: the failed turn ends with exactly one STREAM_ERROR item that
      carries the server's message. */
  lemma FailedTurnReported(s: Session, text: string, items: seq<OutputItem>, message: string,
                           returnTrace: bool, trace: Json, parse: string -> Option<Json>)
    requires InvertsDumps(parse) && message != ""
    ensures var result := DecodeFixed(Interpret(Frames(Wire(items, Some(message), returnTrace, trace))), parse);
            var t := End(ChatSession.Deliver(Send(s, text).0, result.yielded), result.failure);
            t.messages == s.messages + [UserItem(text)] + AsHistory(items)
                          + [Output(ErrorItem("STREAM_ERROR", message))]
  {
    ItemsArriveFailureReported(items, Some(message), returnTrace, trace, parse);
    TurnOutcome(s, text, StreamResult(items, Some(ErrorWith(message))));
  }
}

=== FILE: renderer.dfy ===
/**
 * What the known-schema chat UI shows for a history item: the text renderer's prefix strip
 * and annotation segmentation, the tool-call argument block, the message renderer's role and
 * text, and the dispatch on the item's `type`. React elements become a `View` datatype that
 * keeps the text and the decisions, not the styling. `JSON.parse` is a parameter.
 */
module Renderer {
  import opened Wrappers
  import opened Strings
  import opened Json
  import opened Schema

  // ----- string slicing ----------------------------------------------------------------------

  /** A `String.prototype.slice` index: negative counts from the end, then clamped. */
  function SliceIndex(k: int, len: nat): (r: nat)
    ensures r <= len
    ensures 0 <= k <= len ==> r == k
  {
    if k < 0 then (if len + k < 0 then 0 else len + k)
    else if k > len then len
    else k
  }

  /** `s.slice(start, end)`: empty when the clamped start is not before the clamped end. */
  function Slice(s: string, start: int, end: int): (r: string)
    ensures 0 <= start <= end <= |s| ==> r == s[start..end]
    ensures |r| <= |s|
  {
    var a := SliceIndex(start, |s|);
    var b := SliceIndex(end, |s|);
    if a < b then s[a..b] else ""
  }

  // ----- text renderer -----------------------------------------------------------------------

  const UserPrefix: string := "User: "
  const AssistantPrefix: string := "Assistant: "

  /** The text shown for a segment: at most one role prefix is removed, "User: " first. */
  function DisplayText(text: string): (r: string)
    ensures StartsWith(text, UserPrefix) ==> text == UserPrefix + r
    ensures !StartsWith(text, UserPrefix) && StartsWith(text, AssistantPrefix) ==> text == AssistantPrefix + r
    ensures !StartsWith(text, UserPrefix) && !StartsWith(text, AssistantPrefix) ==> r == text
  {
    if StartsWith(text, UserPrefix) then
      assert text == text[..6] + text[6..];
      text[6..]
    else if StartsWith(text, AssistantPrefix) then
      assert text == text[..11] + text[11..];
      text[11..]
    else text
  }

  /** Only one prefix goes, and "User: " is tried first: "User: Assistant: x" keeps
      "Assistant: ". */
  lemma UserPrefixFirst(x: string)
    ensures DisplayText(UserPrefix + AssistantPrefix + x) == AssistantPrefix + x
  {
    var a := UserPrefix + (AssistantPrefix + x);
    assert UserPrefix + AssistantPrefix + x == a;
    assert a[..|UserPrefix|] == UserPrefix;
    assert a[|UserPrefix|..] == AssistantPrefix + x;
  }

  /** "Assistant: User: x" keeps "User: ". */
  lemma AssistantPrefixOnce(x: string)
    ensures DisplayText(AssistantPrefix + UserPrefix + x) == UserPrefix + x
  {
    var b := AssistantPrefix + (UserPrefix + x);
    assert AssistantPrefix + UserPrefix + x == b;
    assert !StartsWith(b, UserPrefix) by { assert b[0] == 'A' && UserPrefix[0] == 'U'; }
    assert b[..|AssistantPrefix|] == AssistantPrefix;
    assert b[|AssistantPrefix|..] == UserPrefix + x;
  }

  /** One piece of an annotated text: plain text, or an annotation's slice with its citation
      type and its title (the url, else the file id, else "Annotation"). */
  datatype Part = Plain(text: string) | Annotated(text: string, kind: AnnotationType, title: string)

  /** What the text renderer shows: the whole text, or the annotated pieces. */
  datatype Rendered = Whole(text: string) | Parts(parts: seq<Part>)

  /** `annotation.url || annotation.file_id || "Annotation"`: an empty string counts as absent. */
  function Title(a: Annotation): (r: string)
    ensures r != ""
  {
    if a.url.Some? && a.url.value != "" then a.url.value
    else if a.fileId.Some? && a.fileId.value != "" then a.fileId.value
    else "Annotation"
  }

  function Concat(parts: seq<Part>): string {
    if |parts| == 0 then "" else parts[0].text + Concat(parts[1..])
  }

  function CountAnnotated(parts: seq<Part>): nat {
    if |parts| == 0 then 0 else (if parts[0].Annotated? then 1 else 0) + CountAnnotated(parts[1..])
  }

  lemma {:induction false} ConcatAppend(a: seq<Part>, b: seq<Part>)
    ensures Concat(a + b) == Concat(a) + Concat(b)
    ensures CountAnnotated(a + b) == CountAnnotated(a) + CountAnnotated(b)
    decreases |a|
  {
    if |a| == 0 {
      assert a + b == b;
    } else {
      assert (a + b)[1..] == a[1..] + b;
      ConcatAppend(a[1..], b);
    }
  }

  /** The plain part for the gap before an annotation, when it starts after `lastIndex`. */
  function Gap(text: string, lastIndex: int, start: int): seq<Part> {
    if start > lastIndex then [Plain(Slice(text, lastIndex, start))] else []
  }

  /** The annotation's own part: its slice of the text. */
  function Mark(text: string, a: Annotation): Part {
    Annotated(Slice(text, a.startIndex, a.endIndex), a.kind, Title(a))
  }

  /** The `forEach` over the sorted annotations from `lastIndex` on: a plain part for a gap
      before each annotation, the annotation's slice, and the remaining text at the end. */
  function Segments(text: string, anns: seq<Annotation>, lastIndex: int): (r: seq<Part>)
    ensures CountAnnotated(r) == |anns|
    decreases |anns|
  {
    if |anns| == 0 then
      if lastIndex < |text| then [Plain(Slice(text, lastIndex, |text|))] else []
    else
      var a := anns[0];
      var rest := Segments(text, anns[1..], a.endIndex);
      ConcatAppend(Gap(text, lastIndex, a.startIndex) + [Mark(text, a)], rest);
      ConcatAppend(Gap(text, lastIndex, a.startIndex), [Mark(text, a)]);
      Gap(text, lastIndex, a.startIndex) + [Mark(text, a)] + rest
  }

  predicate SortedByStart(anns: seq<Annotation>) {
    forall i, j :: 0 <= i < j < |anns| ==> anns[i].startIndex <= anns[j].startIndex
  }

  lemma ConsSorted(h: Annotation, rest: seq<Annotation>)
    requires SortedByStart(rest)
    requires forall j :: 0 <= j < |rest| ==> h.startIndex <= rest[j].startIndex
    ensures SortedByStart([h] + rest)
  {
    var r := [h] + rest;
    forall i, j | 0 <= i < j < |r| ensures r[i].startIndex <= r[j].startIndex {
      assert r[j] == rest[j - 1];
      if i > 0 {
        assert r[i] == rest[i - 1];
      }
    }
  }

  /** Inserting before the first annotation that does not start earlier. */
  function Insert(a: Annotation, sorted: seq<Annotation>): (r: seq<Annotation>)
    requires SortedByStart(sorted)
    ensures SortedByStart(r)
    ensures multiset(r) == multiset(sorted) + multiset{a}
    decreases |sorted|
  {
    if |sorted| == 0 || a.startIndex <= sorted[0].startIndex then
      ConsSorted(a, sorted);
      [a] + sorted
    else
      var tail := sorted[1..];
      assert sorted == [sorted[0]] + tail;
      var rest := Insert(a, tail);
      InsertBound(sorted[0], a, tail, rest);
      ConsSorted(sorted[0], rest);
      [sorted[0]] + rest
  }

  lemma InsertBound(h: Annotation, a: Annotation, tail: seq<Annotation>, rest: seq<Annotation>)
    requires h.startIndex < a.startIndex
    requires forall j :: 0 <= j < |tail| ==> h.startIndex <= tail[j].startIndex
    requires multiset(rest) == multiset(tail) + multiset{a}
    ensures forall j :: 0 <= j < |rest| ==> h.startIndex <= rest[j].startIndex
  {
    forall j | 0 <= j < |rest| ensures h.startIndex <= rest[j].startIndex {
      var x := rest[j];
      assert x in multiset(rest);
      if x != a {
        assert x in multiset(tail);
        var k :| 0 <= k < |tail| && tail[k] == x;
      }
    }
  }

  /** `[...annotations].sort((a, b) => a.start_index - b.start_index)` on a copy: the same
      annotations in ascending start order (equal starts keep their order). */
  function SortByStart(anns: seq<Annotation>): (r: seq<Annotation>)
    ensures SortedByStart(r)
    ensures multiset(r) == multiset(anns)
    ensures |r| == |anns|
  {
    if |anns| == 0 then []
    else
      assert anns == [anns[0]] + anns[1..];
      Insert(anns[0], SortByStart(anns[1..]))
  }

  /** `renderTextWithAnnotations`: no annotations (absent or empty) show the text as is. */
  function WithAnnotations(text: string, annotations: Option<seq<Annotation>>): (r: Rendered)
    ensures annotations.None? || |annotations.value| == 0 <==> r == Whole(text)
    ensures r.Parts? ==> CountAnnotated(r.parts) == |annotations.value|
  {
    if annotations.None? || |annotations.value| == 0 then Whole(text)
    else Parts(Segments(text, SortByStart(annotations.value), 0))
  }

  /** `TextRenderer`: the annotations apply to the text after its prefix is stripped. */
  function TextView(content: OutputText): Rendered {
    WithAnnotations(DisplayText(content.text), content.annotations)
  }

  function Shown(r: Rendered): string {
    match r
    case Whole(text) => text
    case Parts(parts) => Concat(parts)
  }

  /** Annotations that, in start order, lie within the text and do not overlap. */
  predicate Laid(n: nat, anns: seq<Annotation>) {
    && (forall i :: 0 <= i < |anns| ==> 0 <= anns[i].startIndex <= anns[i].endIndex <= n)
    && (forall i :: 0 <= i < |anns| - 1 ==> anns[i].endIndex <= anns[i + 1].startIndex)
  }

  predicate NoEmptyPlain(parts: seq<Part>) {
    forall i :: 0 <= i < |parts| && parts[i].Plain? ==> parts[i].text != ""
  }

  lemma LaidTail(n: nat, anns: seq<Annotation>)
    requires |anns| > 0 && Laid(n, anns)
    ensures Laid(n, anns[1..])
    ensures |anns| > 1 ==> anns[0].endIndex <= anns[1..][0].startIndex
  {
    var rest := anns[1..];
    assert forall i :: 0 <= i < |rest| ==> rest[i] == anns[i + 1];
  }

  lemma GapCover(text: string, lastIndex: int, start: int)
    requires 0 <= lastIndex <= start <= |text|
    ensures Concat(Gap(text, lastIndex, start)) == text[lastIndex..start]
    ensures NoEmptyPlain(Gap(text, lastIndex, start))
  {
  }

  lemma NoEmptyPlainAppend(a: seq<Part>, b: seq<Part>)
    requires NoEmptyPlain(a) && NoEmptyPlain(b)
    ensures NoEmptyPlain(a + b)
  {
    forall i | 0 <= i < |a + b| && (a + b)[i].Plain? ensures (a + b)[i].text != "" {
      if i >= |a| {
        assert (a + b)[i] == b[i - |a|];
      }
    }
  }

  lemma SlicesJoin(text: string, i: int, j: int, k: int)
    requires 0 <= i <= j <= k <= |text|
    ensures text[i..j] + text[j..k] + text[k..] == text[i..]
  {
  }

  /** Segmenting laid-out annotations from `lastIndex` reproduces the rest of the text, and
      every plain part is a non-empty gap or tail. */
  lemma {:induction false} SegmentsCover(text: string, anns: seq<Annotation>, lastIndex: int)
    requires 0 <= lastIndex <= |text| && Laid(|text|, anns)
    requires |anns| > 0 ==> lastIndex <= anns[0].startIndex
    ensures Concat(Segments(text, anns, lastIndex)) == text[lastIndex..]
    ensures NoEmptyPlain(Segments(text, anns, lastIndex))
    decreases |anns|
  {
    if |anns| == 0 {
      if lastIndex == |text| {
        assert text[lastIndex..] == "";
      }
    } else {
      var a := anns[0];
      var gap := Gap(text, lastIndex, a.startIndex);
      var mid := [Mark(text, a)];
      LaidTail(|text|, anns);
      SegmentsCover(text, anns[1..], a.endIndex);
      var rest := Segments(text, anns[1..], a.endIndex);
      assert Segments(text, anns, lastIndex) == gap + mid + rest;
      GapCover(text, lastIndex, a.startIndex);
      ConcatAppend(gap + mid, rest);
      ConcatAppend(gap, mid);
      assert Concat(mid) == text[a.startIndex..a.endIndex];
      SlicesJoin(text, lastIndex, a.startIndex, a.endIndex);
      NoEmptyPlainAppend(gap, mid);
      NoEmptyPlainAppend(gap + mid, rest);
    }
  }

  /** The rendered segment shows exactly its display text whenever its annotations, sorted,
      lie within that text without overlapping — or when it has none. */
  lemma TextShowsDisplayText(content: OutputText)
    requires content.annotations.Some? ==> Laid(|DisplayText(content.text)|, SortByStart(content.annotations.value))
    ensures Shown(TextView(content)) == DisplayText(content.text)
    ensures TextView(content).Parts? ==> NoEmptyPlain(TextView(content).parts)
  {
    var text := DisplayText(content.text);
    if content.annotations.Some? && |content.annotations.value| > 0 {
      SegmentsCover(text, SortByStart(content.annotations.value), 0);
    }
  }

  // ----- tool-call arguments -----------------------------------------------------------------

  /** The lines of `Object.entries(args).map(([k, v]) => `${k} = ${JSON.stringify(v)}`)`;
      `None` when `Object.entries` throws (on `null`). A string's entries are its characters
      and an array's its elements, keyed by index; numbers and booleans have none. */
  function ArgumentLines(v: Json): (r: Option<seq<string>>)
    ensures r.None? <==> v.Null?
    ensures v.Obj? ==> r == Some(seq(|v.fields|, i requires 0 <= i < |v.fields| =>
                                      v.fields[i].0 + " = " + Stringify(v.fields[i].1)))
    ensures v.Arr? ==> r == Some(seq(|v.items|, i requires 0 <= i < |v.items| =>
                                      NatToString(i) + " = " + Stringify(v.items[i])))
    ensures v.Bool? || v.Num? ==> r == Some([])
  {
    match v
    case Null => None
    case Bool(_) => Some([])
    case Num(_) => Some([])
    case Str(s) => Some(seq(|s|, i requires 0 <= i < |s| => NatToString(i) + " = " + JsQuote([s[i]])))
    case Arr(items) => Some(seq(|items|, i requires 0 <= i < |items| => NatToString(i) + " = " + Stringify(items[i])))
    case Obj(fields) => Some(seq(|fields|, i requires 0 <= i < |fields| => fields[i].0 + " = " + Stringify(fields[i].1)))
  }

  /** The code block of `ToolCallRenderer`: the entry lines joined by newlines, or the raw
      arguments when they do not parse (or parse to `null`). */
  function FormatArguments(arguments: string, parse: string -> Option<Json>): (r: string)
    ensures parse(arguments).None? ==> r == arguments
    ensures parse(arguments) == Some(Null) ==> r == arguments
  {
    match parse(arguments)
    case None => arguments
    case Some(v) =>
      match ArgumentLines(v)
      case None => arguments
      case Some(lines) => Join(lines, "\n")
  }

  lemma LineNoNewline(key: string, value: Json)
    requires NoChar(key, '\n')
    ensures NoChar(key + " = " + Stringify(value), '\n')
  {
    var line := key + " = " + Stringify(value);
    forall i | 0 <= i < |line| ensures line[i] != '\n' {
      if i >= |key| + 3 {
        assert line[i] == Stringify(value)[i - |key| - 3];
      }
    }
  }

  /** Arguments that parse to an object show one line per entry, in entry order: splitting
      the block at newlines gives `key = JSON.stringify(value)` back for each key, provided no
      key holds a newline (a stringified value never does). */
  lemma ObjectArgumentsLines(arguments: string, parse: string -> Option<Json>, fields: seq<(string, Json)>)
    requires parse(arguments) == Some(Obj(fields)) && |fields| > 0
    requires forall i :: 0 <= i < |fields| ==> NoChar(fields[i].0, '\n')
    ensures var lines := Split(FormatArguments(arguments, parse), '\n');
            && |lines| == |fields|
            && forall i :: 0 <= i < |fields| ==> lines[i] == fields[i].0 + " = " + Stringify(fields[i].1)
  {
    var lines := ArgumentLines(Obj(fields)).value;
    forall i | 0 <= i < |lines| ensures NoChar(lines[i], '\n') {
      LineNoNewline(fields[i].0, fields[i].1);
    }
    SplitJoin(lines, '\n');
  }

  // ----- messages ----------------------------------------------------------------------------

  /** `content.some(c => c.text.startsWith("User:"))`. */
  function AnyUserSegment(content: seq<OutputText>): (r: bool)
    decreases |content|
  {
    |content| > 0 && (StartsWith(content[0].text, "User:") || AnyUserSegment(content[1..]))
  }

  lemma {:induction false} AnyUserSegmentExists(content: seq<OutputText>)
    ensures AnyUserSegment(content) <==> exists i :: 0 <= i < |content| && StartsWith(content[i].text, "User:")
    decreases |content|
  {
    if |content| > 0 {
      AnyUserSegmentExists(content[1..]);
      if !StartsWith(content[0].text, "User:") && exists i :: 0 <= i < |content| && StartsWith(content[i].text, "User:") {
        var i :| 0 <= i < |content| && StartsWith(content[i].text, "User:");
        assert content[1..][i - 1] == content[i];
      }
      if AnyUserSegment(content[1..]) {
        var j :| 0 <= j < |content[1..]| && StartsWith(content[1..][j].text, "User:");
        assert content[j + 1] == content[1..][j];
      }
    }
  }

  function Texts(content: seq<OutputText>): (r: seq<string>)
    ensures |r| == |content| && forall i :: 0 <= i < |content| ==> r[i] == content[i].text
  {
    seq(|content|, i requires 0 <= i < |content| => content[i].text)
  }

  /** The copyable text of an output message: its segments joined by newlines. */
  function MessageText(content: seq<OutputText>): string {
    Join(Texts(content), "\n")
  }

  /** Segments without newlines are recovered from the message text. */
  lemma MessageTextSplits(content: seq<OutputText>)
    requires |content| > 0
    requires forall i :: 0 <= i < |content| ==> NoChar(content[i].text, '\n')
    ensures Split(MessageText(content), '\n') == Texts(content)
  {
    SplitJoin(Texts(content), '\n');
  }

  /** What a message shows in its body: an input message's text as one block, or one
      rendered block per output segment. */
  datatype Body = InputBody(text: string) | OutputBody(segments: seq<Rendered>)

  /** The renderer an item gets and what it shows. `isUser` picks the avatar and the label
      ("You" or "Agent"); `copyText` is what the copy button copies. */
  datatype View =
    | MessageView(isUser: bool, copyText: string, body: Body)
    | ToolCallView(title: string, status: Option<ToolStatus>, code: string)
    | ToolOutputView(code: string)
    | ReasoningView(summary: string, detail: Option<string>)
    | ErrorView(message: string)

  /** The renderer chosen by the `type` switch of `ResponseRenderer`. */
  datatype RendererKind = MessageRenderer | ToolCallRenderer | ToolOutputRenderer | ReasoningRenderer | ErrorRenderer | UnknownType

  function RendererFor(tag: Option<string>): (r: RendererKind)
    ensures r == UnknownType <==> tag.None? || tag.value !in OutputItemTags
    ensures r == MessageRenderer <==> tag == Some("message")
  {
    if tag == Some("message") then MessageRenderer
    else if tag == Some("function_call") then ToolCallRenderer
    else if tag == Some("function_call_output") then ToolOutputRenderer
    else if tag == Some("reasoning") then ReasoningRenderer
    else if tag == Some("error") then ErrorRenderer
    else UnknownType
  }

  function KindOf(v: View): RendererKind {
    match v
    case MessageView(_, _, _) => MessageRenderer
    case ToolCallView(_, _, _) => ToolCallRenderer
    case ToolOutputView(_) => ToolOutputRenderer
    case ReasoningView(_, _) => ReasoningRenderer
    case ErrorView(_) => ErrorRenderer
  }

  /** What the expanded reasoning block shows: the content, when it is a non-empty string. */
  function ReasoningDetail(content: Option<string>): (r: Option<string>)
    ensures r.Some? <==> content.Some? && content.value != ""
    ensures r.Some? ==> r == content
  {
    if content.Some? && content.value != "" then content else None
  }

  function ToolTitle(name: string): string {
    "system.ai." + name
  }

  /** `ResponseRenderer` of the known-schema UI on a validated history item. */
  function Render(item: InputItem, parse: string -> Option<Json>): (r: View)
    ensures item.InputMessage? ==> r == MessageView(item.role == User, item.text, InputBody(item.text))
    ensures item.Output? && item.item.Message? ==>
              && r.MessageView?
              && (r.isUser <==> exists i :: 0 <= i < |item.item.content| && StartsWith(item.item.content[i].text, "User:"))
              && r.copyText == MessageText(item.item.content)
              && r.body.OutputBody? && |r.body.segments| == |item.item.content|
              && forall i :: 0 <= i < |item.item.content| ==> r.body.segments[i] == TextView(item.item.content[i])
  {
    match item
    case InputMessage(role, text) => MessageView(role == User, text, InputBody(text))
    case Output(o) =>
      match o
      case Message(_, content) =>
        AnyUserSegmentExists(content);
        MessageView(AnyUserSegment(content), MessageText(content),
                    OutputBody(seq(|content|, i requires 0 <= i < |content| => TextView(content[i]))))
      case FunctionCall(_, _, name, arguments, status) => ToolCallView(ToolTitle(name), status, FormatArguments(arguments, parse))
      case FunctionCallOutput(_, output) => ToolOutputView(output)
      case Reasoning(_, summary, content) => ReasoningView(summary, ReasoningDetail(content))
      case ErrorItem(_, message) => ErrorView(message)
  }

  /** The `type` an item carries on the wire. */
  function InputTag(item: InputItem): string {
    match item
    case InputMessage(_, _) => "message"
    case Output(o) => ItemTag(o)
  }

  lemma EncodedTag(item: InputItem)
    ensures Tag(InputItemToJson(item)) == Some(InputTag(item))
  {
    InputItemRoundTrip(item);
  }

  /** Every validated item reaches the renderer of its own type, never the unknown-type
      fallback; the fallback is what any other (or a missing) `type` gets. */
  lemma DispatchMatchesType(item: InputItem, parse: string -> Option<Json>)
    ensures RendererFor(Tag(InputItemToJson(item))) == KindOf(Render(item, parse))
    ensures RendererFor(Tag(InputItemToJson(item))) != UnknownType
  {
    EncodedTag(item);
  }
}

=== FILE: schema.dfy ===
/**
 * The wire schema of the Responses protocol as the chat UI validates it: a closed,
 * tag-discriminated family of output items, the input message, the four stream events,
 * and the request and response envelopes. Each entity is a datatype with an encoder
 * (`...ToJson`) and a validator (`Parse...`) over JSON values; a validator accepts exactly
 * the objects whose fields have the declared shapes and ignores any other key, as Zod
 * object schemas do. Numbers are integers here.
 */
module Schema {
  import opened Wrappers
  import opened Json

  // ----- field readers: `None` means the field has the wrong shape ---------------------------

  /** A required string field. */
  function ReqStr(v: Json, key: string): (r: Option<string>)
    ensures r.Some? <==> Get(v, key).Some? && Get(v, key).value.Str?
    ensures r.Some? ==> Get(v, key) == Some(Str(r.value))
  {
    match Get(v, key)
    case Some(Str(s)) => Some(s)
    case _ => None
  }

  /** A required number field. */
  function ReqInt(v: Json, key: string): (r: Option<int>)
    ensures r.Some? <==> Get(v, key).Some? && Get(v, key).value.Num?
    ensures r.Some? ==> Get(v, key) == Some(Num(r.value))
  {
    match Get(v, key)
    case Some(Num(n)) => Some(n)
    case _ => None
  }

  /** An optional string field: absent gives `Some(None)`; present but not a string fails. */
  function OptStr(v: Json, key: string): (r: Option<Option<string>>)
    ensures Get(v, key).None? ==> r == Some(None)
    ensures r.Some? && r.value.Some? ==> Get(v, key) == Some(Str(r.value.value))
    ensures r.None? <==> Get(v, key).Some? && !Get(v, key).value.Str?
  {
    match Get(v, key)
    case None => Some(None)
    case Some(Str(s)) => Some(Some(s))
    case Some(_) => None
  }

  function OptInt(v: Json, key: string): (r: Option<Option<int>>)
    ensures Get(v, key).None? ==> r == Some(None)
    ensures r.Some? && r.value.Some? ==> Get(v, key) == Some(Num(r.value.value))
    ensures r.None? <==> Get(v, key).Some? && !Get(v, key).value.Num?
  {
    match Get(v, key)
    case None => Some(None)
    case Some(Num(n)) => Some(Some(n))
    case Some(_) => None
  }

  function OptBool(v: Json, key: string): (r: Option<Option<bool>>)
    ensures Get(v, key).None? ==> r == Some(None)
    ensures r.Some? && r.value.Some? ==> Get(v, key) == Some(Bool(r.value.value))
    ensures r.None? <==> Get(v, key).Some? && !Get(v, key).value.Bool?
  {
    match Get(v, key)
    case None => Some(None)
    case Some(Bool(b)) => Some(Some(b))
    case Some(_) => None
  }

  /** The discriminator tag of an object, if it is a string. */
  function Tag(v: Json): Option<string> {
    ReqStr(v, "type")
  }

  /** Optional values as optional JSON bindings (see `Json.Optionals`). */
  function SomeStr(o: Option<string>): Option<Json> {
    if o.Some? then Some(Str(o.value)) else None
  }

  function SomeNum(o: Option<int>): Option<Json> {
    if o.Some? then Some(Num(o.value)) else None
  }

  function SomeBool(o: Option<bool>): Option<Json> {
    if o.Some? then Some(Bool(o.value)) else None
  }

  // ----- annotations and text segments (validation.ts:4-18) -----------------------------------

  datatype AnnotationType = FileCitation | UrlCitation | ContainerFileCitation

  function AnnotationTypeName(t: AnnotationType): string {
    match t
    case FileCitation => "file_citation"
    case UrlCitation => "url_citation"
    case ContainerFileCitation => "container_file_citation"
  }

  function ParseAnnotationType(s: string): (r: Option<AnnotationType>)
    ensures r.Some? <==> s in {"file_citation", "url_citation", "container_file_citation"}
    ensures r.Some? ==> AnnotationTypeName(r.value) == s
  {
    if s == "file_citation" then Some(FileCitation)
    else if s == "url_citation" then Some(UrlCitation)
    else if s == "container_file_citation" then Some(ContainerFileCitation)
    else None
  }

  datatype Annotation = Annotation(
    kind: AnnotationType, text: string, startIndex: int, endIndex: int,
    url: Option<string>, fileId: Option<string>, containerFileId: Option<string>)

  function AnnotationToJson(a: Annotation): Json {
    Obj([("type", Str(AnnotationTypeName(a.kind))), ("text", Str(a.text)),
         ("start_index", Num(a.startIndex)), ("end_index", Num(a.endIndex))]
        + Optionals([("url", SomeStr(a.url)), ("file_id", SomeStr(a.fileId)),
                     ("container_file_id", SomeStr(a.containerFileId))]))
  }

  /** An annotation needs one of the three citation types, a text, numeric start and end
      indices; url, file_id and container_file_id may be absent but are strings if present. */
  function ParseAnnotation(v: Json): (r: Option<Annotation>)
    ensures r.Some? ==> v.Obj?
    ensures r.Some? ==> Tag(v) == Some(AnnotationTypeName(r.value.kind))
    ensures r.Some? ==> (ReqInt(v, "start_index") == Some(r.value.startIndex)
                         && ReqInt(v, "end_index") == Some(r.value.endIndex))
    ensures r.Some? ==> OptStr(v, "url") == Some(r.value.url)
    ensures r.Some? ==> (ReqStr(v, "text") == Some(r.value.text)
                         && OptStr(v, "file_id") == Some(r.value.fileId)
                         && OptStr(v, "container_file_id") == Some(r.value.containerFileId))
    ensures r.None? ==> || !v.Obj? || Tag(v).None? || ParseAnnotationType(Tag(v).value).None?
                        || ReqStr(v, "text").None?
                        || ReqInt(v, "start_index").None? || ReqInt(v, "end_index").None?
                        || OptStr(v, "url").None? || OptStr(v, "file_id").None?
                        || OptStr(v, "container_file_id").None?
  {
    if !v.Obj? then None
    else
      var tag :- Tag(v);
      var kind :- ParseAnnotationType(tag);
      var text :- ReqStr(v, "text");
      var start :- ReqInt(v, "start_index");
      var end :- ReqInt(v, "end_index");
      var url :- OptStr(v, "url");
      var fileId :- OptStr(v, "file_id");
      var containerFileId :- OptStr(v, "container_file_id");
      Some(Annotation(kind, text, start, end, url, fileId, containerFileId))
  }

  function ParseAnnotations(items: seq<Json>): (r: Option<seq<Annotation>>)
    ensures r.Some? ==> |r.value| == |items|
    ensures r.Some? ==> forall i :: 0 <= i < |items| ==> ParseAnnotation(items[i]) == Some(r.value[i])
  {
    ParseEach(items, ParseAnnotation)
  }

  function AnnotationsToJson(anns: seq<Annotation>): (r: seq<Json>)
    ensures |r| == |anns|
    ensures forall i :: 0 <= i < |anns| ==> r[i] == AnnotationToJson(anns[i])
  {
    if |anns| == 0 then [] else [AnnotationToJson(anns[0])] + AnnotationsToJson(anns[1..])
  }

  datatype OutputText = OutputText(text: string, annotations: Option<seq<Annotation>>)

  function OutputTextToJson(t: OutputText): Json {
    Obj([("type", Str("output_text")), ("text", Str(t.text))]
        + Optionals([("annotations", if t.annotations.Some? then Some(Arr(AnnotationsToJson(t.annotations.value))) else None)]))
  }

  /** A text segment has tag "output_text", a string text and optionally a list of annotations. */
  function ParseOutputText(v: Json): (r: Option<OutputText>)
    ensures r.Some? ==> v.Obj? && Tag(v) == Some("output_text") && ReqStr(v, "text") == Some(r.value.text)
    ensures r.Some? ==> (r.value.annotations.None? <==> Get(v, "annotations").None?)
    ensures r.Some? && r.value.annotations.Some? ==>
              && Get(v, "annotations").Some? && Get(v, "annotations").value.Arr?
              && ParseAnnotations(Get(v, "annotations").value.items) == Some(r.value.annotations.value)
    ensures r.None? ==> || !v.Obj? || Tag(v) != Some("output_text") || ReqStr(v, "text").None?
                        || (Get(v, "annotations").Some?
                            && (!Get(v, "annotations").value.Arr?
                                || ParseAnnotations(Get(v, "annotations").value.items).None?))
  {
    if !v.Obj? || Tag(v) != Some("output_text") then None
    else
      var text :- ReqStr(v, "text");
      match Get(v, "annotations")
      case None => Some(OutputText(text, None))
      case Some(Arr(items)) =>
        var anns :- ParseAnnotations(items);
        Some(OutputText(text, Some(anns)))
      case Some(_) => None
  }

  function ParseOutputTexts(items: seq<Json>): (r: Option<seq<OutputText>>)
    ensures r.Some? ==> |r.value| == |items|
    ensures r.Some? ==> forall i :: 0 <= i < |items| ==> ParseOutputText(items[i]) == Some(r.value[i])
  {
    ParseEach(items, ParseOutputText)
  }

  function OutputTextsToJson(ts: seq<OutputText>): (r: seq<Json>)
    ensures |r| == |ts|
    ensures forall i :: 0 <= i < |ts| ==> r[i] == OutputTextToJson(ts[i])
  {
    if |ts| == 0 then [] else [OutputTextToJson(ts[0])] + OutputTextsToJson(ts[1..])
  }

  // ----- the five output items (validation.ts:20-66) ------------------------------------------

  datatype ToolStatus = Pending | Completed | Failed

  function ToolStatusName(s: ToolStatus): string {
    match s
    case Pending => "pending"
    case Completed => "completed"
    case Failed => "failed"
  }

  function ParseToolStatus(s: string): (r: Option<ToolStatus>)
    ensures r.Some? <==> s in {"pending", "completed", "failed"}
    ensures r.Some? ==> ToolStatusName(r.value) == s
  {
    if s == "pending" then Some(Pending)
    else if s == "completed" then Some(Completed)
    else if s == "failed" then Some(Failed)
    else None
  }

  /** An agent output item. A `Message` always has role "assistant", so the role is not stored. */
  datatype OutputItem =
    | Message(id: string, content: seq<OutputText>)
    | FunctionCall(id: string, callId: string, name: string, arguments: string, status: Option<ToolStatus>)
    | FunctionCallOutput(callId: string, output: string)
    | Reasoning(id: string, summary: string, reasoningContent: Option<string>)
    | ErrorItem(code: string, message: string)

  function ItemTag(item: OutputItem): string {
    match item
    case Message(_, _) => "message"
    case FunctionCall(_, _, _, _, _) => "function_call"
    case FunctionCallOutput(_, _) => "function_call_output"
    case Reasoning(_, _, _) => "reasoning"
    case ErrorItem(_, _) => "error"
  }

  const OutputItemTags: set<string> := {"message", "function_call", "function_call_output", "reasoning", "error"}

  function OutputItemToJson(item: OutputItem): Json {
    match item
    case Message(id, content) =>
      Obj([("type", Str("message")), ("id", Str(id)), ("role", Str("assistant")),
           ("content", Arr(OutputTextsToJson(content)))])
    case FunctionCall(id, callId, name, arguments, status) =>
      Obj([("type", Str("function_call")), ("id", Str(id)), ("call_id", Str(callId)),
           ("name", Str(name)), ("arguments", Str(arguments))]
          + Optionals([("status", if status.Some? then Some(Str(ToolStatusName(status.value))) else None)]))
    case FunctionCallOutput(callId, output) =>
      Obj([("type", Str("function_call_output")), ("call_id", Str(callId)), ("output", Str(output))])
    case Reasoning(id, summary, content) =>
      Obj([("type", Str("reasoning")), ("id", Str(id)), ("summary", Str(summary))]
          + Optionals([("content", SomeStr(content))]))
    case ErrorItem(code, message) =>
      Obj([("type", Str("error")), ("code", Str(code)), ("message", Str(message))])
  }

  function ParseMessage(v: Json): Option<OutputItem> {
    var id :- ReqStr(v, "id");
    if Get(v, "role") != Some(Str("assistant")) then None
    else
      match Get(v, "content")
      case Some(Arr(items)) =>
        var content :- ParseOutputTexts(items);
        Some(Message(id, content))
      case _ => None
  }

  function ParseFunctionCall(v: Json): Option<OutputItem> {
    var id :- ReqStr(v, "id");
    var callId :- ReqStr(v, "call_id");
    var name :- ReqStr(v, "name");
    var arguments :- ReqStr(v, "arguments");
    match Get(v, "status")
    case None => Some(FunctionCall(id, callId, name, arguments, None))
    case Some(Str(s)) =>
      var status :- ParseToolStatus(s);
      Some(FunctionCall(id, callId, name, arguments, Some(status)))
    case Some(_) => None
  }

  function ParseFunctionCallOutput(v: Json): Option<OutputItem> {
    var callId :- ReqStr(v, "call_id");
    var output :- ReqStr(v, "output");
    Some(FunctionCallOutput(callId, output))
  }

  function ParseReasoning(v: Json): Option<OutputItem> {
    var id :- ReqStr(v, "id");
    var summary :- ReqStr(v, "summary");
    var content :- OptStr(v, "content");
    Some(Reasoning(id, summary, content))
  }

  function ParseErrorItem(v: Json): Option<OutputItem> {
    var code :- ReqStr(v, "code");
    var message :- ReqStr(v, "message");
    Some(ErrorItem(code, message))
  }

  /** The output-item union: the `type` tag picks exactly one of the five shapes, and the item
      decoded is of the variant the tag names, carrying the fields that shape decodes; any
      other tag, or a non-object, is rejected. */
  function ParseOutputItem(v: Json): (r: Option<OutputItem>)
    ensures r.Some? ==> v.Obj? && Tag(v).Some? && Tag(v).value in OutputItemTags
    ensures r.Some? ==> Tag(v) == Some(ItemTag(r.value))
    ensures r.Some? && r.value.Message? ==>
              && Get(v, "role") == Some(Str("assistant"))
              && ReqStr(v, "id") == Some(r.value.id)
              && Get(v, "content").Some? && Get(v, "content").value.Arr?
              && ParseOutputTexts(Get(v, "content").value.items) == Some(r.value.content)
    ensures r.Some? && r.value.FunctionCall? ==>
              && ReqStr(v, "id") == Some(r.value.id) && ReqStr(v, "call_id") == Some(r.value.callId)
              && ReqStr(v, "name") == Some(r.value.name) && ReqStr(v, "arguments") == Some(r.value.arguments)
              && (r.value.status.None? <==> Get(v, "status").None?)
              && (r.value.status.Some? ==> Get(v, "status") == Some(Str(ToolStatusName(r.value.status.value))))
    ensures r.Some? && r.value.FunctionCallOutput? ==>
              ReqStr(v, "call_id") == Some(r.value.callId) && ReqStr(v, "output") == Some(r.value.output)
    ensures r.Some? && r.value.Reasoning? ==>
              && ReqStr(v, "id") == Some(r.value.id) && ReqStr(v, "summary") == Some(r.value.summary)
              && OptStr(v, "content") == Some(r.value.reasoningContent)
    ensures r.Some? && r.value.ErrorItem? ==>
              ReqStr(v, "code") == Some(r.value.code) && ReqStr(v, "message") == Some(r.value.message)
  {
    if !v.Obj? then None
    else
      match Tag(v)
      case Some("message") => ParseMessage(v)
      case Some("function_call") => ParseFunctionCall(v)
      case Some("function_call_output") => ParseFunctionCallOutput(v)
      case Some("reasoning") => ParseReasoning(v)
      case Some("error") => ParseErrorItem(v)
      case _ => None
  }

  function ParseOutputItems(items: seq<Json>): (r: Option<seq<OutputItem>>)
    ensures r.Some? ==> |r.value| == |items|
    ensures r.Some? ==> forall i :: 0 <= i < |items| ==> ParseOutputItem(items[i]) == Some(r.value[i])
  {
    ParseEach(items, ParseOutputItem)
  }

  function OutputItemsToJson(items: seq<OutputItem>): (r: seq<Json>)
    ensures |r| == |items|
    ensures forall i :: 0 <= i < |items| ==> r[i] == OutputItemToJson(items[i])
  {
    if |items| == 0 then [] else [OutputItemToJson(items[0])] + OutputItemsToJson(items[1..])
  }

  // ----- history items (validation.ts:68-77) --------------------------------------------------

  datatype InputRole = User | Developer | System

  function InputRoleName(r: InputRole): string {
    match r
    case User => "user"
    case Developer => "developer"
    case System => "system"
  }

  function ParseInputRole(s: string): (r: Option<InputRole>)
    ensures r.Some? <==> s in {"user", "developer", "system"}
    ensures r.Some? ==> InputRoleName(r.value) == s
  {
    if s == "user" then Some(User)
    else if s == "developer" then Some(Developer)
    else if s == "system" then Some(System)
    else None
  }

  /** A conversation-history entry: a caller-authored message or an agent output item. Both
      message forms carry the tag "message"; the input form has string content. */
  datatype InputItem = InputMessage(role: InputRole, text: string) | Output(item: OutputItem)

  function InputItemToJson(h: InputItem): Json {
    match h
    case InputMessage(role, text) =>
      Obj([("type", Str("message")), ("role", Str(InputRoleName(role))), ("content", Str(text))])
    case Output(item) => OutputItemToJson(item)
  }

  function ParseInputMessage(v: Json): (r: Option<InputItem>)
    ensures r.Some? ==> r.value.InputMessage? && Tag(v) == Some("message")
    ensures r.Some? ==> (ReqStr(v, "role") == Some(InputRoleName(r.value.role))
                         && ReqStr(v, "content") == Some(r.value.text))
  {
    if !v.Obj? || Tag(v) != Some("message") then None
    else
      var roleName :- ReqStr(v, "role");
      var role :- ParseInputRole(roleName);
      var text :- ReqStr(v, "content");
      Some(InputMessage(role, text))
  }

  /** A history item is an input message (role user, developer or system, string content) or
      one of the five output items. */
  function ParseInputItem(v: Json): (r: Option<InputItem>)
    ensures r.Some? && r.value.InputMessage? ==>
              Tag(v) == Some("message") && ReqStr(v, "content") == Some(r.value.text)
              && ReqStr(v, "role") == Some(InputRoleName(r.value.role))
    ensures r.Some? && r.value.Output? ==> ParseOutputItem(v) == Some(r.value.item)
    ensures r.None? ==> ParseOutputItem(v).None?
    ensures ParseInputMessage(v).Some? ==> r == ParseInputMessage(v)
    ensures ParseOutputItem(v).Some? ==> r == Some(Output(ParseOutputItem(v).value))
  {
    MessageFormsDisjoint(v);
    match ParseInputMessage(v)
    case Some(m) => Some(m)
    case None =>
      var item :- ParseOutputItem(v);
      Some(Output(item))
  }

  /** No object is both a valid input message and a valid output item: the input form needs
      role user, developer or system, the output form role "assistant". So the order in which
      the two options are tried never matters. */
  lemma MessageFormsDisjoint(v: Json)
    ensures ParseInputMessage(v).None? || ParseOutputItem(v).None?
  {
  }

  function ParseInputItems(items: seq<Json>): (r: Option<seq<InputItem>>)
    ensures r.Some? ==> |r.value| == |items|
    ensures r.Some? ==> forall i :: 0 <= i < |items| ==> ParseInputItem(items[i]) == Some(r.value[i])
  {
    ParseEach(items, ParseInputItem)
  }

  function InputItemsToJson(items: seq<InputItem>): (r: seq<Json>)
    ensures |r| == |items|
    ensures forall i :: 0 <= i < |items| ==> r[i] == InputItemToJson(items[i])
  {
    if |items| == 0 then [] else [InputItemToJson(items[0])] + InputItemsToJson(items[1..])
  }

  // ----- stream events (validation.ts:79-118) -------------------------------------------------

  datatype StreamEvent =
    | OutputItemDone(item: OutputItem)
    | TextDelta(delta: string, itemId: string, outputIndex: Option<int>,
                sequenceNumber: Option<int>, contentIndex: Option<int>)
    | ErrorEvent(code: string, message: string)
    | AnnotationAdded(annotation: Annotation, annotationIndex: int, annContentIndex: int,
                      annItemId: string, annOutputIndex: int, annSequenceNumber: int)

  function EventTag(e: StreamEvent): string {
    match e
    case OutputItemDone(_) => "response.output_item.done"
    case TextDelta(_, _, _, _, _) => "response.output_text.delta"
    case ErrorEvent(_, _) => "error"
    case AnnotationAdded(_, _, _, _, _, _) => "response.output_text.annotation.added"
  }

  const StreamEventTags: set<string> :=
    {"response.output_item.done", "response.output_text.delta", "error", "response.output_text.annotation.added"}

  function StreamEventToJson(e: StreamEvent): Json {
    match e
    case OutputItemDone(item) =>
      Obj([("type", Str("response.output_item.done")), ("item", OutputItemToJson(item))])
    case TextDelta(delta, itemId, outputIndex, sequenceNumber, contentIndex) =>
      Obj([("type", Str("response.output_text.delta")), ("delta", Str(delta)), ("item_id", Str(itemId))]
          + Optionals([("output_index", SomeNum(outputIndex)), ("sequence_number", SomeNum(sequenceNumber)),
                       ("content_index", SomeNum(contentIndex))]))
    case ErrorEvent(code, message) =>
      Obj([("type", Str("error")), ("code", Str(code)), ("message", Str(message))])
    case AnnotationAdded(annotation, annotationIndex, contentIndex, itemId, outputIndex, sequenceNumber) =>
      Obj([("annotation", AnnotationToJson(annotation)), ("annotation_index", Num(annotationIndex)),
           ("content_index", Num(contentIndex)), ("item_id", Str(itemId)),
           ("output_index", Num(outputIndex)), ("sequence_number", Num(sequenceNumber)),
           ("type", Str("response.output_text.annotation.added"))])
  }

  function ParseTextDelta(v: Json): (r: Option<StreamEvent>)
    ensures r.Some? ==> r.value.TextDelta? && ReqStr(v, "delta") == Some(r.value.delta)
                        && ReqStr(v, "item_id") == Some(r.value.itemId)
                        && OptInt(v, "output_index") == Some(r.value.outputIndex)
  {
    var delta :- ReqStr(v, "delta");
    var itemId :- ReqStr(v, "item_id");
    var outputIndex :- OptInt(v, "output_index");
    var sequenceNumber :- OptInt(v, "sequence_number");
    var contentIndex :- OptInt(v, "content_index");
    Some(TextDelta(delta, itemId, outputIndex, sequenceNumber, contentIndex))
  }

  function ParseAnnotationAdded(v: Json): (r: Option<StreamEvent>)
    ensures r.Some? ==> r.value.AnnotationAdded? && Get(v, "annotation").Some?
                        && ParseAnnotation(Get(v, "annotation").value) == Some(r.value.annotation)
    ensures r.Some? ==> ReqStr(v, "item_id") == Some(r.value.annItemId)
                        && ReqInt(v, "annotation_index") == Some(r.value.annotationIndex)
                        && ReqInt(v, "sequence_number") == Some(r.value.annSequenceNumber)
  {
    var annotationJson :- Get(v, "annotation");
    var annotation :- ParseAnnotation(annotationJson);
    var annotationIndex :- ReqInt(v, "annotation_index");
    var contentIndex :- ReqInt(v, "content_index");
    var itemId :- ReqStr(v, "item_id");
    var outputIndex :- ReqInt(v, "output_index");
    var sequenceNumber :- ReqInt(v, "sequence_number");
    Some(AnnotationAdded(annotation, annotationIndex, contentIndex, itemId, outputIndex, sequenceNumber))
  }

  function ParseItemDone(v: Json): (r: Option<StreamEvent>)
    ensures r.Some? ==> r.value.OutputItemDone? && Get(v, "item").Some?
                        && ParseOutputItem(Get(v, "item").value) == Some(r.value.item)
  {
    var itemJson :- Get(v, "item");
    var item :- ParseOutputItem(itemJson);
    Some(OutputItemDone(item))
  }

  function ParseErrorEvent(v: Json): (r: Option<StreamEvent>)
    ensures r.Some? ==> r.value.ErrorEvent?
                        && ParseErrorItem(v) == Some(ErrorItem(r.value.code, r.value.message))
  {
    var code :- ReqStr(v, "code");
    var message :- ReqStr(v, "message");
    Some(ErrorEvent(code, message))
  }

  /** The stream-event union: exactly one of output_item.done (whose `item` must itself be a
      valid output item), output_text.delta, error, or output_text.annotation.added. */
  function ParseStreamEvent(v: Json): (r: Option<StreamEvent>)
    ensures r.Some? ==> v.Obj? && Tag(v) == Some(EventTag(r.value))
    ensures r.Some? ==> Tag(v).value in StreamEventTags
    ensures r.Some? && r.value.OutputItemDone? ==>
              Get(v, "item").Some? && ParseOutputItem(Get(v, "item").value) == Some(r.value.item)
    ensures r.Some? && r.value.ErrorEvent? ==>
              ParseErrorItem(v) == Some(ErrorItem(r.value.code, r.value.message))
  {
    if !v.Obj? then None
    else
      var tag := Tag(v);
      if tag == Some("response.output_item.done") then ParseItemDone(v)
      else if tag == Some("response.output_text.delta") then ParseTextDelta(v)
      else if tag == Some("error") then ParseErrorEvent(v)
      else if tag == Some("response.output_text.annotation.added") then
        ParseAnnotationAdded(v)
      else None
  }

  // ----- request and response envelopes (validation.ts:107-128) -------------------------------

  datatype DatabricksOptions = DatabricksOptions(returnTrace: Option<bool>)

  function OptionsToJson(o: Option<DatabricksOptions>): Option<Json> {
    if o.Some? then Some(Obj([] + Optionals([("return_trace", SomeBool(o.value.returnTrace))]))) else None
  }

  datatype Request = Request(input: seq<InputItem>, stream: Option<bool>, options: Option<DatabricksOptions>)

  function RequestToJson(q: Request): Json {
    Obj([("input", Arr(InputItemsToJson(q.input)))]
        + Optionals([("stream", SomeBool(q.stream)), ("databricks_options", OptionsToJson(q.options))]))
  }

  /** `databricks_options` may be absent; when present it is an object whose `return_trace`
      is an optional boolean. */
  function ParseOptions(v: Json): (r: Option<Option<DatabricksOptions>>)
    ensures Get(v, "databricks_options").None? ==> r == Some(None)
    ensures r.Some? && r.value.Some? ==>
              && Get(v, "databricks_options").Some? && Get(v, "databricks_options").value.Obj?
              && OptBool(Get(v, "databricks_options").value, "return_trace") == Some(r.value.value.returnTrace)
    ensures r.None? ==> Get(v, "databricks_options").Some?
  {
    match Get(v, "databricks_options")
    case None => Some(None)
    case Some(Obj(fields)) =>
      var returnTrace :- OptBool(Obj(fields), "return_trace");
      Some(Some(DatabricksOptions(returnTrace)))
    case Some(_) => None
  }

  /** A request has `input`, a list of history items; `stream` and
      `databricks_options.return_trace` are optional booleans. */
  function ParseRequest(v: Json): (r: Option<Request>)
    ensures r.Some? ==> (Get(v, "input").Some? && Get(v, "input").value.Arr?
                         && ParseInputItems(Get(v, "input").value.items) == Some(r.value.input))
    ensures r.Some? ==> OptBool(v, "stream") == Some(r.value.stream)
  {
    if !v.Obj? || Get(v, "input").None? || !Get(v, "input").value.Arr? then None
    else
      var input :- ParseInputItems(Get(v, "input").value.items);
      var stream :- OptBool(v, "stream");
      var options :- ParseOptions(v);
      Some(Request(input, stream, options))
  }

  datatype ResponseError = ResponseError(code: string, message: string)

  datatype Response = Response(id: string, output: seq<OutputItem>, error: Option<ResponseError>)

  function ResponseToJson(p: Response): Json {
    Obj([("id", Str(p.id)), ("output", Arr(OutputItemsToJson(p.output)))]
        + Optionals([("error", ResponseErrorJson(p.error))]))
  }

  /** A response's `error` may be absent; when present it is an object with a string code and
      a string message. */
  function ParseResponseError(v: Json): (r: Option<Option<ResponseError>>)
    ensures Get(v, "error").None? ==> r == Some(None)
    ensures r.Some? && r.value.Some? ==>
              && Get(v, "error").Some? && Get(v, "error").value.Obj?
              && ReqStr(Get(v, "error").value, "code") == Some(r.value.value.code)
              && ReqStr(Get(v, "error").value, "message") == Some(r.value.value.message)
    ensures r.None? ==> Get(v, "error").Some?
  {
    match Get(v, "error")
    case None => Some(None)
    case Some(e) =>
      if !e.Obj? then None
      else
        var code :- ReqStr(e, "code");
        var message :- ReqStr(e, "message");
        Some(Some(ResponseError(code, message)))
  }

  /** A non-streaming response has a string id, a list of output items and an optional error
      with code and message. */
  function ParseResponse(v: Json): (r: Option<Response>)
    ensures r.Some? ==> ReqStr(v, "id") == Some(r.value.id)
    ensures r.Some? ==> (Get(v, "output").Some? && Get(v, "output").value.Arr?
                         && ParseOutputItems(Get(v, "output").value.items) == Some(r.value.output))
  {
    if !v.Obj? || Get(v, "output").None? || !Get(v, "output").value.Arr? then None
    else
      var id :- ReqStr(v, "id");
      var output :- ParseOutputItems(Get(v, "output").value.items);
      var error :- ParseResponseError(v);
      Some(Response(id, output, error))
  }

  // ----- round trips ---------------------------------------------------------------------------

  lemma AnnotationFields(a: Annotation)
    ensures var f := AnnotationToJson(a).fields;
      && Lookup(f, "type") == Some(Str(AnnotationTypeName(a.kind)))
      && Lookup(f, "text") == Some(Str(a.text))
      && Lookup(f, "start_index") == Some(Num(a.startIndex))
      && Lookup(f, "end_index") == Some(Num(a.endIndex))
      && Lookup(f, "url") == SomeStr(a.url)
      && Lookup(f, "file_id") == SomeStr(a.fileId)
      && Lookup(f, "container_file_id") == SomeStr(a.containerFileId)
  {
    var base: seq<(string, Json)> := [("type", Str(AnnotationTypeName(a.kind))), ("text", Str(a.text)),
         ("start_index", Num(a.startIndex)), ("end_index", Num(a.endIndex))];
    var opt := [("url", SomeStr(a.url)), ("file_id", SomeStr(a.fileId)),
                ("container_file_id", SomeStr(a.containerFileId))];
    LookupRequired(base, opt, 0);
    LookupRequired(base, opt, 1);
    LookupRequired(base, opt, 2);
    LookupRequired(base, opt, 3);
    LookupOptionalKey(base, opt, 0);
    LookupOptionalKey(base, opt, 1);
    LookupOptionalKey(base, opt, 2);
  }

  lemma ParseAnnotationOf(a: Annotation, v: Json)
    requires v.Obj?
    requires Lookup(v.fields, "type") == Some(Str(AnnotationTypeName(a.kind)))
    requires Lookup(v.fields, "text") == Some(Str(a.text))
    requires Lookup(v.fields, "start_index") == Some(Num(a.startIndex))
    requires Lookup(v.fields, "end_index") == Some(Num(a.endIndex))
    requires Lookup(v.fields, "url") == SomeStr(a.url)
    requires Lookup(v.fields, "file_id") == SomeStr(a.fileId)
    requires Lookup(v.fields, "container_file_id") == SomeStr(a.containerFileId)
    ensures ParseAnnotation(v) == Some(a)
  {
    AnnotationTypeRoundTrip(a.kind);
    assert Tag(v) == Some(AnnotationTypeName(a.kind));
  }

  lemma AnnotationTypeRoundTrip(t: AnnotationType)
    ensures ParseAnnotationType(AnnotationTypeName(t)) == Some(t)
  {
  }

  /** Every annotation the UI can hold survives encoding and validation unchanged. */
  lemma AnnotationRoundTrip(a: Annotation)
    ensures ParseAnnotation(AnnotationToJson(a)) == Some(a)
  {
    AnnotationFields(a);
    ParseAnnotationOf(a, AnnotationToJson(a));
  }

  lemma ParseAnnotationsOf(js: seq<Json>, anns: seq<Annotation>)
    requires |js| == |anns|
    requires forall i :: 0 <= i < |js| ==> ParseAnnotation(js[i]) == Some(anns[i])
    ensures ParseAnnotations(js) == Some(anns)
  {
    ParseEachOf(js, ParseAnnotation, anns);
  }

  lemma AnnotationsRoundTrip(anns: seq<Annotation>)
    ensures ParseAnnotations(AnnotationsToJson(anns)) == Some(anns)
  {
    var js := AnnotationsToJson(anns);
    forall i | 0 <= i < |anns| ensures ParseAnnotation(js[i]) == Some(anns[i]) {
      AnnotationRoundTrip(anns[i]);
    }
    ParseAnnotationsOf(js, anns);
  }

  function AnnotationsJson(o: Option<seq<Annotation>>): Option<Json> {
    if o.Some? then Some(Arr(AnnotationsToJson(o.value))) else None
  }

  lemma OutputTextFields(t: OutputText)
    ensures var f := OutputTextToJson(t).fields;
      && Lookup(f, "type") == Some(Str("output_text"))
      && Lookup(f, "text") == Some(Str(t.text))
      && Lookup(f, "annotations") == AnnotationsJson(t.annotations)
  {
    var base: seq<(string, Json)> := [("type", Str("output_text")), ("text", Str(t.text))];
    var opt := [("annotations", AnnotationsJson(t.annotations))];
    assert OutputTextToJson(t).fields == base + Optionals(opt);
    LookupRequired(base, opt, 0);
    LookupRequired(base, opt, 1);
    LookupOptionalKey(base, opt, 0);
  }

  lemma ParseOutputTextOf(t: OutputText, v: Json)
    requires v.Obj?
    requires Lookup(v.fields, "type") == Some(Str("output_text"))
    requires Lookup(v.fields, "text") == Some(Str(t.text))
    requires Lookup(v.fields, "annotations") == AnnotationsJson(t.annotations)
    ensures ParseOutputText(v) == Some(t)
  {
    assert Tag(v) == Some("output_text") && ReqStr(v, "text") == Some(t.text);
    if t.annotations.Some? {
      AnnotationsRoundTrip(t.annotations.value);
      assert Get(v, "annotations") == Some(Arr(AnnotationsToJson(t.annotations.value)));
    } else {
      assert Get(v, "annotations").None?;
    }
  }

  lemma OutputTextRoundTrip(t: OutputText)
    ensures ParseOutputText(OutputTextToJson(t)) == Some(t)
  {
    OutputTextFields(t);
    ParseOutputTextOf(t, OutputTextToJson(t));
  }

  lemma ParseOutputTextsOf(js: seq<Json>, ts: seq<OutputText>)
    requires |js| == |ts|
    requires forall i :: 0 <= i < |js| ==> ParseOutputText(js[i]) == Some(ts[i])
    ensures ParseOutputTexts(js) == Some(ts)
  {
    ParseEachOf(js, ParseOutputText, ts);
  }

  lemma OutputTextsRoundTrip(ts: seq<OutputText>)
    ensures ParseOutputTexts(OutputTextsToJson(ts)) == Some(ts)
  {
    var js := OutputTextsToJson(ts);
    forall i | 0 <= i < |ts| ensures ParseOutputText(js[i]) == Some(ts[i]) {
      OutputTextRoundTrip(ts[i]);
    }
    ParseOutputTextsOf(js, ts);
  }

  lemma MessageRoundTrip(id: string, content: seq<OutputText>)
    ensures ParseOutputItem(OutputItemToJson(Message(id, content))) == Some(Message(id, content))
  {
    var fields := OutputItemToJson(Message(id, content)).fields;
    LookupAt(fields, 0);
    LookupAt(fields, 1);
    LookupAt(fields, 2);
    LookupAt(fields, 3);
    OutputTextsRoundTrip(content);
  }

  function StatusJson(o: Option<ToolStatus>): Option<Json> {
    if o.Some? then Some(Str(ToolStatusName(o.value))) else None
  }

  lemma FunctionCallFields(id: string, callId: string, name: string, arguments: string, status: Option<ToolStatus>)
    ensures var f := OutputItemToJson(FunctionCall(id, callId, name, arguments, status)).fields;
      && Lookup(f, "type") == Some(Str("function_call"))
      && Lookup(f, "id") == Some(Str(id))
      && Lookup(f, "call_id") == Some(Str(callId))
      && Lookup(f, "name") == Some(Str(name))
      && Lookup(f, "arguments") == Some(Str(arguments))
      && Lookup(f, "status") == StatusJson(status)
  {
    var base: seq<(string, Json)> := [("type", Str("function_call")), ("id", Str(id)), ("call_id", Str(callId)),
           ("name", Str(name)), ("arguments", Str(arguments))];
    var opt := [("status", StatusJson(status))];
    assert OutputItemToJson(FunctionCall(id, callId, name, arguments, status)).fields == base + Optionals(opt);
    LookupRequired(base, opt, 0);
    LookupRequired(base, opt, 1);
    LookupRequired(base, opt, 2);
    LookupRequired(base, opt, 3);
    LookupRequired(base, opt, 4);
    LookupOptionalKey(base, opt, 0);
  }

  lemma ParseFunctionCallOf(id: string, callId: string, name: string, arguments: string, status: Option<ToolStatus>, v: Json)
    requires v.Obj?
    requires Lookup(v.fields, "type") == Some(Str("function_call"))
    requires Lookup(v.fields, "id") == Some(Str(id))
    requires Lookup(v.fields, "call_id") == Some(Str(callId))
    requires Lookup(v.fields, "name") == Some(Str(name))
    requires Lookup(v.fields, "arguments") == Some(Str(arguments))
    requires Lookup(v.fields, "status") == StatusJson(status)
    ensures ParseOutputItem(v) == Some(FunctionCall(id, callId, name, arguments, status))
  {
    if status.Some? {
      assert ParseToolStatus(ToolStatusName(status.value)) == Some(status.value);
    }
  }

  lemma FunctionCallRoundTrip(id: string, callId: string, name: string, arguments: string, status: Option<ToolStatus>)
    ensures var item := FunctionCall(id, callId, name, arguments, status);
            ParseOutputItem(OutputItemToJson(item)) == Some(item)
  {
    FunctionCallFields(id, callId, name, arguments, status);
    ParseFunctionCallOf(id, callId, name, arguments, status, OutputItemToJson(FunctionCall(id, callId, name, arguments, status)));
  }

  lemma FunctionCallOutputRoundTrip(callId: string, output: string)
    ensures ParseOutputItem(OutputItemToJson(FunctionCallOutput(callId, output))) == Some(FunctionCallOutput(callId, output))
  {
    var fields := OutputItemToJson(FunctionCallOutput(callId, output)).fields;
    LookupAt(fields, 0);
    LookupAt(fields, 1);
    LookupAt(fields, 2);
  }

  lemma ReasoningFields(id: string, summary: string, content: Option<string>)
    ensures var f := OutputItemToJson(Reasoning(id, summary, content)).fields;
      && Lookup(f, "type") == Some(Str("reasoning"))
      && Lookup(f, "id") == Some(Str(id))
      && Lookup(f, "summary") == Some(Str(summary))
      && Lookup(f, "content") == SomeStr(content)
  {
    var base: seq<(string, Json)> := [("type", Str("reasoning")), ("id", Str(id)), ("summary", Str(summary))];
    var opt := [("content", SomeStr(content))];
    assert OutputItemToJson(Reasoning(id, summary, content)).fields == base + Optionals(opt);
    LookupRequired(base, opt, 0);
    LookupRequired(base, opt, 1);
    LookupRequired(base, opt, 2);
    LookupOptionalKey(base, opt, 0);
  }

  lemma ParseReasoningOf(id: string, summary: string, content: Option<string>, v: Json)
    requires v.Obj?
    requires Lookup(v.fields, "type") == Some(Str("reasoning"))
    requires Lookup(v.fields, "id") == Some(Str(id))
    requires Lookup(v.fields, "summary") == Some(Str(summary))
    requires Lookup(v.fields, "content") == SomeStr(content)
    ensures ParseOutputItem(v) == Some(Reasoning(id, summary, content))
  {
  }

  lemma ReasoningRoundTrip(id: string, summary: string, content: Option<string>)
    ensures ParseOutputItem(OutputItemToJson(Reasoning(id, summary, content))) == Some(Reasoning(id, summary, content))
  {
    ReasoningFields(id, summary, content);
    ParseReasoningOf(id, summary, content, OutputItemToJson(Reasoning(id, summary, content)));
  }

  lemma ErrorItemRoundTrip(code: string, message: string)
    ensures ParseOutputItem(OutputItemToJson(ErrorItem(code, message))) == Some(ErrorItem(code, message))
  {
    var fields := OutputItemToJson(ErrorItem(code, message)).fields;
    LookupAt(fields, 0);
    LookupAt(fields, 1);
    LookupAt(fields, 2);
  }

  /** Every output item survives encoding and validation unchanged. */
  lemma OutputItemRoundTrip(item: OutputItem)
    ensures ParseOutputItem(OutputItemToJson(item)) == Some(item)
  {
    match item
    case Message(id, content) => MessageRoundTrip(id, content);
    case FunctionCall(id, callId, name, arguments, status) => FunctionCallRoundTrip(id, callId, name, arguments, status);
    case FunctionCallOutput(callId, output) => FunctionCallOutputRoundTrip(callId, output);
    case Reasoning(id, summary, content) => ReasoningRoundTrip(id, summary, content);
    case ErrorItem(code, message) => ErrorItemRoundTrip(code, message);
  }

  lemma ParseOutputItemsOf(js: seq<Json>, items: seq<OutputItem>)
    requires |js| == |items|
    requires forall i :: 0 <= i < |js| ==> ParseOutputItem(js[i]) == Some(items[i])
    ensures ParseOutputItems(js) == Some(items)
  {
    ParseEachOf(js, ParseOutputItem, items);
  }

  lemma OutputItemsRoundTrip(items: seq<OutputItem>)
    ensures ParseOutputItems(OutputItemsToJson(items)) == Some(items)
  {
    var js := OutputItemsToJson(items);
    forall i | 0 <= i < |items| ensures ParseOutputItem(js[i]) == Some(items[i]) {
      OutputItemRoundTrip(items[i]);
    }
    ParseOutputItemsOf(js, items);
  }

  /** Every history item survives encoding and validation unchanged: an agent's message
      (role "assistant") is never mistaken for a caller-authored one. */
  lemma InputItemRoundTrip(h: InputItem)
    ensures ParseInputItem(InputItemToJson(h)) == Some(h)
  {
    match h
    case InputMessage(role, text) =>
      var fields := InputItemToJson(h).fields;
      LookupAt(fields, 0);
      LookupAt(fields, 1);
      LookupAt(fields, 2);
      assert ParseInputRole(InputRoleName(role)) == Some(role);
    case Output(item) =>
      OutputItemRoundTrip(item);
      assert ParseInputMessage(InputItemToJson(h)).None? by {
        if item.Message? {
          assert ParseInputRole("assistant").None?;
        }
      }
  }

  lemma ParseInputItemsOf(js: seq<Json>, items: seq<InputItem>)
    requires |js| == |items|
    requires forall i :: 0 <= i < |js| ==> ParseInputItem(js[i]) == Some(items[i])
    ensures ParseInputItems(js) == Some(items)
  {
    ParseEachOf(js, ParseInputItem, items);
  }

  lemma InputItemsRoundTrip(items: seq<InputItem>)
    ensures ParseInputItems(InputItemsToJson(items)) == Some(items)
  {
    var js := InputItemsToJson(items);
    forall i | 0 <= i < |items| ensures ParseInputItem(js[i]) == Some(items[i]) {
      InputItemRoundTrip(items[i]);
    }
    ParseInputItemsOf(js, items);
  }

  lemma ItemDoneRoundTrip(item: OutputItem)
    ensures ParseStreamEvent(StreamEventToJson(OutputItemDone(item))) == Some(OutputItemDone(item))
  {
    var fields := StreamEventToJson(OutputItemDone(item)).fields;
    LookupAt(fields, 0);
    LookupAt(fields, 1);
    OutputItemRoundTrip(item);
  }

  lemma TextDeltaFields(delta: string, itemId: string, outputIndex: Option<int>,
                        sequenceNumber: Option<int>, contentIndex: Option<int>)
    ensures var f := StreamEventToJson(TextDelta(delta, itemId, outputIndex, sequenceNumber, contentIndex)).fields;
      && Lookup(f, "type") == Some(Str("response.output_text.delta"))
      && Lookup(f, "delta") == Some(Str(delta))
      && Lookup(f, "item_id") == Some(Str(itemId))
      && Lookup(f, "output_index") == SomeNum(outputIndex)
      && Lookup(f, "sequence_number") == SomeNum(sequenceNumber)
      && Lookup(f, "content_index") == SomeNum(contentIndex)
  {
    var base: seq<(string, Json)> :=
      [("type", Str("response.output_text.delta")), ("delta", Str(delta)), ("item_id", Str(itemId))];
    var opt := [("output_index", SomeNum(outputIndex)), ("sequence_number", SomeNum(sequenceNumber)),
                ("content_index", SomeNum(contentIndex))];
    assert StreamEventToJson(TextDelta(delta, itemId, outputIndex, sequenceNumber, contentIndex)).fields
           == base + Optionals(opt);
    LookupRequired(base, opt, 0);
    LookupRequired(base, opt, 1);
    LookupRequired(base, opt, 2);
    LookupOptionalKey(base, opt, 0);
    LookupOptionalKey(base, opt, 1);
    LookupOptionalKey(base, opt, 2);
  }

  lemma ParseTextDeltaOf(delta: string, itemId: string, outputIndex: Option<int>,
                         sequenceNumber: Option<int>, contentIndex: Option<int>, v: Json)
    requires v.Obj?
    requires Lookup(v.fields, "type") == Some(Str("response.output_text.delta"))
    requires Lookup(v.fields, "delta") == Some(Str(delta))
    requires Lookup(v.fields, "item_id") == Some(Str(itemId))
    requires Lookup(v.fields, "output_index") == SomeNum(outputIndex)
    requires Lookup(v.fields, "sequence_number") == SomeNum(sequenceNumber)
    requires Lookup(v.fields, "content_index") == SomeNum(contentIndex)
    ensures ParseStreamEvent(v) == Some(TextDelta(delta, itemId, outputIndex, sequenceNumber, contentIndex))
  {
  }

  lemma TextDeltaRoundTrip(delta: string, itemId: string, outputIndex: Option<int>,
                           sequenceNumber: Option<int>, contentIndex: Option<int>)
    ensures var e := TextDelta(delta, itemId, outputIndex, sequenceNumber, contentIndex);
            ParseStreamEvent(StreamEventToJson(e)) == Some(e)
  {
    TextDeltaFields(delta, itemId, outputIndex, sequenceNumber, contentIndex);
    ParseTextDeltaOf(delta, itemId, outputIndex, sequenceNumber, contentIndex,
                     StreamEventToJson(TextDelta(delta, itemId, outputIndex, sequenceNumber, contentIndex)));
  }

  lemma ErrorEventRoundTrip(code: string, message: string)
    ensures ParseStreamEvent(StreamEventToJson(ErrorEvent(code, message))) == Some(ErrorEvent(code, message))
  {
    var fields := StreamEventToJson(ErrorEvent(code, message)).fields;
    LookupAt(fields, 0);
    LookupAt(fields, 1);
    LookupAt(fields, 2);
  }

  lemma AnnotationAddedFields(e: StreamEvent)
    requires e.AnnotationAdded?
    ensures var f := StreamEventToJson(e).fields;
      && Lookup(f, "annotation") == Some(AnnotationToJson(e.annotation))
      && Lookup(f, "annotation_index") == Some(Num(e.annotationIndex))
      && Lookup(f, "content_index") == Some(Num(e.annContentIndex))
      && Lookup(f, "item_id") == Some(Str(e.annItemId))
      && Lookup(f, "output_index") == Some(Num(e.annOutputIndex))
      && Lookup(f, "sequence_number") == Some(Num(e.annSequenceNumber))
      && Lookup(f, "type") == Some(Str("response.output_text.annotation.added"))
  {
    var fields := StreamEventToJson(e).fields;
    LookupAt(fields, 0);
    LookupAt(fields, 1);
    LookupAt(fields, 2);
    LookupAt(fields, 3);
    LookupAt(fields, 4);
    LookupAt(fields, 5);
    LookupAt(fields, 6);
  }

  lemma ParseAnnotationAddedOf(e: StreamEvent, v: Json, aj: Json)
    requires e.AnnotationAdded? && v.Obj?
    requires Get(v, "annotation") == Some(aj) && ParseAnnotation(aj) == Some(e.annotation)
    requires ReqInt(v, "annotation_index") == Some(e.annotationIndex)
    requires ReqInt(v, "content_index") == Some(e.annContentIndex)
    requires ReqStr(v, "item_id") == Some(e.annItemId)
    requires ReqInt(v, "output_index") == Some(e.annOutputIndex)
    requires ReqInt(v, "sequence_number") == Some(e.annSequenceNumber)
    requires Tag(v) == Some("response.output_text.annotation.added")
    ensures ParseStreamEvent(v) == Some(e)
  {
    AnnotationAddedFieldsParse(e, v, aj);
    assert ParseStreamEvent(v) == ParseAnnotationAdded(v);
  }

  lemma AnnotationAddedFieldsParse(e: StreamEvent, v: Json, aj: Json)
    requires e.AnnotationAdded?
    requires Get(v, "annotation") == Some(aj) && ParseAnnotation(aj) == Some(e.annotation)
    requires ReqInt(v, "annotation_index") == Some(e.annotationIndex)
    requires ReqInt(v, "content_index") == Some(e.annContentIndex)
    requires ReqStr(v, "item_id") == Some(e.annItemId)
    requires ReqInt(v, "output_index") == Some(e.annOutputIndex)
    requires ReqInt(v, "sequence_number") == Some(e.annSequenceNumber)
    ensures ParseAnnotationAdded(v) == Some(e)
  {
  }

  /** Every stream event survives encoding and validation unchanged. */
  lemma StreamEventRoundTrip(e: StreamEvent)
    ensures ParseStreamEvent(StreamEventToJson(e)) == Some(e)
  {
    match e
    case OutputItemDone(item) => ItemDoneRoundTrip(item);
    case TextDelta(delta, itemId, outputIndex, sequenceNumber, contentIndex) =>
      TextDeltaRoundTrip(delta, itemId, outputIndex, sequenceNumber, contentIndex);
    case ErrorEvent(code, message) => ErrorEventRoundTrip(code, message);
    case AnnotationAdded(_, _, _, _, _, _) =>
      AnnotationAddedFields(e);
      AnnotationRoundTrip(e.annotation);
      ParseAnnotationAddedOf(e, StreamEventToJson(e), AnnotationToJson(e.annotation));
  }

  lemma RequestFields(q: Request)
    ensures var f := RequestToJson(q).fields;
      && Lookup(f, "input") == Some(Arr(InputItemsToJson(q.input)))
      && Lookup(f, "stream") == SomeBool(q.stream)
      && Lookup(f, "databricks_options") == OptionsToJson(q.options)
  {
    var base: seq<(string, Json)> := [("input", Arr(InputItemsToJson(q.input)))];
    var opt := [("stream", SomeBool(q.stream)), ("databricks_options", OptionsToJson(q.options))];
    LookupRequired(base, opt, 0);
    LookupOptionalKey(base, opt, 0);
    LookupOptionalKey(base, opt, 1);
  }

  lemma ParseRequestOf(q: Request, v: Json, xs: seq<Json>)
    requires v.Obj?
    requires Lookup(v.fields, "input") == Some(Arr(xs)) && ParseInputItems(xs) == Some(q.input)
    requires Lookup(v.fields, "stream") == SomeBool(q.stream)
    requires ParseOptions(v) == Some(q.options)
    ensures ParseRequest(v) == Some(q)
  {
  }

  lemma ParseOptionsOf(o: Option<DatabricksOptions>, v: Json)
    requires v.Obj? && Lookup(v.fields, "databricks_options") == OptionsToJson(o)
    ensures ParseOptions(v) == Some(o)
  {
    if o.Some? {
      var opt := [("return_trace", SomeBool(o.value.returnTrace))];
      LookupOptionalKey([], opt, 0);
    }
  }

  /** Every request the UI builds survives encoding and validation unchanged. */
  lemma RequestRoundTrip(q: Request)
    ensures ParseRequest(RequestToJson(q)) == Some(q)
  {
    RequestFields(q);
    InputItemsRoundTrip(q.input);
    ParseOptionsOf(q.options, RequestToJson(q));
    ParseRequestOf(q, RequestToJson(q), InputItemsToJson(q.input));
  }

  // ----- the input-item union as written (validation.ts:74-77) ---------------------------------

  /** The first value of a discriminator list that an earlier position already holds, looking
      from position `k` on. */
  function FirstDuplicate(values: seq<string>, k: nat): (r: Option<string>)
    requires k <= |values|
    ensures r.Some? ==> exists i, j :: 0 <= i < j < |values| && values[i] == r.value && values[j] == r.value
    ensures r.None? ==> forall i, j :: 0 <= i < j < |values| && k <= j ==> values[i] != values[j]
    decreases |values| - k
  {
    if k == |values| then None
    else if values[k] in values[..k] then
      assert exists i :: 0 <= i < k && values[..k][i] == values[k];
      Some(values[k])
    else FirstDuplicate(values, k + 1)
  }

  /** Some value is claimed by two options of a discriminated union. */
  predicate SharedDiscriminator(values: seq<string>) {
    exists i, j :: 0 <= i < j < |values| && values[i] == values[j]
  }

  /** The discriminator values of `ResponseInputItemSchema`'s options, in order: the input
      message's, then those of the nested output-item union. */
  const InputItemDiscriminators: seq<string> :=
    ["message", "message", "function_call", "function_call_output", "reasoning", "error"]

  /** What Zod 4 throws when it builds a discriminated union's value map, which it does on the
      first parse that reaches an object. */
  function DuplicateDiscriminator(value: string): string {
    "Duplicate discriminator value \"" + value + "\""
  }

  /** `ResponsesAgentRequestSchema.parse` with the input-item union built over the discriminator
      values `discriminators`: `Err` is what the parse throws, `Ok(None)` a validation failure.
      When two options share a value, the first input element that is an object makes the
      union build its value map and throw; otherwise the union is the one `ParseRequest`
      uses. */
  function ParseRequestWith(discriminators: seq<string>, v: Json): (r: Result<Option<Request>, string>)
    ensures r.Err? <==> && SharedDiscriminator(discriminators)
                        && v.Obj? && Get(v, "input").Some? && Get(v, "input").value.Arr?
                        && exists i :: 0 <= i < |Get(v, "input").value.items| && Get(v, "input").value.items[i].Obj?
    ensures r.Err? ==> exists d :: r.error == DuplicateDiscriminator(d) && d in discriminators
    ensures r.Ok? ==> r.value == ParseRequest(v)
  {
    var dup := FirstDuplicate(discriminators, 0);
    if dup.Some? && v.Obj? && Get(v, "input").Some? && Get(v, "input").value.Arr?
       && exists i :: 0 <= i < |Get(v, "input").value.items| && Get(v, "input").value.items[i].Obj?
    then
      assert dup.value in discriminators;
      Err(DuplicateDiscriminator(dup.value))
    else Ok(ParseRequest(v))
  }

  /** The schema as written repeats "message": the input message and the output message both
      claim it. */
  lemma InputItemDiscriminatorsShared()
    ensures SharedDiscriminator(InputItemDiscriminators)
    ensures FirstDuplicate(InputItemDiscriminators, 0) == Some("message")
  {
    var d := InputItemDiscriminators;
    assert d[0] == d[1];
    assert d[0] !in d[..0];
    assert d[1] in d[..1];
  }

  lemma InputItemIsObject(h: InputItem)
    ensures InputItemToJson(h).Obj?
  {
  }

  /** As written, validating any request that carries history throws instead of accepting or
      rejecting it. */
  lemma RequestAsWrittenThrows(q: Request)
    requires |q.input| > 0
    ensures ParseRequestWith(InputItemDiscriminators, RequestToJson(q)) == Err(DuplicateDiscriminator("message"))
  {
    InputItemDiscriminatorsShared();
    RequestFields(q);
    var items := InputItemsToJson(q.input);
    InputItemIsObject(q.input[0]);
    assert items[0].Obj?;
  }

  /** Only a request with no history gets through the union as written, since no element
      reaches the union's parser. */
  lemma EmptyRequestAsWritten(q: Request)
    requires |q.input| == 0
    ensures ParseRequestWith(InputItemDiscriminators, RequestToJson(q)) == Ok(Some(q))
  {
    RequestFields(q);
    RequestRoundTrip(q);
  }

  /** With distinct discriminator values, as a plain union of the two options has, every
      request survives encoding and validation. */
  lemma RequestRoundTripCorrected(discriminators: seq<string>, q: Request)
    requires !SharedDiscriminator(discriminators)
    ensures ParseRequestWith(discriminators, RequestToJson(q)) == Ok(Some(q))
  {
    RequestRoundTrip(q);
  }

  function ResponseErrorJson(o: Option<ResponseError>): Option<Json> {
    if o.Some? then Some(Obj([("code", Str(o.value.code)), ("message", Str(o.value.message))])) else None
  }

  lemma ResponseFields(p: Response)
    ensures var f := ResponseToJson(p).fields;
      && Lookup(f, "id") == Some(Str(p.id))
      && Lookup(f, "output") == Some(Arr(OutputItemsToJson(p.output)))
      && Lookup(f, "error") == ResponseErrorJson(p.error)
  {
    var base: seq<(string, Json)> := [("id", Str(p.id)), ("output", Arr(OutputItemsToJson(p.output)))];
    var opt := [("error", ResponseErrorJson(p.error))];
    assert ResponseToJson(p).fields == base + Optionals(opt);
    LookupRequired(base, opt, 0);
    LookupRequired(base, opt, 1);
    LookupOptionalKey(base, opt, 0);
  }

  lemma ParseResponseOf(p: Response, v: Json)
    requires v.Obj?
    requires Lookup(v.fields, "id") == Some(Str(p.id))
    requires Lookup(v.fields, "output") == Some(Arr(OutputItemsToJson(p.output)))
    requires Lookup(v.fields, "error") == ResponseErrorJson(p.error)
    ensures ParseResponse(v) == Some(p)
  {
    OutputItemsRoundTrip(p.output);
    ParseResponseErrorOf(p.error, v);
    assert ReqStr(v, "id") == Some(p.id);
  }

  lemma ParseResponseErrorOf(error: Option<ResponseError>, v: Json)
    requires v.Obj? && Lookup(v.fields, "error") == ResponseErrorJson(error)
    ensures ParseResponseError(v) == Some(error)
  {
    if error.Some? {
      var fields := ResponseErrorJson(error).value.fields;
      LookupAt(fields, 0);
      LookupAt(fields, 1);
    }
  }

  /** Every response survives encoding and validation unchanged. */
  lemma ResponseRoundTrip(p: Response)
    ensures ParseResponse(ResponseToJson(p)) == Some(p)
  {
    ResponseFields(p);
    ParseResponseOf(p, ResponseToJson(p));
  }
}

=== FILE: server.dfy ===
/**
 * The general agent server (`AgentServer` with `AgentValidator`): three agent types, each
 * with its own request, response and chunk classes; requests are validated and converted
 * before the handler sees them, results are validated and converted to dicts afterwards.
 * The agent's handlers, model construction, the trace and the span-output reducers of
 * mlflow are parameters.
 */
module AgentServer {
  import opened Wrappers
  import opened Strings
  import opened Json
  import opened Framing
  import opened ServerCommon

  datatype AgentType = Responses | ChatV1 | ChatV2

  /** `str(self.agent_type)`, as the error messages print it. */
  function AgentTypeText(t: Option<AgentType>): string {
    match t
    case None => "None"
    case Some(Responses) => "agent/v1/responses"
    case Some(ChatV1) => "agent/v1/chat"
    case Some(ChatV2) => "agent/v2/chat"
  }

  /** What a handler receives: the request dict itself (no agent type), or the request
      object built from it. */
  datatype HandlerInput = AsDict(data: seq<(string, Json)>) | Built(cls: PyClass, data: seq<(string, Json)>)

  /** The invoke handler returns a value or raises with a message. */
  type InvokeFn = HandlerInput -> Result<PyValue, string>
  type StreamFn = HandlerInput -> StreamRun

  /** The agent's deployment: its type and the handlers registered with the decorators. */
  datatype Server = Server(agentType: Option<AgentType>, registry: Registry<InvokeFn, StreamFn>)

  /** What the model leaves to the libraries: model construction, the span-output reducer
      of the responses and chat-completions types (`None` when it does not raise), and the
      trace dict of the request's span. */
  datatype Env = Env(construct: Construct, reducer: seq<seq<(string, Json)>> -> Option<string>, trace: Json)

  // ----- validation ----------------------------------------------------------------------------

  /** `validate_pydantic`: an instance of the class passes; another model is reconstructed
      from its dump; anything else is constructed from directly. */
  function ValidatePydantic(construct: Construct, t: Option<AgentType>, cls: PyClass, data: PyValue): (r: Option<Raised>)
    ensures data.Model? && data.cls == cls ==> r.None?
    ensures data.Model? && data.cls != cls ==> (r.None? <==> construct(cls, Plain(Obj(data.dump))).None?)
    ensures !data.Model? ==> (r.None? <==> construct(cls, data).None?)
    ensures r.Some? ==> r.value.valueError
  {
    if data.Model? && data.cls == cls then None
    else
      var e := if data.Model? then construct(cls, Plain(Obj(data.dump))) else construct(cls, data);
      if e.None? then None else Some(InvalidData(cls, AgentTypeText(t), e.value))
  }

  function Chars(s: string): (r: seq<Json>)
    ensures |r| == |s| && forall i :: 0 <= i < |s| ==> r[i] == Str([s[i]])
  {
    if |s| == 0 then [] else [Str([s[0]])] + Chars(s[1..])
  }

  function Keys(fields: seq<(string, Json)>): (r: seq<Json>)
    ensures |r| == |fields| && forall i :: 0 <= i < |fields| ==> r[i] == Str(fields[i].0)
  {
    if |fields| == 0 then [] else [Str(fields[0].0)] + Keys(fields[1..])
  }

  /** `for msg in data.get("messages", [])`: absent means no messages; a list yields its
      items, a string its characters, a dict its keys; None, a bool or a number is not
      iterable, a `TypeError`. */
  function Iterate(v: Option<Json>): (r: Result<seq<Json>, Raised>)
    ensures v.None? ==> r == Ok([])
    ensures v.Some? && v.value.Arr? ==> r == Ok(v.value.items)
    ensures r.Err? <==> v.Some? && (v.value.Null? || v.value.Bool? || v.value.Num?)
    ensures r.Err? ==> !r.error.valueError
  {
    match v
    case None => Ok([])
    case Some(Arr(items)) => Ok(items)
    case Some(Str(s)) => Ok(Chars(s))
    case Some(Obj(fields)) => Ok(Keys(fields))
    case Some(x) => Err(Raised(false, "'" + PyTypeName(x) + "' object is not iterable"))
  }

  /** Each message must construct a `ChatMessage`; the first that does not raises. */
  function ValidateMessages(construct: Construct, t: Option<AgentType>, msgs: seq<Json>): (r: Option<Raised>)
    ensures r.None? <==> forall i :: 0 <= i < |msgs| ==> construct(ChatMessage, Plain(msgs[i])).None?
    ensures r.Some? ==> r.value.valueError
  {
    if |msgs| == 0 then None
    else
      var e := ValidateDataclass(construct, AgentTypeText(t), ChatMessage, Plain(msgs[0]));
      if e.Some? then e
      else
        var rest := ValidateMessages(construct, t, msgs[1..]);
        assert forall i :: 1 <= i < |msgs| ==> msgs[i] == msgs[1..][i - 1];
        rest
  }

  /** The request class of each agent type. */
  function RequestClass(t: AgentType): PyClass {
    match t
    case Responses => ResponsesAgentRequest
    case ChatV1 => ChatCompletionRequest
    case ChatV2 => ChatAgentRequest
  }

  /** `validate_and_convert_request`. Without an agent type the dict passes through; the
      pydantic types are validated and then built; the chat-completions type validates each
      message and then builds the request, whose own exception escapes as it is. */
  function ValidateRequest(construct: Construct, t: Option<AgentType>, data: seq<(string, Json)>): (r: Result<HandlerInput, Raised>)
    ensures t.None? ==> r == Ok(AsDict(data))
    ensures t.Some? && r.Ok? ==> r.value == Built(RequestClass(t.value), data)
                                 && construct(RequestClass(t.value), Plain(Obj(data))).None?
    ensures t.Some? && t.value != ChatV1 ==> (r.Ok? <==> construct(RequestClass(t.value), Plain(Obj(data))).None?)
    ensures t == Some(ChatV1) ==>
              (r.Ok? <==> (var msgs := Iterate(Lookup(data, "messages"));
                           && msgs.Ok?
                           && (forall i :: 0 <= i < |msgs.value| ==> construct(ChatMessage, Plain(msgs.value[i])).None?)
                           && construct(ChatCompletionRequest, Plain(Obj(data))).None?))
    ensures t.Some? && t.value != ChatV1 && r.Err? ==> r.error.valueError
  {
    match t
    case None => Ok(AsDict(data))
    case Some(ChatV1) =>
      (match Iterate(Lookup(data, "messages"))
       case Err(e) => Err(e)
       case Ok(msgs) =>
         var invalid := ValidateMessages(construct, t, msgs);
         if invalid.Some? then Err(invalid.value)
         else
           var e := construct(ChatCompletionRequest, Plain(Obj(data)));
           if e.Some? then Err(e.value) else Ok(Built(ChatCompletionRequest, data)))
    case Some(kind) =>
      var e := ValidatePydantic(construct, t, RequestClass(kind), Plain(Obj(data)));
      if e.Some? then Err(e.value) else Ok(Built(RequestClass(kind), data))
  }

  /** `validate_invoke_response` / `validate_stream_response`. */
  function ValidateResult(construct: Construct, t: Option<AgentType>, result: PyValue, stream: bool): (r: Option<Raised>)
    ensures t.None? ==> r.None?
    ensures r.Some? ==> r.value.valueError
  {
    match t
    case None => None
    case Some(Responses) =>
      ValidatePydantic(construct, t, if stream then ResponsesAgentStreamEvent else ResponsesAgentResponse, result)
    case Some(ChatV1) =>
      ValidateDataclass(construct, AgentTypeText(t), if stream then ChatCompletionChunk else ChatCompletionResponse, result)
    case Some(ChatV2) =>
      if stream then ValidateDataclass(construct, AgentTypeText(t), ChatAgentChunk, result)
      else ValidatePydantic(construct, t, ChatAgentResponse, result)
  }

  /** `validate_and_convert_result`: validation first, then the dict conversion. */
  function ConvertResult(construct: Construct, t: Option<AgentType>, result: PyValue, stream: bool): (r: Result<seq<(string, Json)>, Raised>)
    ensures r.Ok? <==> ValidateResult(construct, t, result, stream).None? && ToDict(result).Ok?
    ensures r.Ok? ==> r == ToDict(result)
    ensures t.None? ==> r == ToDict(result)
  {
    var invalid := ValidateResult(construct, t, result, stream);
    if invalid.Some? then Err(invalid.value) else ToDict(result)
  }

  // ----- handlers ------------------------------------------------------------------------------

  /** `_handle_invoke_request`. Every exception after the handler lookup — the handler's
      own, or a validation or conversion error — becomes a 500 carrying its message; the
      trace is added under "databricks_output" only when requested. */
  function HandleInvoke(server: Server, env: Env, data: HandlerInput, returnTrace: bool): (r: Reply)
    ensures server.registry.invoke.None? ==> r == ErrorReply(500, "No invoke function registered")
    ensures server.registry.invoke.Some? && server.registry.invoke.value(data).Err? ==>
              r == ErrorReply(500, server.registry.invoke.value(data).error)
    ensures r.JsonBody? <==> server.registry.invoke.Some? && server.registry.invoke.value(data).Ok?
                             && ConvertResult(env.construct, server.agentType, server.registry.invoke.value(data).value, false).Ok?
    ensures r.JsonBody? ==>
              var fields := ConvertResult(env.construct, server.agentType, server.registry.invoke.value(data).value, false).value;
              && r.body.Obj?
              && (returnTrace ==> r.body.fields == Set(fields, "databricks_output", DatabricksOutput(env.trace)))
              && (!returnTrace ==> r.body.fields == fields)
    ensures r.ErrorReply? ==> r.status == 500
  {
    match server.registry.invoke
    case None => ErrorReply(500, "No invoke function registered")
    case Some(f) =>
      match f(data)
      case Err(message) => ErrorReply(500, message)
      case Ok(result) =>
        match ConvertResult(env.construct, server.agentType, result, false)
        case Err(e) => ErrorReply(500, e.message)
        case Ok(fields) =>
          JsonBody(Obj(if returnTrace then Set(fields, "databricks_output", DatabricksOutput(env.trace)) else fields))
  }

  /** Whether every chunk has a "delta" key. */
  predicate AllHaveDelta(chunks: seq<seq<(string, Json)>>) {
    forall i :: 0 <= i < |chunks| ==> Lookup(chunks[i], "delta").Some?
  }

  /** The span output computed after the last chunk: the chat-agent type collects every
      chunk's "delta" (a `KeyError` when one lacks it), an untyped server records the
      chunks as they are, and the other two types call a reducer. */
  function SpanFailure(t: Option<AgentType>, env: Env, chunks: seq<seq<(string, Json)>>): (r: Option<string>)
    ensures t.None? ==> r.None?
    ensures t == Some(ChatV2) ==> (r.None? <==> AllHaveDelta(chunks))
  {
    match t
    case None => None
    case Some(ChatV2) => if AllHaveDelta(chunks) then None else Some("'delta'")
    case Some(_) => env.reducer(chunks)
  }

  /** The server's conversion of a stream run: each chunk converted for its agent type, the
      span reduced as that type does. */
  function Emitter(server: Server, env: Env): StreamRun -> Emitted {
    (run: StreamRun) =>
      RunStream((c: PyValue) => ConvertResult(env.construct, server.agentType, c, true), run,
                (cs: seq<seq<(string, Json)>>) => SpanFailure(server.agentType, env, cs))
  }

  /** The error reply for a request that failed validation: a `ValueError` is a 400 naming
      the agent type; anything else escapes. */
  function RejectRequest(t: Option<AgentType>, e: Raised): (r: Reply)
    ensures e.valueError ==> r.ErrorReply? && r.status == 400
                             && StartsWith(r.detail, "Invalid parameters for " + AgentTypeText(t) + ": ")
                             && EndsWith(r.detail, e.message)
    ensures !e.valueError ==> r == Unhandled
  {
    if e.valueError then
      var prefix := "Invalid parameters for " + AgentTypeText(t) + ": ";
      assert (prefix + e.message)[..|prefix|] == prefix;
      assert (prefix + e.message)[|prefix|..] == e.message;
      ErrorReply(400, prefix + e.message)
    else Unhandled
  }

  /** `POST /invocations`. `body` is the parsed body, or the text of the parse error. A body
      that is not JSON is a 400; a valid request goes to the handler its `stream` flag picks,
      a 500 when that handler is missing; and the only event streams are those of a
      registered stream handler, which a receiver reads back intact. */
  function Invocations(server: Server, env: Env, body: Result<Json, string>): (r: Reply)
    ensures body.Err? ==> r == ErrorReply(400, "Invalid JSON in request body: " + body.error)
    ensures r.EventStream? ==> && server.registry.stream.Some?
                               && Interpret(Frames(r.payloads)) == r.payloads
                               && |r.payloads| > 0 && r.payloads[|r.payloads| - 1] == DonePayload
    ensures ReadRequest(body).Ok? && ValidateRequest(env.construct, server.agentType, ReadRequest(body).value.requestData).Ok? ==>
              var p := ReadRequest(body).value;
              && (p.isStreaming && server.registry.stream.None? ==> r == ErrorReply(500, "No stream function registered"))
              && (p.isStreaming && server.registry.stream.Some? ==> r.EventStream?)
              && (!p.isStreaming && server.registry.invoke.None? ==> r == ErrorReply(500, "No invoke function registered"))
  {
    match ReadRequest(body)
    case Err(reply) => reply
    case Ok(p) =>
      match ValidateRequest(env.construct, server.agentType, p.requestData)
      case Err(e) => RejectRequest(server.agentType, e)
      case Ok(input) =>
        if p.isStreaming then StreamReply(server.registry.stream, input, Emitter(server, env), p.returnTrace, env.trace)
        else HandleInvoke(server, env, input, p.returnTrace)
  }

  // ----- properties of the endpoint ------------------------------------------------------------

  /** A body that is not JSON is a 400 whatever the server. */
  lemma MalformedBody(server: Server, env: Env, error: string)
    ensures Invocations(server, env, Err(error)) == ErrorReply(400, "Invalid JSON in request body: " + error)
  {
  }

  /** The handler is called with the body minus `stream` (as a dict when there is no agent
      type), and `stream` picks the handler; every other key reaches the handler unchanged. */
  lemma HandlerInputOf(server: Server, env: Env, fields: seq<(string, Json)>)
    requires server.agentType.None?
    requires Lookup(fields, "databricks_options").None?
    ensures var data := Remove(fields, "stream");
            && Lookup(data, "stream").None?
            && (forall k :: k != "stream" ==> Lookup(data, k) == Lookup(fields, k))
            && Invocations(server, env, Ok(Obj(fields))) ==
                 (if FlagOf(fields, "stream") then StreamReply(server.registry.stream, AsDict(data), Emitter(server, env), false, env.trace)
                  else HandleInvoke(server, env, AsDict(data), false))
  {
  }

  /** A request with an invalid parameter is a 400 before any handler runs; the chat
      message check happens before the request class is built. */
  lemma InvalidParameters(server: Server, env: Env, fields: seq<(string, Json)>, p: Prelude)
    requires ReadRequest(Ok(Obj(fields))) == Ok(p)
    requires ValidateRequest(env.construct, server.agentType, p.requestData).Err?
    requires ValidateRequest(env.construct, server.agentType, p.requestData).error.valueError
    ensures var r := Invocations(server, env, Ok(Obj(fields)));
            r.ErrorReply? && r.status == 400
            && StartsWith(r.detail, "Invalid parameters for " + AgentTypeText(server.agentType) + ": ")
  {
  }

  /** Chat-completions requests whose "messages" is None, a bool or a number are not a 400:
      iterating it raises a `TypeError`, which escapes as a 500. */
  lemma NonIterableMessages(server: Server, env: Env, fields: seq<(string, Json)>)
    requires server.agentType == Some(ChatV1)
    requires Lookup(fields, "databricks_options").None?
    requires var m := Lookup(fields, "messages"); m.Some? && (m.value.Null? || m.value.Bool? || m.value.Num?)
    ensures Invocations(server, env, Ok(Obj(fields))) == Unhandled
  {
    assert Lookup(Remove(fields, "stream"), "messages") == Lookup(fields, "messages");
  }

  /** Without a registered handler the request is a 500 naming the missing handler. */
  lemma MissingHandler(server: Server, env: Env, fields: seq<(string, Json)>, p: Prelude)
    requires ReadRequest(Ok(Obj(fields))) == Ok(p)
    requires ValidateRequest(env.construct, server.agentType, p.requestData).Ok?
    ensures !p.isStreaming && server.registry.invoke.None? ==>
              Invocations(server, env, Ok(Obj(fields))) == ErrorReply(500, "No invoke function registered")
    ensures p.isStreaming && server.registry.stream.None? ==>
              Invocations(server, env, Ok(Obj(fields))) == ErrorReply(500, "No stream function registered")
  {
  }

  /** A successful invoke carries the trace under "databricks_output" exactly when it was
      requested; otherwise the converted result is returned as it is. */
  lemma TraceOnRequest(server: Server, env: Env, data: HandlerInput, returnTrace: bool)
    requires HandleInvoke(server, env, data, returnTrace).JsonBody?
    ensures var r := HandleInvoke(server, env, data, returnTrace);
            var fields := ToDict(server.registry.invoke.value(data).value).value;
            && (returnTrace ==> Lookup(r.body.fields, "databricks_output") == Some(DatabricksOutput(env.trace)))
            && (!returnTrace ==> r.body.fields == fields)
            && (forall k :: k != "databricks_output" ==> Lookup(r.body.fields, k) == Lookup(fields, k))
  {
  }
}

=== FILE: server_common.dfy ===
/**
 * What the two FastAPI agent servers share: the Python values a handler can return, the
 * type dispatch that turns a result into a dict, the once-only handler registry, the
 * prelude of the `/invocations` endpoint (body parse, `stream` and `return_trace` flags,
 * `stream` key stripped) and the event-stream payload sequence the stream generator emits.
 * Model construction (pydantic or dataclass) is abstract: a `Construct` oracle says whether
 * `cls(**data)` raises and with what message.
 */
module ServerCommon {
  import opened Wrappers
  import opened Strings
  import opened Json
  import opened Framing

  /** The request, response and chunk classes the validators construct. */
  datatype PyClass =
    | ResponsesAgentRequest | ResponsesAgentResponse | ResponsesAgentStreamEvent
    | ChatMessage | ChatCompletionRequest | ChatCompletionResponse | ChatCompletionChunk
    | ChatAgentRequest | ChatAgentResponse | ChatAgentChunk

  function ClassName(c: PyClass): string {
    match c
    case ResponsesAgentRequest => "ResponsesAgentRequest"
    case ResponsesAgentResponse => "ResponsesAgentResponse"
    case ResponsesAgentStreamEvent => "ResponsesAgentStreamEvent"
    case ChatMessage => "ChatMessage"
    case ChatCompletionRequest => "ChatCompletionRequest"
    case ChatCompletionResponse => "ChatCompletionResponse"
    case ChatCompletionChunk => "ChatCompletionChunk"
    case ChatAgentRequest => "ChatAgentRequest"
    case ChatAgentResponse => "ChatAgentResponse"
    case ChatAgentChunk => "ChatAgentChunk"
  }

  /** A Python value at the handler boundary: a pydantic model (with its full `model_dump()`),
      a dataclass instance (with its `asdict()`), a decoded JSON value, or any other object
      (with its type name and `str()`). */
  datatype PyValue =
    | Model(cls: PyClass, dump: seq<(string, Json)>)
    | Dataclass(cls: PyClass, fields: seq<(string, Json)>)
    | Plain(v: Json)
    | Opaque(typeName: string, text: string)

  /** A raised exception: whether it is a `ValueError` (or subclass), and `str(e)`. */
  datatype Raised = Raised(valueError: bool, message: string)

  /** `cls(**value)`: `None` when construction succeeds, otherwise what it raises. */
  type Construct = (PyClass, PyValue) -> Option<Raised>

  /** The `ValueError` a validator raises when construction fails, naming the class and
      the server's agent type (`agentType` is its `str()`, "None" when unset). */
  function InvalidData(cls: PyClass, agentType: string, cause: Raised): (e: Raised)
    ensures e.valueError
    ensures EndsWith(e.message, cause.message)
  {
    var prefix := "Invalid data for " + ClassName(cls) + " (agent_type: " + agentType + "): ";
    assert (prefix + cause.message)[|prefix|..] == cause.message;
    Raised(true, prefix + cause.message)
  }

  /** `validate_dataclass`: an instance of the class passes, anything else must construct. */
  function ValidateDataclass(construct: Construct, agentType: string, cls: PyClass, data: PyValue): (r: Option<Raised>)
    ensures data.Dataclass? && data.cls == cls ==> r.None?
    ensures !(data.Dataclass? && data.cls == cls) ==> (r.None? <==> construct(cls, data).None?)
    ensures r.Some? ==> r.value.valueError
  {
    if data.Dataclass? && data.cls == cls then None
    else
      var e := construct(cls, data);
      if e.None? then None else Some(InvalidData(cls, agentType, e.value))
  }

  // ----- result conversion -------------------------------------------------------------------

  /** `model_dump(exclude_none=True)` on a dump: the fields whose value is not None, in order. */
  function ExcludeNone(dump: seq<(string, Json)>): (r: seq<(string, Json)>)
    ensures forall i :: 0 <= i < |r| ==> r[i].1 != Null && r[i] in dump
    ensures forall i :: 0 <= i < |dump| && dump[i].1 != Null ==> dump[i] in r
    ensures |r| <= |dump|
  {
    if |dump| == 0 then []
    else (if dump[0].1 == Null then [] else [dump[0]]) + ExcludeNone(dump[1..])
  }

  /** Python's `type(v).__name__` for a decoded JSON value. */
  function PyTypeName(v: Json): string {
    match v
    case Null => "NoneType"
    case Bool(_) => "bool"
    case Num(_) => "int"
    case Str(_) => "str"
    case Arr(_) => "list"
    case Obj(_) => "dict"
  }

  /** `repr()` of a decoded JSON value; strings are single-quoted. */
  function PyRepr(v: Json): string
    decreases v, 1
  {
    match v
    case Null => "None"
    case Bool(b) => if b then "True" else "False"
    case Num(n) => IntToString(n)
    case Str(s) => "'" + s + "'"
    case Arr(items) => "[" + PyReprItems(items) + "]"
    case Obj(fields) => "{" + PyReprFields(fields) + "}"
  }

  function PyReprItems(items: seq<Json>): string
    decreases items, 0
  {
    if |items| == 0 then ""
    else if |items| == 1 then PyRepr(items[0])
    else PyRepr(items[0]) + ", " + PyReprItems(items[1..])
  }

  function PyReprFields(fields: seq<(string, Json)>): string
    decreases fields, 0
  {
    if |fields| == 0 then ""
    else
      assert fields[0] in fields && fields[0].1 < fields[0];
      var member := "'" + fields[0].0 + "': " + PyRepr(fields[0].1);
      if |fields| == 1 then member else member + ", " + PyReprFields(fields[1..])
  }

  /** `str()` of a decoded JSON value: a string is itself, anything else its `repr()`. */
  function PyStr(v: Json): string {
    if v.Str? then v.s else PyRepr(v)
  }

  function Unsupported(typeName: string, text: string): Raised {
    Raised(true, "Result needs to be a pydantic model, dataclass, or dict. Unsupported result type: <class '"
                 + typeName + "'>, result: " + text)
  }

  /** The conversion half of `validate_and_convert_result`: a model becomes its dump without
      None fields, a dataclass its `asdict()`, a dict itself; anything else raises. */
  function ToDict(result: PyValue): (r: Result<seq<(string, Json)>, Raised>)
    ensures result.Model? ==> r == Ok(ExcludeNone(result.dump))
    ensures result.Dataclass? ==> r == Ok(result.fields)
    ensures result.Plain? && result.v.Obj? ==> r == Ok(result.v.fields)
    ensures r.Err? <==> (result.Plain? && !result.v.Obj?) || result.Opaque?
    ensures r.Err? ==> r.error.valueError
  {
    match result
    case Model(_, dump) => Ok(ExcludeNone(dump))
    case Dataclass(_, fields) => Ok(fields)
    case Plain(v) => if v.Obj? then Ok(v.fields) else Err(Unsupported(PyTypeName(v), PyStr(v)))
    case Opaque(typeName, text) => Err(Unsupported(typeName, text))
  }

  // ----- handler registry --------------------------------------------------------------------

  /** The module-level `_invoke_function` and `_stream_function`. */
  datatype Registry<I, S> = Registry(invoke: Option<I>, stream: Option<S>)

  function EmptyRegistry<I, S>(): Registry<I, S> {
    Registry(None, None)
  }

  /** `@invoke()`: registers `f` unless a function is registered already, in which case
      it raises and the registry keeps the first function. */
  function RegisterInvoke<I, S>(reg: Registry<I, S>, f: I): (r: (Registry<I, S>, Option<Raised>))
    ensures r.0.stream == reg.stream
    ensures reg.invoke.None? ==> r.0.invoke == Some(f) && r.1.None?
    ensures reg.invoke.Some? ==> r.0 == reg && r.1 == Some(Raised(true, "invoke decorator can only be used once"))
  {
    if reg.invoke.Some? then (reg, Some(Raised(true, "invoke decorator can only be used once")))
    else (reg.(invoke := Some(f)), None)
  }

  /** `@stream()`, with the same once-only rule. */
  function RegisterStream<I, S>(reg: Registry<I, S>, f: S): (r: (Registry<I, S>, Option<Raised>))
    ensures r.0.invoke == reg.invoke
    ensures reg.stream.None? ==> r.0.stream == Some(f) && r.1.None?
    ensures reg.stream.Some? ==> r.0 == reg && r.1 == Some(Raised(true, "stream decorator can only be used once"))
  {
    if reg.stream.Some? then (reg, Some(Raised(true, "stream decorator can only be used once")))
    else (reg.(stream := Some(f)), None)
  }

  /** Applying `@invoke()` to each of `fs` in turn; the errors raised, in order. */
  function RegisterInvokes<I, S>(reg: Registry<I, S>, fs: seq<I>): (Registry<I, S>, seq<Raised>)
    decreases |fs|
  {
    if |fs| == 0 then (reg, [])
    else
      var (next, e) := RegisterInvoke(reg, fs[0]);
      var (last, errors) := RegisterInvokes(next, fs[1..]);
      (last, (if e.Some? then [e.value] else []) + errors)
  }

  /** Once a function is registered, every further registration raises and changes nothing. */
  lemma {:induction false} RegisteredStays<I, S>(reg: Registry<I, S>, fs: seq<I>)
    requires reg.invoke.Some?
    ensures RegisterInvokes(reg, fs).0 == reg
    ensures |RegisterInvokes(reg, fs).1| == |fs|
    decreases |fs|
  {
    if |fs| > 0 {
      RegisteredStays(reg, fs[1..]);
    }
  }

  /** Decorating several functions on a fresh server: the first one is the handler, and every
      later decoration raises. */
  lemma FirstRegistrationWins<I, S>(fs: seq<I>)
    requires |fs| > 0
    ensures RegisterInvokes(EmptyRegistry<I, S>(), fs).0.invoke == Some(fs[0])
    ensures |RegisterInvokes(EmptyRegistry<I, S>(), fs).1| == |fs| - 1
  {
    var first := RegisterInvoke(EmptyRegistry<I, S>(), fs[0]).0;
    RegisteredStays(first, fs[1..]);
  }

  // ----- the endpoint prelude ----------------------------------------------------------------

  /** What `/invocations` answers: an HTTP error with its detail, a JSON body, or an event
      stream given by the `data` payloads of its frames (the body is `Frames(payloads)`). */
  datatype Reply = ErrorReply(status: int, detail: string) | JsonBody(body: Json) | EventStream(payloads: seq<string>)

  /** FastAPI's answer to an exception that is not an `HTTPException`. */
  const Unhandled: Reply := ErrorReply(500, "Internal Server Error")

  datatype Prelude = Prelude(isStreaming: bool, returnTrace: bool, requestData: seq<(string, Json)>)

  /** `dict.get(key, False)` followed by a truth test. */
  predicate FlagOf(fields: seq<(string, Json)>, key: string) {
    var v := Lookup(fields, key);
    v.Some? && PyTruthy(v.value)
  }

  /** The endpoint up to validation: a body that is not JSON is a 400; a body that is not an
      object, or whose `databricks_options` is present but not an object, fails on `.get`
      (an unhandled error); otherwise the two flags default to false and the request passed
      on is the body without `stream`. `body` is `request.json()`, or the text of its error. */
  function ReadRequest(body: Result<Json, string>): (r: Result<Prelude, Reply>)
    ensures body.Err? ==> r == Err(ErrorReply(400, "Invalid JSON in request body: " + body.error))
    ensures r.Ok? <==> body.Ok? && body.value.Obj? &&
                       (var o := Lookup(body.value.fields, "databricks_options"); o.None? || o.value.Obj?)
    ensures r.Err? && body.Ok? ==> r.error == Unhandled
    ensures r.Ok? ==> var fields := body.value.fields;
                      && r.value.isStreaming == FlagOf(fields, "stream")
                      && (Lookup(fields, "databricks_options").None? ==> !r.value.returnTrace)
                      && (Lookup(fields, "databricks_options").Some? ==>
                            r.value.returnTrace == FlagOf(Lookup(fields, "databricks_options").value.fields, "return_trace"))
                      && Lookup(r.value.requestData, "stream").None?
                      && (forall k :: k != "stream" ==> Lookup(r.value.requestData, k) == Lookup(fields, k))
  {
    match body
    case Err(e) => Err(ErrorReply(400, "Invalid JSON in request body: " + e))
    case Ok(data) =>
      if !data.Obj? then Err(Unhandled)
      else
        var options := Lookup(data.fields, "databricks_options");
        if options.Some? && !options.value.Obj? then Err(Unhandled)
        else
          var returnTrace := options.Some? && FlagOf(options.value.fields, "return_trace");
          Ok(Prelude(FlagOf(data.fields, "stream"), returnTrace, Remove(data.fields, "stream")))
  }

  // ----- the event stream --------------------------------------------------------------------

  /** What the agent's generator does: the chunks it yields, then either it returns (`None`)
      or it raises with the given message. */
  datatype StreamRun = StreamRun(chunks: seq<PyValue>, raised: Option<string>)

  /** What the server sends before its closing frames: the converted chunks, and the message
      of the exception that ended the stream, if any. */
  datatype Emitted = Emitted(chunks: seq<seq<(string, Json)>>, failure: Option<string>)

  /** Validating and converting the chunks in yield order; the first failure stops the loop. */
  function ConvertChunks(convert: PyValue -> Result<seq<(string, Json)>, Raised>, chunks: seq<PyValue>): (r: Emitted)
    ensures |r.chunks| <= |chunks|
    ensures forall i :: 0 <= i < |r.chunks| ==> convert(chunks[i]) == Ok(r.chunks[i])
    ensures r.failure.None? ==> |r.chunks| == |chunks|
    ensures r.failure.Some? ==> |r.chunks| < |chunks| && convert(chunks[|r.chunks|]).Err?
                                && r.failure.value == convert(chunks[|r.chunks|]).error.message
  {
    if |chunks| == 0 then Emitted([], None)
    else
      match convert(chunks[0])
      case Err(e) => Emitted([], Some(e.message))
      case Ok(first) =>
        var rest := ConvertChunks(convert, chunks[1..]);
        Emitted([first] + rest.chunks, rest.failure)
  }

  /** The body of the generator's `try`: chunk conversion, then the agent's own exception,
      then the span-output computation over all chunks (`spanFailure`), whichever raises
      first. */
  function RunStream(convert: PyValue -> Result<seq<(string, Json)>, Raised>, run: StreamRun,
                     spanFailure: seq<seq<(string, Json)>> -> Option<string>): (r: Emitted)
    ensures r.chunks == ConvertChunks(convert, run.chunks).chunks
    ensures r.failure.None? <==> ConvertChunks(convert, run.chunks).failure.None? && run.raised.None?
                                 && spanFailure(r.chunks).None?
  {
    var converted := ConvertChunks(convert, run.chunks);
    if converted.failure.Some? then converted
    else if run.raised.Some? then Emitted(converted.chunks, run.raised)
    else Emitted(converted.chunks, spanFailure(converted.chunks))
  }

  const DonePayload: string := "[DONE]"

  /** `_get_databricks_output`: the trace's dict under "trace". */
  function DatabricksOutput(trace: Json): Json {
    Obj([("trace", trace)])
  }

  function TracePayload(trace: Json): string {
    Dumps(Obj([("databricks_output", DatabricksOutput(trace))]))
  }

  function ErrorPayload(message: string): string {
    Dumps(Obj([("error", Str(message))]))
  }

  function ChunkPayloads(chunks: seq<seq<(string, Json)>>): (r: seq<string>)
    ensures |r| == |chunks|
    ensures forall i :: 0 <= i < |r| ==> r[i] == Dumps(Obj(chunks[i]))
  {
    if |chunks| == 0 then [] else [Dumps(Obj(chunks[0]))] + ChunkPayloads(chunks[1..])
  }

  /** The payloads of the frames `generate()` yields. */
  function Generate(e: Emitted, returnTrace: bool, trace: Json): (r: seq<string>)
    ensures |r| == |e.chunks| + (if e.failure.Some? || returnTrace then 2 else 1)
    ensures r[..|e.chunks|] == ChunkPayloads(e.chunks)
    ensures r[|r| - 1] == DonePayload
    ensures e.failure.Some? ==> r[|r| - 2] == ErrorPayload(e.failure.value)
    ensures e.failure.None? && returnTrace ==> r[|r| - 2] == TracePayload(trace)
  {
    var closing := if e.failure.Some? then [ErrorPayload(e.failure.value)]
                   else if returnTrace then [TracePayload(trace)]
                   else [];
    var r := ChunkPayloads(e.chunks) + closing + [DonePayload];
    assert r[..|e.chunks|] == ChunkPayloads(e.chunks);
    r
  }

  /** Every payload the server frames is `json.dumps` output of a dict, except the closing
      `[DONE]`, so `[DONE]` is the last frame and only the last one. */
  lemma DoneOnlyLast(e: Emitted, returnTrace: bool, trace: Json)
    ensures var r := Generate(e, returnTrace, trace);
            forall i :: 0 <= i < |r| - 1 ==> r[i] != DonePayload && r[i][0] == '{'
  {
    var r := Generate(e, returnTrace, trace);
    forall i | 0 <= i < |r| - 1 ensures r[i] != DonePayload && r[i][0] == '{' {
      if i < |e.chunks| {
        assert r[i] == r[..|e.chunks|][i] == Dumps(Obj(e.chunks[i]));
        ObjectText(e.chunks[i]);
      } else if e.failure.Some? {
        ObjectText([("error", Str(e.failure.value))]);
      } else {
        ObjectText([("databricks_output", DatabricksOutput(trace))]);
      }
    }
  }

  lemma ObjectText(fields: seq<(string, Json)>)
    ensures Dumps(Obj(fields))[0] == '{' && Dumps(Obj(fields)) != DonePayload
  {
    assert Dumps(Obj(fields)) == "{" + DumpsFields(fields) + "}";
  }

  lemma PrintableSingleLine(s: string)
    requires Printable(s)
    ensures SingleLine(s)
  {
    forall i | 0 <= i < |s| ensures s[i] != '\n' {
    }
  }

  /** The payloads survive framing: a receiver interpreting the stream's body as an event
      stream dispatches exactly these payloads, in order, because `json.dumps` output never
      holds a line break. */
  lemma StreamRoundTrip(e: Emitted, returnTrace: bool, trace: Json)
    ensures var r := Generate(e, returnTrace, trace);
            Interpret(Frames(r)) == r
  {
    var r := Generate(e, returnTrace, trace);
    DoneOnlyLast(e, returnTrace, trace);
    forall i | 0 <= i < |r| ensures SingleLine(r[i]) {
      if i < |e.chunks| {
        assert r[i] == r[..|e.chunks|][i] == Dumps(Obj(e.chunks[i]));
        PrintableSingleLine(r[i]);
      } else if i < |r| - 1 {
        PrintableSingleLine(r[i]);
      } else {
        assert r[i] == "[DONE]";
      }
    }
    FramesRoundTrip(r);
  }

  /** `_handle_stream_request`: with no stream function registered, a 500; otherwise the
      event stream `generate()` yields for the function's run on `data`, where `emit` is the
      server's conversion of the run. The receiver gets those payloads back intact from the
      frames, `[DONE]` last. */
  function StreamReply<D>(stream: Option<D -> StreamRun>, data: D, emit: StreamRun -> Emitted,
                          returnTrace: bool, trace: Json): (r: Reply)
    ensures stream.None? ==> r == ErrorReply(500, "No stream function registered")
    ensures stream.Some? ==> r.EventStream? && r.payloads == Generate(emit(stream.value(data)), returnTrace, trace)
    ensures stream.Some? ==> && r.EventStream?
                             && Interpret(Frames(r.payloads)) == r.payloads
                             && r.payloads[|r.payloads| - 1] == DonePayload
  {
    match stream
    case None => ErrorReply(500, "No stream function registered")
    case Some(f) =>
      StreamRoundTrip(emit(f(data)), returnTrace, trace);
      EventStream(Generate(emit(f(data)), returnTrace, trace))
  }
}

=== FILE: strings.dfy ===
/** String helpers with the exact semantics of the Python and JavaScript built-ins the source calls. */
module Strings {

  predicate StartsWith(s: string, prefix: string) {
    |prefix| <= |s| && s[..|prefix|] == prefix
  }

  predicate EndsWith(s: string, suffix: string) {
    |suffix| <= |s| && s[|s| - |suffix|..] == suffix
  }

  /** `sub in s` (Python) / `s.includes(sub)` (JavaScript). */
  predicate Contains(s: string, sub: string)
    decreases |s|
  {
    StartsWith(s, sub) || (|s| > 0 && Contains(s[1..], sub))
  }

  predicate NoChar(s: string, c: char) {
    forall i :: 0 <= i < |s| ==> s[i] != c
  }

  /** Index of the first occurrence of `c`, or `|s|` when there is none. */
  function IndexOf(s: string, c: char): (k: nat)
    ensures k <= |s|
    ensures k < |s| ==> s[k] == c
    ensures NoChar(s[..k], c)
  {
    if |s| == 0 then 0
    else if s[0] == c then 0
    else 1 + IndexOf(s[1..], c)
  }

  /** `s.split(sep)` for a one-character separator: Python and JavaScript agree, and "" splits to [""]. */
  function Split(s: string, sep: char): (parts: seq<string>)
    ensures |parts| > 0
    ensures forall i :: 0 <= i < |parts| ==> NoChar(parts[i], sep)
    decreases |s|
  {
    var k := IndexOf(s, sep);
    if k == |s| then [s] else [s[..k]] + Split(s[k + 1..], sep)
  }

  /** `sep.join(parts)` (Python) / `parts.join(sep)` (JavaScript). */
  function Join(parts: seq<string>, sep: string): string {
    if |parts| == 0 then ""
    else if |parts| == 1 then parts[0]
    else parts[0] + sep + Join(parts[1..], sep)
  }

  lemma IndexOfPrefix(a: string, b: string, c: char)
    requires NoChar(a, c)
    ensures IndexOf(a + [c] + b, c) == |a|
  {
    if |a| > 0 {
      assert (a + [c] + b)[1..] == a[1..] + [c] + b;
      IndexOfPrefix(a[1..], b, c);
    }
  }

  /** Splitting a joined list gives the list back when no part contains the separator. */
  lemma {:induction false} SplitJoin(parts: seq<string>, sep: char)
    requires |parts| > 0
    requires forall i :: 0 <= i < |parts| ==> NoChar(parts[i], sep)
    ensures Split(Join(parts, [sep]), sep) == parts
  {
    if |parts| == 1 {
      assert IndexOf(parts[0], sep) == |parts[0]|;
    } else {
      var rest := Join(parts[1..], [sep]);
      var s := parts[0] + [sep] + rest;
      assert Join(parts, [sep]) == s;
      IndexOfPrefix(parts[0], rest, sep);
      assert s[..|parts[0]|] == parts[0];
      assert s[|parts[0]| + 1..] == rest;
      SplitJoin(parts[1..], sep);
      assert parts == [parts[0]] + parts[1..];
    }
  }

  /** Joining the pieces of a split restores the string. */
  lemma {:induction false} JoinSplit(s: string, sep: char)
    ensures Join(Split(s, sep), [sep]) == s
    decreases |s|
  {
    var k := IndexOf(s, sep);
    if k < |s| {
      JoinSplit(s[k + 1..], sep);
      assert s == s[..k] + [sep] + s[k + 1..];
    }
  }

  /** `s.replace(pattern, replacement)` in Python: every non-overlapping occurrence, scanning left to right. */
  function ReplaceAll(s: string, pattern: string, replacement: string): (r: string)
    requires |pattern| > 0
    decreases |s|
  {
    if |s| == 0 then ""
    else if StartsWith(s, pattern) then replacement + ReplaceAll(s[|pattern|..], pattern, replacement)
    else [s[0]] + ReplaceAll(s[1..], pattern, replacement)
  }

  /** A string in which the pattern does not occur is left unchanged by `ReplaceAll`. */
  lemma {:induction false} ReplaceAllAbsent(s: string, pattern: string, replacement: string)
    requires |pattern| > 0
    requires !Contains(s, pattern)
    ensures ReplaceAll(s, pattern, replacement) == s
    decreases |s|
  {
    if |s| > 0 {
      ReplaceAllAbsent(s[1..], pattern, replacement);
    }
  }

  /** Replace every occurrence of one character by another (`s.replace(".", "/")`). */
  function ReplaceChar(s: string, from: char, to: char): (r: string)
    ensures |r| == |s|
    ensures forall i :: 0 <= i < |s| ==> r[i] == (if s[i] == from then to else s[i])
  {
    seq(|s|, i requires 0 <= i < |s| => if s[i] == from then to else s[i])
  }

  /** Characters for which Python's `str.isspace()` holds (what `str.strip()` removes). */
  predicate IsPySpace(c: char) {
    ('\t' <= c <= '\r') || ('\U{1c}' <= c <= ' ') || c == '\U{85}' || c == '\U{a0}' || c == '\U{1680}'
    || ('\U{2000}' <= c <= '\U{200a}') || c == '\U{2028}' || c == '\U{2029}' || c == '\U{202f}'
    || c == '\U{205f}' || c == '\U{3000}'
  }

  /** ECMAScript WhiteSpace and LineTerminator (what `String.prototype.trim` removes). */
  predicate IsJsSpace(c: char) {
    ('\t' <= c <= '\r') || c == ' ' || c == '\U{a0}' || c == '\U{1680}' || ('\U{2000}' <= c <= '\U{200a}')
    || c == '\U{2028}' || c == '\U{2029}' || c == '\U{202f}' || c == '\U{205f}' || c == '\U{3000}'
    || c == '\U{feff}'
  }

  predicate AllSpace(s: string, space: char -> bool) {
    forall i :: 0 <= i < |s| ==> space(s[i])
  }

  /** How many `space` characters `s` starts with. */
  function Leading(s: string, space: char -> bool): (n: nat)
    ensures n <= |s|
    ensures forall j :: 0 <= j < n ==> space(s[j])
    ensures n < |s| ==> !space(s[n])
  {
    if |s| > 0 && space(s[0]) then
      assert forall j :: 1 <= j < |s| ==> s[1..][j - 1] == s[j];
      1 + Leading(s[1..], space)
    else 0
  }

  /** How many `space` characters `s` ends with. */
  function Trailing(s: string, space: char -> bool): (n: nat)
    ensures n <= |s|
    ensures forall j :: |s| - n <= j < |s| ==> space(s[j])
    ensures n < |s| ==> !space(s[|s| - 1 - n])
  {
    if |s| > 0 && space(s[|s| - 1]) then
      assert forall j :: 0 <= j < |s| - 1 ==> s[..|s| - 1][j] == s[j];
      1 + Trailing(s[..|s| - 1], space)
    else 0
  }

  /** Remove leading and trailing `space` characters: the result is the middle slice of `s`
      that starts after the leading run and stops before a run of `space` characters. */
  function Trim(s: string, space: char -> bool): (r: string)
    ensures Leading(s, space) + |r| <= |s| && r == s[Leading(s, space)..Leading(s, space) + |r|]
    ensures AllSpace(s[..Leading(s, space)], space) && AllSpace(s[Leading(s, space) + |r|..], space)
    ensures |r| > 0 ==> !space(r[0]) && !space(r[|r| - 1])
    ensures |r| == 0 <==> AllSpace(s, space)
  {
    var i := Leading(s, space);
    if i == |s| then
      assert s[..i] == s;
      ""
    else
      var k := Trailing(s, space);
      assert k <= |s| - i - 1;
      var r := s[i..|s| - k];
      assert r[|r| - 1] == s[|s| - 1 - k];
      r
  }

  /** Python `s.strip()`. */
  function PyStrip(s: string): string {
    Trim(s, IsPySpace)
  }

  /** JavaScript `s.trim()`. */
  function JsTrim(s: string): string {
    Trim(s, IsJsSpace)
  }

  /** `s.lower()` restricted to ASCII letters; other characters are kept. */
  function AsciiLower(s: string): (r: string)
    ensures |r| == |s|
    ensures forall i :: 0 <= i < |s| ==> r[i] == (if 'A' <= s[i] <= 'Z' then (s[i] as int + 32) as char else s[i])
  {
    seq(|s|, i requires 0 <= i < |s| => if 'A' <= s[i] <= 'Z' then (s[i] as int + 32) as char else s[i])
  }

  predicate IsDigit(c: char) {
    '0' <= c <= '9'
  }

  /** Decimal rendering of a natural number, as `str(n)` / `String(n)` print it. */
  function NatToString(n: nat): (r: string)
    ensures |r| > 0
    ensures forall i :: 0 <= i < |r| ==> IsDigit(r[i])
  {
    var d := ['0' + (n % 10) as char];
    if n < 10 then d else NatToString(n / 10) + d
  }

  /** Decimal rendering of an integer, with a leading '-' when negative. */
  function IntToString(n: int): (r: string)
    ensures |r| > 0
    ensures forall i :: 0 <= i < |r| ==> IsDigit(r[i]) || r[i] == '-'
  {
    if n < 0 then "-" + NatToString(-n) else NatToString(n)
  }
}

=== FILE: tool_agent.dfy ===
/**
 * The tool-calling responses agent: tool registration from Unity Catalog function specs,
 * the tool step that answers a `function_call`, and the bounded loop that alternates LLM
 * turns and tool steps. The LLM turn (model call plus stream aggregation), the Unity
 * Catalog client, `json.loads` and the id of the final notice are parameters.
 */
module ToolAgent {
  import opened Wrappers
  import opened Strings
  import opened Json
  import opened ServerCommon

  /** A Python dict decoded from JSON. */
  type Dict = seq<(string, Json)>

  /** A tool's execution function: `str()` of what it returns, or the message it raises. */
  type ExecFn = Dict -> Result<string, string>

  /** A Python function: what calling it does, and its `module.qualname`, which Python puts at
      the head of the errors a bad call raises. */
  datatype Callable = Callable(run: ExecFn, qualname: string)

  datatype ToolInfo = ToolInfo(name: string, spec: Dict, exec: Callable)

  /** A Unity Catalog function result: its error text, if any, and `str()` of its value. */
  datatype UcResult = UcResult(error: Option<string>, value: string)

  /** `uc_function_client.execute_function(name, args)`, which may itself raise. */
  type UcClient = (string, Dict) -> Result<UcResult, string>

  // ----- tool registration -----------------------------------------------------------------------

  /** No two adjacent underscores. */
  predicate NoDoubleUnderscore(s: string) {
    forall i :: 0 <= i < |s| - 1 ==> !(s[i] == '_' && s[i + 1] == '_')
  }

  lemma {:induction false} ReplaceLeavesNoDouble(s: string)
    ensures var r := ReplaceAll(s, "__", ".");
            && NoDoubleUnderscore(r)
            && (|r| > 0 && r[0] == '_' ==> |s| > 0 && s[0] == '_' && !StartsWith(s, "__"))
    decreases |s|
  {
    if |s| > 0 {
      if StartsWith(s, "__") {
        ReplaceLeavesNoDouble(s[2..]);
        var rest := ReplaceAll(s[2..], "__", ".");
        assert ReplaceAll(s, "__", ".") == "." + rest;
        assert forall i :: 1 <= i < |rest| ==> ("." + rest)[i] == rest[i - 1];
      } else {
        ReplaceLeavesNoDouble(s[1..]);
        var rest := ReplaceAll(s[1..], "__", ".");
        assert ReplaceAll(s, "__", ".") == [s[0]] + rest;
        assert forall i :: 1 <= i < |rest| ==> ([s[0]] + rest)[i] == rest[i - 1];
      }
    }
  }

  lemma {:induction false} NoDoubleNotContained(s: string)
    requires NoDoubleUnderscore(s)
    ensures !Contains(s, "__")
    decreases |s|
  {
    if |s| > 0 {
      assert !StartsWith(s, "__") by {
        if |s| >= 2 {
          assert !(s[0] == '_' && s[1] == '_');
        }
      }
      assert NoDoubleUnderscore(s[1..]) by {
        forall i | 0 <= i < |s[1..]| - 1 ensures !(s[1..][i] == '_' && s[1..][i + 1] == '_') {
          assert s[1..][i] == s[i + 1] && s[1..][i + 1] == s[i + 2];
        }
      }
      NoDoubleNotContained(s[1..]);
    }
  }

  lemma NameFacts(toolName: string)
    ensures !Contains(ReplaceAll(toolName, "__", "."), "__")
    ensures !Contains(toolName, "__") ==> ReplaceAll(toolName, "__", ".") == toolName
  {
    ReplaceLeavesNoDouble(toolName);
    NoDoubleNotContained(ReplaceAll(toolName, "__", "."));
    if !Contains(toolName, "__") {
      ReplaceAllAbsent(toolName, "__", ".");
    }
  }

  /** `tool_name.replace("__", ".")`: the Unity Catalog function behind a tool. No "__" is
      left, and a name without one is kept as it is. */
  function UdfName(toolName: string): (r: string)
    ensures !Contains(r, "__")
    ensures !Contains(toolName, "__") ==> r == toolName
  {
    NameFacts(toolName);
    ReplaceAll(toolName, "__", ".")
  }

  /** The generated `exec_fn`: the function's error when it has one, its value otherwise. */
  function RunUdf(client: UcClient, udf: string, args: Dict): (r: Result<string, string>)
    ensures client(udf, args).Err? ==> r == Err(client(udf, args).error)
    ensures client(udf, args).Ok? && client(udf, args).value.error.Some? ==> r == Ok(client(udf, args).value.error.value)
    ensures client(udf, args).Ok? && client(udf, args).value.error.None? ==> r == Ok(client(udf, args).value.value)
  {
    match client(udf, args)
    case Err(m) => Err(m)
    case Ok(res) => Ok(if res.error.Some? then res.error.value else res.value)
  }

  /** The qualified name of the `exec_fn` that `create_tool_info` defines in module `moduleName`. */
  function LocalExecName(moduleName: string): string {
    moduleName + ".create_tool_info.<locals>.exec_fn"
  }

  /** `create_tool_info`, defined in module `moduleName`: "strict" is popped from the spec's
      "function" dict, the tool is named after the function, and its executor is the supplied
      one or else the Unity Catalog function of the same name with "__" read as ".". Missing
      or ill-typed keys raise: a list has a `pop` that takes one argument, anything else that
      is not a dict has none. */
  function CreateToolInfo(spec: Dict, execParam: Option<Callable>, client: UcClient, moduleName: string): (r: Result<ToolInfo, string>)
    ensures r.Ok? <==> (var f := Lookup(spec, "function");
                        && f.Some? && f.value.Obj?
                        && var name := Lookup(f.value.fields, "name"); name.Some? && name.value.Str?)
    ensures r.Ok? ==>
              var f := Lookup(spec, "function").value.fields;
              && r.value.name == Lookup(f, "name").value.s
              && Lookup(r.value.spec, "function") == Some(Obj(Remove(f, "strict")))
              && (forall k :: k != "function" ==> Lookup(r.value.spec, k) == Lookup(spec, k))
              && (execParam.Some? ==> r.value.exec == execParam.value)
              && (execParam.None? ==> r.value.exec.qualname == LocalExecName(moduleName))
              && (execParam.None? ==> forall args :: r.value.exec.run(args) == RunUdf(client, UdfName(r.value.name), args))
    ensures Lookup(spec, "function").None? ==> r == Err("'function'")
    ensures Lookup(spec, "function").Some? && Lookup(spec, "function").value.Arr? ==>
              r == Err("pop expected at most 1 argument, got 2")
    ensures Lookup(spec, "function").Some? && !Lookup(spec, "function").value.Arr? && !Lookup(spec, "function").value.Obj? ==>
              r == Err("'" + PyTypeName(Lookup(spec, "function").value) + "' object has no attribute 'pop'")
  {
    var f := Lookup(spec, "function");
    if f.None? then Err("'function'")
    else if f.value.Arr? then Err("pop expected at most 1 argument, got 2")
    else if !f.value.Obj? then Err("'" + PyTypeName(f.value) + "' object has no attribute 'pop'")
    else
      var fn := Remove(f.value.fields, "strict");
      var name := Lookup(fn, "name");
      if name.None? then Err("'name'")
      else if !name.value.Str? then Err("'" + PyTypeName(name.value) + "' object has no attribute 'replace'")
      else
        var udf := UdfName(name.value.s);
        var exec := if execParam.Some? then execParam.value
                    else Callable(((args: Dict) => RunUdf(client, udf, args)), LocalExecName(moduleName));
        Ok(ToolInfo(name.value.s, Set(spec, "function", Obj(fn)), exec))
  }

  // ----- the agent loop --------------------------------------------------------------------------

  /** A stream event the agent yields: an `output_item.done` with its item, or any other. */
  datatype AgentEvent = ItemDone(item: Json) | OtherEvent(event: Json)

  /** One LLM turn: the events streamed, the items the aggregator appended to the messages,
      and what the call raised, if anything. */
  datatype LlmTurn = LlmTurn(events: seq<AgentEvent>, appended: seq<Dict>, raised: Option<string>)

  /** The agent's configuration: its tools in registration order, the LLM turn, `json.loads`,
      and the id given to the "max iterations" notice. */
  datatype Agent = Agent(tools: seq<ToolInfo>, llm: seq<Dict> -> LlmTurn, parse: string -> Result<Json, string>, noticeId: string)

  /** No tool registered after position `i` has the name of the tool at `i`. */
  predicate LastOfName(tools: seq<ToolInfo>, i: nat)
    requires i < |tools|
  {
    forall j :: i < j < |tools| ==> tools[j].name != tools[i].name
  }

  /** A tool that is the last of its name among all but the final registration stays so
      when the final one has another name. */
  lemma LastOfNameExtends(tools: seq<ToolInfo>, prefix: seq<ToolInfo>, t: ToolInfo)
    requires |tools| > 0 && prefix == tools[..|tools| - 1] && tools[|tools| - 1].name != t.name
    requires exists i :: 0 <= i < |prefix| && prefix[i] == t && LastOfName(prefix, i)
    ensures exists i :: 0 <= i < |tools| && tools[i] == t && LastOfName(tools, i)
  {
    var n := |tools| - 1;
    var i :| 0 <= i < n && prefix[i] == t && LastOfName(prefix, i);
    assert tools[i] == t;
    forall j | i < j < |tools| ensures tools[j].name != tools[i].name {
      if j < n {
        assert tools[..n][j] == tools[j];
      }
    }
  }

  /** `self._tools_dict[name]`: the dict comprehension keeps the last registered tool of each
      name, so that one is found; a key that is not a string matches no tool. */
  function FindTool(tools: seq<ToolInfo>, name: Json): (r: Option<ToolInfo>)
    ensures r.Some? ==> name.Str? && r.value in tools && r.value.name == name.s
    ensures r.Some? ==> exists i :: 0 <= i < |tools| && tools[i] == r.value && LastOfName(tools, i)
    ensures r.None? ==> forall i :: 0 <= i < |tools| ==> !(name.Str? && tools[i].name == name.s)
  {
    if |tools| == 0 then None
    else
      var n := |tools| - 1;
      var last := tools[n];
      if name.Str? && last.name == name.s then
        assert LastOfName(tools, n);
        Some(last)
      else
        var r := FindTool(tools[..n], name);
        if r.Some? then
          LastOfNameExtends(tools, tools[..n], r.value);
          r
        else
          assert forall i :: 0 <= i < n ==> tools[..n][i] == tools[i];
          r
  }

  /** `create_function_call_output_item(call_id, output)`. */
  function OutputItem(callId: Json, output: string): Dict {
    [("type", Str("function_call_output")), ("call_id", callId), ("output", Str(output))]
  }

  /** `handle_tool_call`: decode the arguments, run the named tool with them as keyword
      arguments, and answer the call with its output; each missing key or failed step raises. */
  function HandleToolCall(a: Agent, call: Dict): (r: Result<Dict, string>)
    ensures r.Ok? ==>
              && Lookup(call, "arguments").Some? && Lookup(call, "arguments").value.Str?
              && a.parse(Lookup(call, "arguments").value.s).Ok?
              && a.parse(Lookup(call, "arguments").value.s).value.Obj?
              && Lookup(call, "name").Some?
              && FindTool(a.tools, Lookup(call, "name").value).Some?
              && Lookup(call, "call_id").Some?
              && var tool := FindTool(a.tools, Lookup(call, "name").value).value;
                 var out := tool.exec.run(a.parse(Lookup(call, "arguments").value.s).value.fields);
                 out.Ok? && r.value == OutputItem(Lookup(call, "call_id").value, out.value)
    ensures && Lookup(call, "arguments").Some? && Lookup(call, "arguments").value.Str?
            && a.parse(Lookup(call, "arguments").value.s).Ok?
            && !a.parse(Lookup(call, "arguments").value.s).value.Obj?
            && Lookup(call, "name").Some? && FindTool(a.tools, Lookup(call, "name").value).Some? ==>
              r == Err(FindTool(a.tools, Lookup(call, "name").value).value.exec.qualname
                       + "() argument after ** must be a mapping, not "
                       + PyTypeName(a.parse(Lookup(call, "arguments").value.s).value))
    ensures && Lookup(call, "arguments").Some? && Lookup(call, "arguments").value.Str?
            && a.parse(Lookup(call, "arguments").value.s).Ok?
            && a.parse(Lookup(call, "arguments").value.s).value.Obj?
            && Lookup(call, "name").Some? && FindTool(a.tools, Lookup(call, "name").value).Some?
            && FindTool(a.tools, Lookup(call, "name").value).value.exec.run(a.parse(Lookup(call, "arguments").value.s).value.fields).Ok?
            && Lookup(call, "call_id").Some? ==>
              r == Ok(OutputItem(Lookup(call, "call_id").value,
                                 FindTool(a.tools, Lookup(call, "name").value).value.exec.run(a.parse(Lookup(call, "arguments").value.s).value.fields).value))
  {
    var args := Lookup(call, "arguments");
    if args.None? then Err("'arguments'")
    else if !args.value.Str? then Err("the JSON object must be str, bytes or bytearray, not " + PyTypeName(args.value))
    else
      match a.parse(args.value.s)
      case Err(m) => Err(m)
      case Ok(parsed) =>
        var name := Lookup(call, "name");
        if name.None? then Err("'name'")
        else if name.value.Arr? || name.value.Obj? then Err("unhashable type: '" + PyTypeName(name.value) + "'")
        else
          match FindTool(a.tools, name.value)
          case None => Err(PyRepr(name.value))
          case Some(tool) =>
            if !parsed.Obj? then Err(tool.exec.qualname + "() argument after ** must be a mapping, not " + PyTypeName(parsed))
            else
              match tool.exec.run(parsed.fields)
              case Err(m) => Err(m)
              case Ok(output) =>
                var callId := Lookup(call, "call_id");
                if callId.None? then Err("'call_id'") else Ok(OutputItem(callId.value, output))
  }

  predicate IsAssistant(m: Dict) {
    Lookup(m, "role") == Some(Str("assistant"))
  }

  predicate IsFunctionCall(m: Dict) {
    Lookup(m, "type") == Some(Str("function_call"))
  }

  /** What the loop did: events yielded, the message list at the end, what was raised, whether
      it returned because the last message was the assistant's, and the number of completed
      iterations. */
  datatype LoopResult = LoopResult(events: seq<AgentEvent>, messages: seq<Dict>, raised: Option<string>, returned: bool, iterations: nat)

  /** The `for _ in range(left)` loop of `call_and_run_tools`. Each iteration looks at the last
      message: the assistant's ends the loop, a function call gets one tool step, anything
      else an LLM turn. */
  function Loop(a: Agent, messages: seq<Dict>, left: nat): (r: LoopResult)
    ensures r.iterations <= left
    ensures |r.messages| >= |messages| && r.messages[..|messages|] == messages
    ensures r.returned ==> r.raised.None?
    ensures r.returned || r.raised.Some? <==> r.iterations < left
    decreases left
  {
    if left == 0 then LoopResult([], messages, None, false, 0)
    else if |messages| == 0 then LoopResult([], messages, Some("list index out of range"), false, 0)
    else
      var last := messages[|messages| - 1];
      if IsAssistant(last) then LoopResult([], messages, None, true, 0)
      else if IsFunctionCall(last) then
        match HandleToolCall(a, last)
        case Err(m) => LoopResult([], messages, Some(m), false, 0)
        case Ok(output) =>
          var rest := Loop(a, messages + [output], left - 1);
          assert rest.messages[..|messages|] == (messages + [output])[..|messages|];
          LoopResult([ItemDone(Obj(output))] + rest.events, rest.messages, rest.raised, rest.returned, rest.iterations + 1)
      else
        var turn := a.llm(messages);
        var grown := messages + turn.appended;
        assert grown[..|messages|] == messages;
        if turn.raised.Some? then LoopResult(turn.events, grown, turn.raised, false, 0)
        else
          var rest := Loop(a, grown, left - 1);
          assert rest.messages[..|messages|] == grown[..|grown|][..|messages|];
          LoopResult(turn.events + rest.events, rest.messages, rest.raised, rest.returned, rest.iterations + 1)
  }

  const MaxIterationsText: string := "Max iterations reached. Stopping."

  /** `create_text_output_item(text, id)`: an assistant message with one text segment. */
  function TextItem(text: string, id: string): Json {
    Obj([("id", Str(id)), ("content", Arr([Obj([("text", Str(text)), ("type", Str("output_text"))])])),
         ("role", Str("assistant")), ("type", Str("message"))])
  }

  /** The events of `call_and_run_tools` and what it raised: the loop's events, then the
      "max iterations" notice when the loop ran out. */
  datatype Emission = Emission(events: seq<AgentEvent>, raised: Option<string>)

  function CallAndRunTools(a: Agent, messages: seq<Dict>, maxIter: nat): (r: Emission)
    ensures var loop := Loop(a, messages, maxIter);
            && r.raised == loop.raised
            && |r.events| >= |loop.events|
            && r.events[..|loop.events|] == loop.events
            && (loop.iterations == maxIter <==> r.events == loop.events + [ItemDone(TextItem(MaxIterationsText, a.noticeId))])
            && (loop.iterations < maxIter ==> r.events == loop.events)
  {
    var loop := Loop(a, messages, maxIter);
    if !loop.returned && loop.raised.None? then
      var events := loop.events + [ItemDone(TextItem(MaxIterationsText, a.noticeId))];
      assert events[..|loop.events|] == loop.events;
      Emission(events, None)
    else Emission(loop.events, loop.raised)
  }

  /** A last message from the assistant ends the loop before anything is yielded. */
  lemma AssistantStops(a: Agent, messages: seq<Dict>, left: nat)
    requires left > 0 && |messages| > 0 && IsAssistant(messages[|messages| - 1])
    ensures Loop(a, messages, left) == LoopResult([], messages, None, true, 0)
  {
  }

  /** A function call as last message is answered by exactly one tool step: its output item
      is appended to the messages and yielded as an `output_item.done`, and the loop goes on
      from there with one iteration fewer. */
  lemma ToolStep(a: Agent, messages: seq<Dict>, left: nat)
    requires left > 0 && |messages| > 0
    requires var last := messages[|messages| - 1];
             !IsAssistant(last) && IsFunctionCall(last) && HandleToolCall(a, last).Ok?
    ensures var output := HandleToolCall(a, messages[|messages| - 1]).value;
            var rest := Loop(a, messages + [output], left - 1);
            var r := Loop(a, messages, left);
            && r.events == [ItemDone(Obj(output))] + rest.events
            && |r.messages| > |messages| && r.messages[|messages|] == output
            && r.iterations == rest.iterations + 1
  {
    var output := HandleToolCall(a, messages[|messages| - 1]).value;
    var rest := Loop(a, messages + [output], left - 1);
    assert rest.messages[..|messages| + 1] == messages + [output];
    assert rest.messages[|messages|] == rest.messages[..|messages| + 1][|messages|];
  }

  // ----- predict ---------------------------------------------------------------------------------

  const SystemPrompt: string := "\nYou are a helpful assistant that can run Python code.\n"

  /** `predict_stream`'s message list: the system prompt, then the request's input items. */
  function InitialMessages(input: seq<Dict>): (r: seq<Dict>)
    ensures |r| == |input| + 1
    ensures r[0] == [("role", Str("system")), ("content", Str(SystemPrompt))]
    ensures r[1..] == input
  {
    [[("role", Str("system")), ("content", Str(SystemPrompt))]] + input
  }

  /** `predict_stream`: the tool loop over the system prompt and the input, for at most ten
      rounds. An input that already ends with the assistant's message yields nothing. */
  function PredictStream(a: Agent, input: seq<Dict>): (r: Emission)
    ensures var loop := Loop(a, InitialMessages(input), 10);
            && r.raised == loop.raised
            && |r.events| >= |loop.events| && r.events[..|loop.events|] == loop.events
            && (loop.iterations == 10 ==> r.events == loop.events + [ItemDone(TextItem(MaxIterationsText, a.noticeId))])
    ensures |input| > 0 && IsAssistant(input[|input| - 1]) ==> r == Emission([], None)
  {
    assert |input| > 0 ==> InitialMessages(input)[|input|] == input[|input| - 1];
    CallAndRunTools(a, InitialMessages(input), 10)
  }

  /** The items of the `output_item.done` events, in stream order. */
  function DoneItems(events: seq<AgentEvent>): (r: seq<Json>)
    ensures |r| <= |events|
    ensures forall i :: 0 <= i < |r| ==> ItemDone(r[i]) in events
    ensures forall i :: 0 <= i < |events| && events[i].ItemDone? ==> events[i].item in r
  {
    if |events| == 0 then []
    else
      var rest := DoneItems(events[1..]);
      assert forall i :: 1 <= i < |events| ==> events[i] == events[1..][i - 1];
      (if events[0].ItemDone? then [events[0].item] else []) + rest
  }

  lemma {:induction false} DoneItemsAppend(a: seq<AgentEvent>, b: seq<AgentEvent>)
    ensures DoneItems(a + b) == DoneItems(a) + DoneItems(b)
    decreases |a|
  {
    if |a| == 0 {
      assert a + b == b;
    } else {
      assert (a + b)[1..] == a[1..] + b;
      DoneItemsAppend(a[1..], b);
    }
  }

  datatype PredictResponse = PredictResponse(output: seq<Json>, customOutputs: Option<Json>)

  /** `predict`: the stream's `output_item.done` items in order, with the custom inputs echoed
      as custom outputs; whatever the stream raises, `predict` raises. The output is the items
      of the tool steps and LLM turns, followed by the "max iterations" notice only when all
      ten rounds were used. */
  function Predict(a: Agent, input: seq<Dict>, customInputs: Option<Json>): (r: Result<PredictResponse, string>)
    ensures r.Err? <==> PredictStream(a, input).raised.Some?
    ensures r.Ok? ==> r.value.customOutputs == customInputs
    ensures var loop := Loop(a, InitialMessages(input), 10);
            r.Ok? ==> r.value.output == DoneItems(loop.events)
                                        + (if loop.iterations == 10 then [TextItem(MaxIterationsText, a.noticeId)] else [])
  {
    var loop := Loop(a, InitialMessages(input), 10);
    DoneItemsAppend(loop.events, [ItemDone(TextItem(MaxIterationsText, a.noticeId))]);
    var s := PredictStream(a, input);
    if s.raised.Some? then Err(s.raised.value) else Ok(PredictResponse(DoneItems(s.events), customInputs))
  }

  /** When the loop runs out of iterations, `predict`'s output is the items the loop yielded
      followed by the "max iterations" notice. */
  lemma PredictExhausted(a: Agent, input: seq<Dict>, customInputs: Option<Json>)
    requires Loop(a, InitialMessages(input), 10).iterations == 10
    ensures var r := Predict(a, input, customInputs);
            && r.Ok?
            && r.value.output == DoneItems(Loop(a, InitialMessages(input), 10).events)
                                 + [TextItem(MaxIterationsText, a.noticeId)]
  {
    var loop := Loop(a, InitialMessages(input), 10);
    DoneItemsAppend(loop.events, [ItemDone(TextItem(MaxIterationsText, a.noticeId))]);
  }
}

=== FILE: wrappers.dfy ===
/** Failure-carrying datatypes shared by every module of the model. */
module Wrappers {

  /** An optional value: `None` stands for Python's `None` / TypeScript's `undefined`, and for a
      validation that failed. */
  datatype Option<+T> = None | Some(value: T) {
    predicate IsFailure() {
      None?
    }

    function PropagateFailure<U>(): Option<U>
      requires None?
    {
      None
    }

    function Extract(): T
      requires Some?
    {
      value
    }

    function GetOr(default: T): T {
      match this
      case Some(v) => v
      case None => default
    }
  }

  /** A value or the error that replaced it (an exception in the source). */
  datatype Result<+R, +E> = Ok(value: R) | Err(error: E)
}
